=== FILE: README.md ===
# Reflection utilities and Wi-Fi configuration helpers, modelled in Dafny

This project models the core of the `org.rdm.util` reflection library and the pure parts of
the `com.sr105.wifi` wrapper, written in Java. The models cover:

- **Overload resolution.** `ReflectionUtils.MethodMatcher` picks the public method or
  constructor that best fits a list of runtime argument classes. It uses primitive widening,
  the `null` sentinel `Void.TYPE` and an incremental "most specific" reduction.
- **The resolved-method cache** in front of resolution. It is a 100-entry `LRUCache` keyed by
  class, method name and argument classes.
- **The invocation front ends** on top of the cache: `invokeMethod`, `invokeStaticMethod`,
  `instantiateClass`, and the `ReflectionObject` proxy with its equality, hashing and typed
  accessors.
- **The array helpers of `ArrayUtils`** that the library uses: byte-array concatenation and
  extraction, mapping, range validation, copying into collections, range iterators and joining
  into strings.
- **The Wi-Fi helpers.** `WifiUtils` quotes WPA and WEP keys for `wpa_supplicant`.
  `WifiConfigurationWrapper` turns reflectively read fields into a disable-reason text, enum
  constants and the default gateway.

Java reflection is not modelled as a runtime feature. Instead:

- An explicit **registry** (`Hierarchy.Registry`) says, for every type, its superclass, its
  directly implemented interfaces, whether it is public, and its public methods. The supertype
  relation and the accessible-ancestor search are computed from it.
- A class is a primitive class, a primitive wrapper class, `Object`, an array class given by
  its component class, or any other class or interface by id. The `null` sentinel `Void.TYPE`
  is separate. `isAssignableFrom` follows Java: a class is assignable to its registered
  supertypes, every non-primitive class (interfaces and arrays included) is assignable to
  `Object`, and an array of references is assignable to an array of a supertype of its
  component.
- Calls into code the model cannot see are parameters of the model functions. These are
  `Method.invoke`, `Constructor.newInstance`, `Class.forName`, `Object.equals`/`hashCode`,
  `toString` of a class, and reflective field reads.
- A failing foreign call is an `Outcome` that carries the exception class.

Java `int` arithmetic is modelled where it matters. `JavaLang.AddInt` wraps into 32 bits, and
array lengths are bounded by `Integer.MAX_VALUE`. Three of the source's range checks
overflow, and `toString` inherits one of them; they are listed under Findings.

Modules, one per file:
- `java_lang.dfy`: `Option`, `Outcome`, exceptions, `int` wrap-around.
- `types.dfy`: the type universe and the primitive tables.
- `hierarchy.dfy`: the registry, supertypes, accessible-method search, `implementsInterface(s)`.
- `compatibility.dfy`: `isAssignableFrom` and `valuesAreCompatibleWithTypes`.
- `matcher.dfy`: the method catalog and overload resolution.
- `scenarios.dfy`: worked resolutions.
- `lru_cache.dfy`: `LRUCache`.
- `array_utils.dfy`: `ArrayUtils`.
- `resolver.dfy`: the cached lookup, the invoke front ends and constructor lookup.
- `reflection_object.dfy`: `ReflectionObject`.
- `wifi_utils.dfy`: `WifiUtils` key rules.
- `wifi_configuration.dfy`: `WifiConfigurationWrapper` reads.

Paths below are relative to the repository root. `ReflectionUtils.java`, `ArrayUtils.java`,
`LRUCache.java` and `ReflectionObject.java` live in `reflection/src/main/java/org/rdm/util/`.
`WifiUtils.java` and `WifiConfigurationWrapper.java` live in
`wifiwrapper/src/main/java/com/sr105/wifi/`.

### Where the code and its documentation disagree (the model follows the code)
- **`populateCollection` and a negative length.** The documentation says a negative length
  throws `IllegalArgumentException`. The code never checks the sign, and a negative length
  copies nothing.
- **`implementsInterfaces` with an empty array** answers `false`, because the loop that would
  confirm the empty set is never entered.
- **`toString(objects, first, length, ...)`** validates the range but then joins the whole
  array (`ArrayUtils.ToStringIgnoresRange`). A `null` delimiter is appended as the text
  `"null"`.
- **`findMostSpecificMemberIn`** compares a candidate only against the first member of the
  current set that it does not dominate. Its outcome can therefore depend on the order in which
  `getMethods()` lists the candidates (`Scenarios.ReductionDependsOnOrder`).

## Model

| member | source | states |
|---|---|---|
| JavaLang.AddInt | reflection/src/main/java/org/rdm/util/ArrayUtils.java:309 | Java `int` addition: exact when the sum fits, otherwise shifted by 2^32 into the `int` range |
| Types.PrimitiveEquivalentOf | reflection/src/main/java/org/rdm/util/ReflectionUtils.java:383-391 | a primitive class maps to itself and a wrapper to its primitive; every other class has no equivalent |
| Types.PrimitiveIsAssignableFromIsWidening | reflection/src/main/java/org/rdm/util/ReflectionUtils.java:400-424 | between primitive classes, `primitiveIsAssignableFrom` holds exactly for identity or a widening primitive conversion of section 5.1.2 of the Java Language Specification |
| Types.PrimitiveIsAssignableFromRejects | reflection/src/main/java/org/rdm/util/ReflectionUtils.java:400-424 | `null` or non-primitive operands are never assignable; `boolean` widens to nothing; nothing widens to `byte`, `char` or `boolean` |
| Hierarchy.SuperclassOf | reflection/src/main/java/org/rdm/util/ReflectionUtils.java:120-137 | the superclass edge descends in rank, and in a well-formed registry it is the declared superclass |
| Hierarchy.InterfacesOf | reflection/src/main/java/org/rdm/util/ReflectionUtils.java:142-159 | the interface edges descend in rank, and in a well-formed registry they are the declared interfaces in order |
| Hierarchy.AncestorRankDecreases | reflection/src/main/java/org/rdm/util/ReflectionUtils.java:114-182 | a proper ancestor has strictly lower rank, so no type is its own ancestor and the ancestor search terminates |
| Hierarchy.LookupMethod | reflection/src/main/java/org/rdm/util/ReflectionUtils.java:126-137 | `getMethod` finds a listed method with that name and those exact parameter types, and fails exactly when none exists |
| Hierarchy.FirstAccessibleDirect | reflection/src/main/java/org/rdm/util/ReflectionUtils.java:142-159 | the result is the method of the first directly implemented interface, in declaration order, that is public and has the method: every interface before it fails that test; none is found exactly when no interface passes it |
| Hierarchy.GetAccessibleMethodFromCorrect | reflection/src/main/java/org/rdm/util/ReflectionUtils.java:114-182 | `getAccessibleMethodFrom` finds a method exactly when some proper ancestor is public and has it, and what it returns is that ancestor's method |
| Hierarchy.AmongAncestorsCorrect | reflection/src/main/java/org/rdm/util/ReflectionUtils.java:162-182 | the search through a list of supertypes succeeds exactly when one of them has an accessible ancestor with the method |
| Hierarchy.GetAccessibleMethodFrom | reflection/src/main/java/org/rdm/util/ReflectionUtils.java:114-182 | a method found has the name and parameter types asked for |
| Hierarchy.ImplementsInterfaceChain | reflection/src/main/java/org/rdm/util/ReflectionUtils.java:477-496 | the chain walk finds the interface exactly when some class on the superclass chain declares it directly |
| Hierarchy.ImplementsInterfaceCall | reflection/src/main/java/org/rdm/util/ReflectionUtils.java:477-496 | a `null` class or interface answers `false`; otherwise the answer is whether some class on the superclass chain declares the interface directly |
| Hierarchy.ImplementsInterfacesCall | reflection/src/main/java/org/rdm/util/ReflectionUtils.java:511-529 | a `null` array throws `NullPointerException`; a `null` class answers `false`; otherwise the answer is `true` exactly when the array is non-empty and every entry is a non-null interface the class implements |
| Hierarchy.RemoveAlongChainCorrect | reflection/src/main/java/org/rdm/util/ReflectionUtils.java:931-951 | removing the interfaces met along the superclass chain empties the needed set exactly when every needed entry is a non-null interface the class implements |
| Hierarchy.ImplementsInterfacesCorrect | reflection/src/main/java/org/rdm/util/ReflectionUtils.java:511-529 | `implementsInterfaces` holds exactly when the array is non-empty and every entry is a non-null interface the class implements |
| Compatibility.ValuesAreCompatibleWithTypesIff | reflection/src/main/java/org/rdm/util/ReflectionUtils.java:579-610 | the loop accepts exactly when the lengths agree and every argument class fits its parameter, where fitting includes assignment to `Object` from interfaces and arrays and covariant reference arrays |
| Compatibility.ArgumentFitsCharacterized | reflection/src/main/java/org/rdm/util/ReflectionUtils.java:579-610 | a `null` argument fits exactly the non-primitive parameters; any other argument fits a parameter it is assignable to (a registered supertype, `Object`, or a covariant array), or a primitive or wrapper kind that is the same or widens to the parameter's |
| Compatibility.PlainReferenceFitsOnlySupertypes | reflection/src/main/java/org/rdm/util/ReflectionUtils.java:579-610 | an ordinary reference, `Object` or array argument fits exactly the parameters assignable from it: always `Object`, never a primitive, and a wrapper class only when it is a registered supertype |
| Compatibility.AssignabilityRules | reflection/src/main/java/org/rdm/util/ReflectionUtils.java:579-610 | `isAssignableFrom` is reflexive; with a primitive on either side it is identity; `Object` accepts exactly the non-primitive classes; two distinct array classes with no registered edge are assignable exactly when both components are references and the component is assignable |
| Matcher.ParameterTypesFrom | reflection/src/main/java/org/rdm/util/ReflectionUtils.java:64-91 | one class per value, `Void.TYPE` for `null`, and no classes for a `null` array |
| Matcher.CatalogContents | reflection/src/main/java/org/rdm/util/ReflectionUtils.java:186-215 | the catalog has an entry for a name exactly when the class lists a method of that name; for a public class the entry is every such method in listing order |
| Matcher.ScanCandidatesCorrect | reflection/src/main/java/org/rdm/util/ReflectionUtils.java:219-240 | the scan returns the first exact signature match wherever it stands; without one it returns every compatible candidate in order |
| Matcher.FirstNotDominated | reflection/src/main/java/org/rdm/util/ReflectionUtils.java:266-283 | the inner loop stops at the first set member the candidate is not more specific than: every member before the returned one is dominated by the candidate, and the loop runs through exactly when the candidate dominates the whole set |
| Matcher.FindMostSpecificMemberIn | reflection/src/main/java/org/rdm/util/ReflectionUtils.java:257-308 | the reduction returns one of the candidates, and its only failure is ambiguity |
| Matcher.FindMemberInList | reflection/src/main/java/org/rdm/util/ReflectionUtils.java:219-252 | a method found for the list is one of the list's members |
| Matcher.FindMemberInListOutcome | reflection/src/main/java/org/rdm/util/ReflectionUtils.java:219-252 | an exact match wins; otherwise a result is compatible with the arguments, "not found" means no candidate is compatible, and a single compatible candidate is the result |
| Matcher.FindBestMethodMatch | reflection/src/main/java/org/rdm/util/ReflectionUtils.java:44-54 | an unknown name fails as not found, and a found method comes from the catalog entry of that name |
| Matcher.DominantMemberWins | reflection/src/main/java/org/rdm/util/ReflectionUtils.java:257-308 | a candidate strictly more specific than every other candidate is the result, whatever the order of the list |
| Matcher.IncomparableMembersAreAmbiguous | reflection/src/main/java/org/rdm/util/ReflectionUtils.java:257-308 | two or more pairwise incomparable candidates always end in an ambiguity failure |
| Scenarios.CrossedWideningIsAmbiguous | reflection/src/main/java/org/rdm/util/ReflectionUtils.java:219-308 | `(int, long)` and `(long, int)` called with two `Short` values is ambiguous in either listing order |
| Scenarios.NullArgumentPicksReferenceParameter | reflection/src/main/java/org/rdm/util/ReflectionUtils.java:579-610 | a `null` argument selects `(String)` over `(int)`, and finds nothing when only `(int)` exists |
| Scenarios.ByteSelectsNarrowestWidening | reflection/src/main/java/org/rdm/util/ReflectionUtils.java:257-319 | a `Byte` argument selects `(int)` over `(long)` in either order |
| Scenarios.ExactMatchBeatsWidening | reflection/src/main/java/org/rdm/util/ReflectionUtils.java:229-234 | an exact signature match is chosen even when a widening candidate comes first |
| Scenarios.ReductionDependsOnOrder | reflection/src/main/java/org/rdm/util/ReflectionUtils.java:257-308 | the same three candidates are ambiguous in one listing order and resolve to `(Integer)` in another |
| Scenarios.InterfaceBeatsObject | reflection/src/main/java/org/rdm/util/ReflectionUtils.java:257-308 | a class implementing `Runnable`, passed to `f(Runnable)` and `f(Object)`, selects `f(Runnable)` in either order, since `Object` is assignable from the interface |
| Scenarios.CovariantArrayArgument | reflection/src/main/java/org/rdm/util/ReflectionUtils.java:579-610 | a `String[]` argument selects `f(Object[])` over `f(Object)` in either order: both fit, by array covariance and by assignment to `Object`, and `Object[]` is the more specific |
| LruCache.New | reflection/src/main/java/org/rdm/util/LRUCache.java:25-39 | the capacity is any Java `int`; the constructor throws `IllegalArgumentException` exactly when the capacity is -2 or less or so large that the hash-table size wraps, and otherwise makes an empty, consistent cache of that capacity |
| LruCache.Put | reflection/src/main/java/org/rdm/util/LRUCache.java:47-50 | `put` keeps keys distinct, the size within capacity, and the capacity unchanged |
| LruCache.Get | reflection/src/main/java/org/rdm/util/LRUCache.java:60-63 | a value is returned exactly when the key is present; the capacity is kept; a returned entry is then the most recent one |
| LruCache.ContainsKey | reflection/src/main/java/org/rdm/util/LRUCache.java:72-75 | `containsKey` agrees with the key set of the map view |
| LruCache.Remove | reflection/src/main/java/org/rdm/util/LRUCache.java:109-112 | a previous value is returned exactly when the key was present; afterwards the key is absent, the capacity is kept, and every other key is present exactly when it was before |
| LruCache.Clear | reflection/src/main/java/org/rdm/util/LRUCache.java:84-87 | after `clear` the cache is consistent, keeps its capacity, and contains no key |
| LruCache.IsEmpty | reflection/src/main/java/org/rdm/util/LRUCache.java:98-101 | `isEmpty` holds exactly when no key is contained |
| LruCache.UsedEntries | reflection/src/main/java/org/rdm/util/LRUCache.java:131-134 | the number of entries is zero exactly when the cache is empty, and never exceeds the capacity |
| LruCache.UnusedEntries | reflection/src/main/java/org/rdm/util/LRUCache.java:142-145 | for a consistent cache, the unused count is non-negative exactly when the capacity is, and equals the capacity when that is negative |
| LruCache.PutEvictsLeastRecent | reflection/src/main/java/org/rdm/util/LRUCache.java:30-38 | a new key is appended as most recent; when the cache is full, exactly the least recently used entry is dropped |
| LruCache.PutExistingKeepsOthers | reflection/src/main/java/org/rdm/util/LRUCache.java:47-50 | re-putting a present key replaces its value, moves it to most recent, and keeps the size |
| LruCache.PutThenGet | reflection/src/main/java/org/rdm/util/LRUCache.java:47-75 | with capacity at least one, a `put` is followed by `containsKey` holding and `get` returning the value put |
| LruCache.GetPromotes | reflection/src/main/java/org/rdm/util/LRUCache.java:60-63 | `get` of a present key returns its value and moves that entry to most recent; an absent key gives `null` and changes nothing |
| LruCache.RemoveOnlyThatKey | reflection/src/main/java/org/rdm/util/LRUCache.java:109-112 | `remove` returns the previous value and deletes only that key: the entries become the old ones with that entry cut out, the others in order, and an absent key leaves the cache as it was |
| LruCache.ClearEmpties | reflection/src/main/java/org/rdm/util/LRUCache.java:84-101 | after `clear`, the cache is empty, nothing is used, and all capacity is unused |
| LruCache.CapacityIsFixed | reflection/src/main/java/org/rdm/util/LRUCache.java:120-145 | no operation changes the capacity; `unusedEntries` is capacity minus used entries |
| LruCache.PutEntriesFrom | reflection/src/main/java/org/rdm/util/LRUCache.java:47-50 | after `put`, every entry was already there or is the new pair, which is present when capacity is at least one |
| LruCache.AccessOrderEviction | reflection/src/main/java/org/rdm/util/LRUCache.java:30-38 | with capacity 2, putting a then b, getting a, and putting c evicts b and leaves a and c |
| LruCache.NegativeCapacityKeepsNothing | reflection/src/main/java/org/rdm/util/LRUCache.java:25-39 | `new LRUCache(-1)` succeeds and `new LRUCache(-2)` throws; the first keeps nothing after a `put` and reports -1 unused entries |
| ArrayUtils.Concat | reflection/src/main/java/org/rdm/util/ArrayUtils.java:88-94 | `null` operands throw; an oversized sum throws `NegativeArraySizeException`; otherwise the result is the first array followed by the second |
| ArrayUtils.Extract | reflection/src/main/java/org/rdm/util/ArrayUtils.java:103-113 | a `null` array gives `null`; a negative length or a range outside the array throws; otherwise the result is the slice |
| ArrayUtils.ConcatenateAgreesWithConcat | reflection/src/main/java/org/rdm/util/ArrayUtils.java:124-154 | `concatenate` treats `null` as empty and otherwise equals `concat` |
| ArrayUtils.Concatenate | reflection/src/main/java/org/rdm/util/ArrayUtils.java:124-154 | `concatenate` succeeds exactly when the combined length fits in an `int`, and otherwise throws `NegativeArraySizeException` |
| ArrayUtils.ExtractUndoesConcat | reflection/src/main/java/org/rdm/util/ArrayUtils.java:88-113 | extracting the two ranges of a concatenation gives back both operands |
| ArrayUtils.MapArray | reflection/src/main/java/org/rdm/util/ArrayUtils.java:227-241 | a `null` array maps to `null`; otherwise the result has the same length and each element is the mapping of its input |
| ArrayUtils.MapIgnoresDefault | reflection/src/main/java/org/rdm/util/ArrayUtils.java:169-194 | the default value held by `SimpleObjectMapper` never changes the mapped array |
| ArrayUtils.MapThenInverse | reflection/src/main/java/org/rdm/util/ArrayUtils.java:227-241 | mapping with a map and then with its inverse gives back the original array |
| ArrayUtils.ValidateAsWritten | reflection/src/main/java/org/rdm/util/ArrayUtils.java:296-313 | the check as written: a negative length is exactly what throws `IllegalArgumentException`, and an accepted range starts inside the array with a non-negative length (its end is not bounded, see Findings) |
| ArrayUtils.ValidateFirstIndexAndLength | reflection/src/main/java/org/rdm/util/ArrayUtils.java:296-313 | the corrected check, with `first + length` taken exactly rather than in wrapping `int` arithmetic as line 309 does: a negative length throws `IllegalArgumentException`; the range is accepted exactly when it lies inside the array; any other failure is `IndexOutOfBoundsException` |
| ArrayUtils.ValidateAgreesWithoutOverflow | reflection/src/main/java/org/rdm/util/ArrayUtils.java:296-313 | when `first + length` fits in an `int`, the code as written and the exact check agree |
| ArrayUtils.CopyElementsInRange | reflection/src/main/java/org/rdm/util/ArrayUtils.java:385-417 | copying an in-range window adds exactly its flattened, processed elements in order, without failing |
| ArrayUtils.PopulateAsWritten | reflection/src/main/java/org/rdm/util/ArrayUtils.java:347-381 | as written: a `null` or empty array adds nothing and answers `false`; when it returns, it answers `true` exactly when the collection grew |
| ArrayUtils.PopulateCollection | reflection/src/main/java/org/rdm/util/ArrayUtils.java:347-381 | the corrected form: a `null` or empty array adds nothing and answers `false`; when it returns, it answers `true` exactly when the collection grew |
| ArrayUtils.PopulateAgreesWithoutOverflow | reflection/src/main/java/org/rdm/util/ArrayUtils.java:347-381 | whenever `first + length` fits in an `int`, `populateCollection` as written has the same outcome and collection as the corrected form |
| ArrayUtils.PopulateCollectionCorrect | reflection/src/main/java/org/rdm/util/ArrayUtils.java:347-381 | it throws exactly for a bad range on a non-empty array and then leaves the collection unchanged; otherwise it adds the flattened range; on a list it reports a change exactly when something was added |
| ArrayUtils.PopulateWholeAddsEveryElement | reflection/src/main/java/org/rdm/util/ArrayUtils.java:511-547 | the whole-array overloads never throw and add every element, processed and not flattened |
| ArrayUtils.ToUnmodifiableCollection | reflection/src/main/java/org/rdm/util/ArrayUtils.java:831-836 | the collection holds the array's elements in order, and is empty for `null` |
| ArrayUtils.Next | reflection/src/main/java/org/rdm/util/ArrayUtils.java:622-635 | `next` yields the current element and advances, and throws `NoSuchElementException` exactly at the end |
| ArrayUtils.Remove | reflection/src/main/java/org/rdm/util/ArrayUtils.java:637-640 | `remove` always throws `UnsupportedOperationException` |
| ArrayUtils.Drain | reflection/src/main/java/org/rdm/util/ArrayUtils.java:622-635 | calling `next` while `hasNext` holds yields exactly the iterator's remaining window and ends exhausted |
| ArrayUtils.IteratorAsWritten | reflection/src/main/java/org/rdm/util/ArrayUtils.java:604-617 | as written: a `null` array throws `NullPointerException`, a negative first index or length throws `IllegalArgumentException`, and otherwise the iterator is well-formed and starts at the first index |
| ArrayUtils.Iterator | reflection/src/main/java/org/rdm/util/ArrayUtils.java:604-617 | the corrected form: the same exceptions in the same cases, and otherwise a well-formed iterator starting at the first index |
| ArrayUtils.IteratorAgreesWithoutOverflow | reflection/src/main/java/org/rdm/util/ArrayUtils.java:604-617 | whenever `first + length` fits in an `int`, the iterator as written is the corrected one |
| ArrayUtils.IteratorYieldsWindow | reflection/src/main/java/org/rdm/util/ArrayUtils.java:604-667 | the iterator yields `array[first .. min(first + length, length of array))`, and nothing when `first` is past the end |
| ArrayUtils.IteratorOver | reflection/src/main/java/org/rdm/util/ArrayUtils.java:564-573 | the one-argument iterator covers the whole array, and a `null` array throws |
| ArrayUtils.JoinLoopIsJoin | reflection/src/main/java/org/rdm/util/ArrayUtils.java:704-712 | the append loop produces the elements joined by the delimiter, with `null` elements written as `"null"` |
| ArrayUtils.JoinAppend | reflection/src/main/java/org/rdm/util/ArrayUtils.java:704-712 | joining two non-empty halves is joining each and putting one delimiter between them |
| ArrayUtils.JoinLength | reflection/src/main/java/org/rdm/util/ArrayUtils.java:704-712 | the joined text is as long as the element texts plus one delimiter between each pair |
| ArrayUtils.ToString | reflection/src/main/java/org/rdm/util/ArrayUtils.java:687-720 | the corrected `toString`, with the range validated by the exact check rather than the wrapping one line 694 calls: `"null"` for a `null` array; it throws exactly when the range does not lie inside the array; otherwise prefix, joined elements, suffix |
| ArrayUtils.ToStringAsWritten | reflection/src/main/java/org/rdm/util/ArrayUtils.java:687-720 | as written: `"null"` for a `null` array; it throws exactly when the wrapping check at line 309 does; otherwise prefix, joined elements, suffix |
| ArrayUtils.ToStringOverflowAccepted | reflection/src/main/java/org/rdm/util/ArrayUtils.java:687-802 | as written, `["a", "b", "c"]` from index 1 with length `Integer.MAX_VALUE` renders `a,b,c`, through the six-argument form and both range overloads; the corrected form throws `IndexOutOfBoundsException` |
| ArrayUtils.ToStringAgreesWithoutOverflow | reflection/src/main/java/org/rdm/util/ArrayUtils.java:687-720 | whenever `first + length` fits in an `int`, the as-written and corrected `toString` give the same outcome |
| ArrayUtils.Framed | reflection/src/main/java/org/rdm/util/ArrayUtils.java:697-719 | the built text is the prefix unless `null`, the elements joined by the delimiter, and the suffix unless `null` |
| ArrayUtils.ToStringAffixed | reflection/src/main/java/org/rdm/util/ArrayUtils.java:728-742 | the whole array framed by prefix and suffix, `"null"` for a `null` array |
| ArrayUtils.ToStringRange | reflection/src/main/java/org/rdm/util/ArrayUtils.java:752-762 | no prefix or suffix, through the six-argument `toString` as written: `"null"` for a `null` array; it throws exactly when the wrapping check of line 309 does; otherwise the whole array joined by the delimiter |
| ArrayUtils.ToStringDelimited | reflection/src/main/java/org/rdm/util/ArrayUtils.java:771-784 | the whole array joined by the delimiter, `"null"` for a `null` array |
| ArrayUtils.ToStringRangeChar | reflection/src/main/java/org/rdm/util/ArrayUtils.java:792-802 | as the range overload, with a one-character delimiter: it throws exactly when the wrapping check of line 309 does, and otherwise joins the whole array |
| ArrayUtils.ToStringChar | reflection/src/main/java/org/rdm/util/ArrayUtils.java:810-823 | the whole array joined by a one-character delimiter, `"null"` for a `null` array |
| ArrayUtils.ToStringIgnoresRange | reflection/src/main/java/org/rdm/util/ArrayUtils.java:687-720 | any valid range gives the text of the whole array |
| ArrayUtils.WholeArrayOverloads | reflection/src/main/java/org/rdm/util/ArrayUtils.java:728-823 | the whole-array overloads give `"null"` for a `null` array and otherwise the joined elements with the given delimiter or affixes |
| ArrayUtils.ToStringExample | reflection/src/main/java/org/rdm/util/ArrayUtils.java:846-854 | `[a, null, b]` with delimiter `,` reads `a,null,b` |
| Resolver.GeMethodThatBestMatches | reflection/src/main/java/org/rdm/util/ReflectionUtils.java:633-665 | a cached key returns its method without resolving; a miss resolves, caches a found method under the key and otherwise throws `NoSuchMethodException`; a `null` class throws `NullPointerException` |
| Resolver.CacheOf | reflection/src/main/java/org/rdm/util/ReflectionUtils.java:640-645 | the cache is created empty with capacity 100 on first use |
| Resolver.CacheIsTransparent | reflection/src/main/java/org/rdm/util/ReflectionUtils.java:633-665 | when keys distinguish lookups, a cached answer is exactly what fresh resolution would give |
| Resolver.CoherentAfterGet | reflection/src/main/java/org/rdm/util/ReflectionUtils.java:647 | a cache `get` keeps every entry faithful to resolution |
| Resolver.CoherentAfterPut | reflection/src/main/java/org/rdm/util/ReflectionUtils.java:651-659 | storing a resolved method under its own key keeps every entry faithful to resolution |
| Resolver.SecondLookupHits | reflection/src/main/java/org/rdm/util/ReflectionUtils.java:633-665 | right after a successful lookup, the same lookup hits the cache and returns the same method without resolving |
| Resolver.InvokeClassMethod | reflection/src/main/java/org/rdm/util/ReflectionUtils.java:973-994 | a `null` argument array is empty; the argument classes select the method through the cache, and the call's outcome is the result |
| Resolver.InvokeMethod | reflection/src/main/java/org/rdm/util/ReflectionUtils.java:726-736 | a `null` receiver throws `NullPointerException` and leaves the cache alone; otherwise the lookup is keyed by the receiver's class, its cache update is kept, a lookup failure is rethrown, and a found method's invocation is the result |
| Resolver.InvokeStaticMethod | reflection/src/main/java/org/rdm/util/ReflectionUtils.java:783-793 | a static call looks up by the given class (possibly `null`), keeps the lookup's cache update, rethrows a lookup failure, and otherwise returns the found method's invocation |
| Resolver.WithoutThrowing | reflection/src/main/java/org/rdm/util/ReflectionUtils.java:742-760 | the non-throwing variants give `null` exactly when the call threw, and the value otherwise |
| Resolver.NullTargets | reflection/src/main/java/org/rdm/util/ReflectionUtils.java:742-760 | non-throwing invocation on a `null` receiver returns `null` and leaves the cache unchanged; a static call on a `null` class leaves the cache as a plain lookup of its key does, and either throws or is answered from an entry already there |
| Resolver.InstantiateClassWithTypes | reflection/src/main/java/org/rdm/util/ReflectionUtils.java:554-565 | the constructor used is one whose parameter types equal the given ones exactly; otherwise `NoSuchMethodException` |
| Resolver.InstantiateClass | reflection/src/main/java/org/rdm/util/ReflectionUtils.java:537-547 | a `null` or empty argument array asks for the no-argument constructor |
| Resolver.InstantiateClassIsExact | reflection/src/main/java/org/rdm/util/ReflectionUtils.java:537-547 | an argument's runtime class must equal the parameter type, so a `null` argument never finds a constructor |
| ReflectionObject.GetClassType | reflection/src/main/java/org/rdm/util/ReflectionObject.java:95-105 | a `null` class name throws `NullPointerException`; otherwise the class is what `forName` gives |
| ReflectionObject.WrapExisting | reflection/src/main/java/org/rdm/util/ReflectionObject.java:21-30 | wrapping fails when the class lookup fails, and otherwise succeeds exactly when the object is an instance of the class (`IllegalArgumentException` if not), wrapping that object and class |
| ReflectionObject.WrapAcceptsSubclasses | reflection/src/main/java/org/rdm/util/ReflectionObject.java:21-30 | an instance of the declared class or of any subclass is accepted, and `null` is refused |
| ReflectionObject.WrapAcceptsObjectAndCovariantArrays | reflection/src/main/java/org/rdm/util/ReflectionObject.java:21-30 | a proxy declared as `Object` accepts any non-`null` reference, and one declared as an array class accepts arrays of that component or of a registered subclass of it |
| ReflectionObject.IsInstance | reflection/src/main/java/org/rdm/util/ReflectionObject.java:25 | `isInstance` is false for `null` and for a primitive class, true for an object of exactly that class, and for `Object` true of every non-primitive object |
| ReflectionObject.NewInstanceWithTypes | reflection/src/main/java/org/rdm/util/ReflectionObject.java:113-124 | any construction failure gives `null`; success gives the constructed object |
| ReflectionObject.NewInstance | reflection/src/main/java/org/rdm/util/ReflectionObject.java:107-111 | a `null` class gives `null`; a `null` or empty argument array asks for the no-argument constructor |
| ReflectionObject.NewInstanceNullOnFailure | reflection/src/main/java/org/rdm/util/ReflectionObject.java:107-124 | `newInstance` gives `null` exactly when no constructor takes the arguments' classes, including whenever an argument is `null` |
| ReflectionObject.Construct | reflection/src/main/java/org/rdm/util/ReflectionObject.java:33-51 | the constructing forms fail exactly when the class lookup fails, record the looked-up class, and wrap what `newInstance` gives for that class and those types |
| ReflectionObject.Equals | reflection/src/main/java/org/rdm/util/ReflectionObject.java:59-80 | `equals` is reflexive, false for non-proxies, and for two proxies compares the wrapped objects null-safely and the declared classes |
| ReflectionObject.DifferentClassesNeverEqual | reflection/src/main/java/org/rdm/util/ReflectionObject.java:71-78 | proxies of different declared classes are never equal, whatever they wrap |
| ReflectionObject.EqualsSymmetric | reflection/src/main/java/org/rdm/util/ReflectionObject.java:59-80 | `equals` between proxies is symmetric when the wrapped objects' `equals` is |
| ReflectionObject.HashCode | reflection/src/main/java/org/rdm/util/ReflectionObject.java:82-88 | the hash is `31 * hash(object) + hash(class)` reduced into the `int` range, with `null` hashing to 0 |
| ReflectionObject.EqualProxiesHashEqual | reflection/src/main/java/org/rdm/util/ReflectionObject.java:59-88 | equal proxies have equal hash codes when the wrapped objects' hashing agrees with their equality |
| ReflectionObject.InvokeObjectMethod | reflection/src/main/java/org/rdm/util/ReflectionObject.java:157-160 | the call goes to the wrapped object without throwing; a `null` wrapped object gives `null` and leaves the cache alone |
| ReflectionObject.CastString | reflection/src/main/java/org/rdm/util/ReflectionObject.java:126-129 | `null` and strings pass the cast; anything else throws `ClassCastException` |
| ReflectionObject.CastInetAddress | reflection/src/main/java/org/rdm/util/ReflectionObject.java:147-150 | `null` and addresses pass the cast; anything else throws `ClassCastException` |
| ReflectionObject.UnboxBoolean | reflection/src/main/java/org/rdm/util/ReflectionObject.java:131-134 | a `Boolean` is unboxed; `null` throws `NullPointerException`; any other value fails the cast |
| ReflectionObject.UnboxInteger | reflection/src/main/java/org/rdm/util/ReflectionObject.java:136-139 | an `Integer` is unboxed; `null` throws `NullPointerException`; any other value fails the cast |
| ReflectionObject.UnboxLong | reflection/src/main/java/org/rdm/util/ReflectionObject.java:141-144 | a `Long` is unboxed; `null` throws `NullPointerException`; any other value fails the cast |
| ReflectionObject.Convert | reflection/src/main/java/org/rdm/util/ReflectionObject.java:126-160 | the reference accessors let `null` through, the primitive accessors throw on `null`, and the void accessor never fails |
| ReflectionObject.FailedCallPerAccessor | reflection/src/main/java/org/rdm/util/ReflectionObject.java:126-160 | when the call fails (the proxy wraps `null`, the lookup throws, or the found method throws), the string, address and void accessors give `null` and the boolean, int and long accessors throw `NullPointerException`; a `null` wrapped object leaves the cache alone |
| ReflectionObject.MatchingValuePassesThrough | reflection/src/main/java/org/rdm/util/ReflectionObject.java:126-160 | a value of the accessor's own type is returned unchanged |
| ReflectionObject.InvokeTyped | reflection/src/main/java/org/rdm/util/ReflectionObject.java:126-160 | a `null` wrapped object converts `null` and leaves the cache alone; otherwise the method is looked up through the cache by the object's class, the cache update is kept, and the result is the invoked method's value, or `null` when lookup or invocation failed, converted by the accessor |
| ReflectionObject.ToString | reflection/src/main/java/org/rdm/util/ReflectionObject.java:54-57 | `toString` is the wrapped object's `toString` through the non-throwing string accessor: a `null` wrapped object gives `null` and leaves the cache alone; otherwise a string or `null` result is returned, any other value throws `ClassCastException`, and a failed lookup or call gives `null` |
| WifiUtils.QuotedString | wifiwrapper/src/main/java/com/sr105/wifi/WifiUtils.java:243-245 | the value between two double quotes, with `null` written as `null` |
| WifiUtils.WpaKey | wifiwrapper/src/main/java/com/sr105/wifi/WifiUtils.java:218-225 | the WPA key is `null` exactly when its input is (the full rule is `WifiUtils.WpaKeyRule`) |
| WifiUtils.WepKey | wifiwrapper/src/main/java/com/sr105/wifi/WifiUtils.java:228-241 | the WEP key is `null` exactly when its input is (the full rule is `WifiUtils.WepKeyRule`) |
| WifiUtils.WpaKeyRule | wifiwrapper/src/main/java/com/sr105/wifi/WifiUtils.java:218-225 | the WPA key is unchanged exactly when it is `null`, empty or 64 hex digits, and otherwise comes back with one quote added at each end |
| WifiUtils.WepKeyRule | wifiwrapper/src/main/java/com/sr105/wifi/WifiUtils.java:228-241 | the WEP key is unchanged exactly when it is `null`, empty, or 10, 26 or 58 hex digits, and otherwise comes back with one quote added at each end |
| WifiUtils.QuotedStringRoundTrip | wifiwrapper/src/main/java/com/sr105/wifi/WifiUtils.java:243-245 | stripping the first and last characters recovers the quoted value, so quoting is injective |
| WifiUtils.KeyExamples | wifiwrapper/src/main/java/com/sr105/wifi/WifiUtils.java:218-241 | a 10-hex-digit key is raw for WEP but quoted for WPA; a 64-hex-digit key is raw for WPA but quoted for WEP; a passphrase is quoted for both |
| WifiConfiguration.DisableReason | wifiwrapper/src/main/java/com/sr105/wifi/WifiConfigurationWrapper.java:202-235 | the text is one of six, and a failed field read gives "Unknown" |
| WifiConfiguration.ReasonCode | wifiwrapper/src/main/java/com/sr105/wifi/WifiConfigurationWrapper.java:206-234 | a code read back from a text gives that text again, and only the five listed texts have a code |
| WifiConfiguration.DisableReasonTable | wifiwrapper/src/main/java/com/sr105/wifi/WifiConfigurationWrapper.java:206-234 | codes -1, 1, 2, 3 and 4 have their own texts, which give the code back; every other code gives "Unknown" |
| WifiConfiguration.GetIpAssignment | wifiwrapper/src/main/java/com/sr105/wifi/WifiConfigurationWrapper.java:93-104 | a failed read gives `UNASSIGNED`; any other constant returned is the one whose name was read |
| WifiConfiguration.GetProxySettings | wifiwrapper/src/main/java/com/sr105/wifi/WifiConfigurationWrapper.java:175-186 | a failed read gives `UNASSIGNED`; any other constant returned is the one whose name was read |
| WifiConfiguration.EnumNamesRoundTrip | wifiwrapper/src/main/java/com/sr105/wifi/WifiConfigurationWrapper.java:55-104 | reading a constant's own name gives that constant; a name of no constant gives `UNASSIGNED` |
| WifiConfiguration.GetGateway | wifiwrapper/src/main/java/com/sr105/wifi/WifiConfigurationWrapper.java:124-145 | an empty route list gives the fallback address, and any other result is the gateway read from one of the routes |
| WifiConfiguration.GatewayOfFirstDefault | wifiwrapper/src/main/java/com/sr105/wifi/WifiConfigurationWrapper.java:124-145 | with every read succeeding, the result is the gateway of the first default route in list order, or the fallback when no route is a default route |
| WifiConfiguration.FailedReadHidesLaterRoutes | wifiwrapper/src/main/java/com/sr105/wifi/WifiConfigurationWrapper.java:124-145 | an exception from `isDefaultRoute` leaves the loop with the fallback, hiding later routes |

## Left out
- Real reflection is not modelled. `getMethods`, `getMethod`, `getConstructor`, `Method.invoke`,
  `Constructor.newInstance`, `Class.forName`, `Modifier.isPublic`, `Class.isInstance` and field
  access are replaced by the registry and by function parameters.
- The `synchronized` blocks around the method cache are left out. The cache is modelled
  sequentially, because the race of two concurrent misses only builds a matcher twice.
- `classForPrimative` and `classForTypeName` are left out. Their name table is filled in an
  instance initializer of a class that is never instantiated, so the table is empty at run time.
- `ReflectionUtils.main` is left out; it is only a demonstration.
- `classIsAccessible` and `implementsInterface(Object, Class)` are thin wrappers over
  `Modifier.isPublic` and `getClass()`, which are foreign calls.
- The `getMethodInvocationKey` helpers are left out, because no modelled path calls them.
- Matcher.ObtainAvailableMethods: `getMethods()` results of a non-public class are replaced by
  the accessible ancestor's method. The catalog records the listed method's own parameter types,
  which are the same by construction.
- Matcher.FindMostSpecificMemberIn: requires a non-empty candidate list. The private method is
  only reached with two or more compatible candidates, and an empty list would throw
  `IndexOutOfBoundsException` at `get(0)`.
- Resolver.CacheKey: the key has no contract of its own. Cache transparency
  (`Resolver.CacheIsTransparent`) is proved under the hypothesis `Resolver.KeysDistinguish`:
  distinct lookups give distinct keys, over every method name, `>` and `:` included. The
  hypothesis would follow from a class rendering that is injective, never empty, never the
  text `null`, and free of `,`, `:` and `>`; that implication is not proved. Java's
  `Class.toString` is not injective: two classes of the same name from different class
  loaders render alike, and the source's cache then hands back the other class's `Method`.
- `LRUCache` `toMap`, `iterator` and `toString` are left out. They are `LinkedHashMap`
  views and formatting details.
- LruCache.New: the initial table size `cacheSize / 0.75f` is taken exactly rather than in
  `float` arithmetic. Only the upper capacity at which the `int` cast saturates could differ.
- Array classes get their `Cloneable` and `Serializable` supertypes from the registry like any
  other class; they are not built in.
- The upper-case and lower-case element processors are left out. They depend on the locale,
  so the element processor is a function parameter.
- The `Collection` variants of `ArrayUtils.map` are left out. They convert to an array and
  call the array variant.
- ArrayUtils.PopulateCollection: `Collection.add` is modelled for a list (always appends) and
  for a set (appends an element not yet present). Elements are compared structurally, not by
  identity. A `null` collection and cyclic nested arrays are not modelled.
- Resolver.GeMethodThatBestMatches, Resolver.InstantiateClassWithTypes and
  ArrayUtils.ValidateAsWritten take a type list, a constructor list and an array length, so
  their `null` cases are not modelled. A `null` type array looks up the cache under a key ending
  in `:null` and, once a method of that name is listed, throws `NullPointerException` in
  `valuesAreCompatibleWithTypes` (reflection/src/main/java/org/rdm/util/ReflectionUtils.java:581);
  a `null` class throws `NullPointerException` at `getConstructor` in `instantiateClass`
  (ReflectionUtils.java:560), and a `null` type array there asks for the no-argument
  constructor; a `null` array throws `NullPointerException` in
  `validateObjectArrayFirstIndexAndLength` once the length is non-negative (ArrayUtils.java:304). The modelled callers (the invoke front ends, `toString` and
  `ReflectionObject.newInstance`) never pass these `null`s.
- ReflectionObject.NewInstanceWithTypes: an `Error`, as opposed to an `Exception`, thrown by a
  constructor escapes `newInstance` in Java. The model treats every failure as caught.
- The `getField`, `getStaticField`, `getDeclaredField`, `getEnumField`, `setEnumField` and
  `getIntField` helpers of `ReflectionObject` are foreign field accesses. Their results enter
  the Wi-Fi model as `Outcome` inputs.
- WifiConfiguration.GetGateway: `InetAddress.getByName(null)` (the loopback address) and the
  routes list are inputs. A routes list that could not be read is the empty list, as
  `getRoutes()` returns.
- The Android glue is left out: `WifiManager` calls, logging, setters, `Parcel`-based
  `hashCode` and `equals`, and the reflective sub-wrappers beyond `RouteInfo`.

## Findings

| source | as written | input that shows it | evidently intended | confidence | as-written member | corrected member |
|---|---|---|---|---|---|---|
| reflection/src/main/java/org/rdm/util/ArrayUtils.java:309 | `firstIndex + length > array.length` is an `int` sum that can wrap negative | a 3-element array, first index 1, length `Integer.MAX_VALUE`: the sum wraps to `Integer.MIN_VALUE` and the range is accepted | reject every range that runs past the end of the array | not executed | ArrayUtils.ValidateOverflowAccepted | ArrayUtils.ValidateFirstIndexAndLength |
| reflection/src/main/java/org/rdm/util/ArrayUtils.java:612-617 | the iterator bound `firstIndex + length` is an `int` sum that can wrap negative | a 3-element array, first index 1, length `Integer.MAX_VALUE`: the bound wraps below the start and the iterator yields nothing | clip the bound at the array length and yield the last two elements | not executed | ArrayUtils.IteratorOverflowYieldsNothing | ArrayUtils.IteratorYieldsWindow |
| reflection/src/main/java/org/rdm/util/ArrayUtils.java:694 | `toString(objects, first, length, ...)` validates the range with the wrapping check of line 309, and the range overloads at lines 752 and 792 reach it | `["a", "b", "c"]`, first index 1, length `Integer.MAX_VALUE`: the range is accepted and the text `a,b,c` is returned | throw `IndexOutOfBoundsException` for a range past the end | not executed | ArrayUtils.ToStringOverflowAccepted | ArrayUtils.ToString |
| reflection/src/main/java/org/rdm/util/ArrayUtils.java:364 | the range guard of `populateCollection` uses the same wrapping `int` sum | a 3-element array, first index 1, length `Integer.MAX_VALUE`: the guard passes, two elements are added, then the copy reads past the end and throws | throw `IndexOutOfBoundsException` before changing the collection | not executed | ArrayUtils.PopulateOverflowPartlyMutates | ArrayUtils.PopulateCollectionCorrect |

=== FILE: array_utils.dfy ===
/** `ArrayUtils`: byte-array concatenation and slicing, element mapping, range validation,
    copying (optionally flattening) array elements into a collection, a bounded array
    iterator, and joining array elements into a string. */
module ArrayUtils {
  import opened JavaLang

  /** A Java `byte`. */
  type Byte = b: int | -128 <= b < 128

  /** A Java array holds at most `Integer.MAX_VALUE` elements. */
  predicate IsArray<T>(s: seq<T>) { |s| <= INT_MAX }

  // ---------------------------------------------------------------------------------------
  // Byte arrays

  /** `concat(a, b)`: a `null` operand throws; the length is computed in `int`, so a sum
      past `Integer.MAX_VALUE` wraps negative and the allocation throws. */
  function Concat(a: Option<seq<Byte>>, b: Option<seq<Byte>>): (r: Outcome<seq<Byte>>)
    requires a.Some? ==> IsArray(a.value)
    requires b.Some? ==> IsArray(b.value)
    ensures (a.None? || b.None?) <==> r == Threw(NullPointer)
    ensures a.Some? && b.Some? && |a.value| + |b.value| > INT_MAX <==> r == Threw(NegativeArraySize)
    ensures r.Returned? ==> |r.value| == |a.value| + |b.value|
    ensures r.Returned? ==> r.value[..|a.value|] == a.value && r.value[|a.value|..] == b.value
  {
    if a.None? || b.None? then Threw(NullPointer)
    else if AddInt(|a.value|, |b.value|) < 0 then Threw(NegativeArraySize)
    else Returned(a.value + b.value)
  }

  /** `extract(array, index, length)`: `null` for a `null` array; a negative length fails the
      allocation; a range outside the array fails the copy; otherwise the slice. */
  function Extract(arr: Option<seq<Byte>>, index: int, length: int): (r: Outcome<Option<seq<Byte>>>)
    requires IsInt(index) && IsInt(length)
    ensures arr.None? ==> r == Returned(None)
    ensures arr.Some? && length < 0 ==> r == Threw(NegativeArraySize)
    ensures arr.Some? && 0 <= length && (index < 0 || index + length > |arr.value|)
            ==> r == Threw(ArrayIndexOutOfBounds)
    ensures r.Returned? && arr.Some? ==>
              && 0 <= index && 0 <= length && index + length <= |arr.value|
              && r.value.Some? && |r.value.value| == length
              && forall i | 0 <= i < length :: r.value.value[i] == arr.value[index + i]
  {
    if arr.None? then Returned(None)
    else if length < 0 then Threw(NegativeArraySize)
    else if index < 0 || index + length > |arr.value| then Threw(ArrayIndexOutOfBounds)
    else Returned(Some(arr.value[index..index + length]))
  }

  /** `concatenate(a, b)`: a `null` operand counts as empty, so the result is never `null`.
      The length is summed in `int` as well. */
  function Concatenate(a: Option<seq<Byte>>, b: Option<seq<Byte>>): (r: Outcome<seq<Byte>>)
    requires a.Some? ==> IsArray(a.value)
    requires b.Some? ==> IsArray(b.value)
    ensures r.Returned? <==> |OrEmpty(a)| + |OrEmpty(b)| <= INT_MAX
    ensures r.Threw? ==> r.error == NegativeArraySize
  {
    var x := OrEmpty(a);
    var y := OrEmpty(b);
    if AddInt(|x|, |y|) < 0 then Threw(NegativeArraySize)
    else Returned(x + y)
  }

  function OrEmpty(a: Option<seq<Byte>>): seq<Byte> {
    if a.None? then [] else a.value
  }

  /** `concatenate` agrees with `concat` when both operands are present, and treats a
      missing operand as the empty array. */
  lemma ConcatenateAgreesWithConcat(a: Option<seq<Byte>>, b: Option<seq<Byte>>)
    requires a.Some? ==> IsArray(a.value)
    requires b.Some? ==> IsArray(b.value)
    ensures a.Some? && b.Some? ==> Concatenate(a, b) == Concat(a, b)
    ensures a.None? ==> Concatenate(a, b) == Concat(Some([]), Some(OrEmpty(b)))
    ensures b.None? ==> Concatenate(a, b) == Concat(Some(OrEmpty(a)), Some([]))
  {
  }

  /** `extract` undoes `concat`: each operand is recovered from its offset in the result. */
  lemma ExtractUndoesConcat(a: seq<Byte>, b: seq<Byte>)
    requires |a| + |b| <= INT_MAX
    ensures Concat(Some(a), Some(b)).Returned?
    ensures var c := Concat(Some(a), Some(b)).value;
            && Extract(Some(c), 0, |a|) == Returned(Some(a))
            && Extract(Some(c), |a|, |b|) == Returned(Some(b))
  {
    var c := Concat(Some(a), Some(b)).value;
    assert c[0..|a|] == a;
    assert c[|a|..|a| + |b|] == b;
  }

  // ---------------------------------------------------------------------------------------
  // Mapping

  /** `SimpleObjectMapper`: a copy of the given mapping (none for `null`) and a default value
      that is stored but never consulted by `map`. */
  datatype SimpleObjectMapper<T, U> = SimpleObjectMapper(mapping: map<T, U>, defaultValue: Option<U>)

  function NewSimpleObjectMapper<T, U>(m: Option<map<T, U>>, defaultValue: Option<U>): (r: SimpleObjectMapper<T, U>)
    ensures m.None? ==> r.mapping == map[]
    ensures m.Some? ==> r.mapping == m.value
    ensures r.defaultValue == defaultValue
  {
    SimpleObjectMapper(if m.None? then map[] else m.value, defaultValue)
  }

  /** `getMappedValueFor(x)`: `HashMap.get`, so `null` when `x` has no mapping. */
  function MappedValueFor<T, U>(mapper: SimpleObjectMapper<T, U>, x: T): (r: Option<U>)
    ensures r.Some? <==> x in mapper.mapping
  {
    if x in mapper.mapping then Some(mapper.mapping[x]) else None
  }

  /** `map(array, mapper)`: `null` for a `null` array, otherwise each element replaced by
      its mapped value. */
  function MapArray<T, U>(arr: Option<seq<T>>, mapper: SimpleObjectMapper<T, U>): (r: Option<seq<Option<U>>>)
    ensures r.None? <==> arr.None?
    ensures r.Some? ==> |r.value| == |arr.value|
    ensures r.Some? ==> forall i | 0 <= i < |arr.value| ::
              (r.value[i].Some? <==> arr.value[i] in mapper.mapping)
              && (r.value[i].Some? ==> r.value[i].value == mapper.mapping[arr.value[i]])
  {
    match arr
    case None => None
    case Some(a) => Some(seq(|a|, i requires 0 <= i < |a| => MappedValueFor(mapper, a[i])))
  }

  /** The default value given to `map(array, mapping, default)` never shows in the output. */
  lemma MapIgnoresDefault<T, U>(arr: Option<seq<T>>, m: Option<map<T, U>>, d1: Option<U>, d2: Option<U>)
    ensures MapArray(arr, NewSimpleObjectMapper(m, d1)) == MapArray(arr, NewSimpleObjectMapper(m, d2))
  {
    if arr.Some? {
      var r1 := MapArray(arr, NewSimpleObjectMapper(m, d1)).value;
      var r2 := MapArray(arr, NewSimpleObjectMapper(m, d2)).value;
      forall i | 0 <= i < |r1| ensures r1[i] == r2[i] {
      }
      assert r1 == r2;
    }
  }

  /** Mapping through an injective mapping and then through its inverse restores every
      element the first mapping covers. */
  lemma MapThenInverse<T, U>(a: seq<T>, m: map<T, U>, inv: map<U, T>)
    requires forall x | x in m :: m[x] in inv && inv[m[x]] == x
    requires forall i | 0 <= i < |a| :: a[i] in m
    ensures var once := MapArray(Some(a), SimpleObjectMapper(m, None)).value;
            && (forall i | 0 <= i < |once| :: once[i].Some?)
            && MapArray(Some(seq(|once|, i requires 0 <= i < |once| => once[i].value)), SimpleObjectMapper(inv, None))
               == Some(seq(|a|, i requires 0 <= i < |a| => Some(a[i])))
  {
    var once := MapArray(Some(a), SimpleObjectMapper(m, None)).value;
    var values := seq(|once|, i requires 0 <= i < |once| => once[i].value);
    var twice := MapArray(Some(values), SimpleObjectMapper(inv, None)).value;
    var expected := seq(|a|, i requires 0 <= i < |a| => Some(a[i]));
    forall i | 0 <= i < |a| ensures twice[i] == expected[i] {
      assert once[i] == Some(m[a[i]]);
      assert values[i] == m[a[i]];
    }
    assert twice == expected;
  }

  // ---------------------------------------------------------------------------------------
  // Range validation

  /** `validateObjectArrayFirstIndexAndLength` as written: `firstIndex + length` is an `int`
      sum, so it can wrap negative and pass the last test. */
  function ValidateAsWritten(len: nat, first: int, length: int): (r: Outcome<()>)
    requires len <= INT_MAX && IsInt(first) && IsInt(length)
    ensures length < 0 <==> r == Threw(IllegalArgument)
    ensures r.Returned? ==> 0 <= first <= len && 0 <= length
  {
    if length < 0 then Threw(IllegalArgument)
    else if first < 0 || first > len then Threw(IndexOutOfBounds)
    else if AddInt(first, length) > len then Threw(IndexOutOfBounds)
    else Returned(())
  }

  /** The evident intent: the range `[first, first + length)` must lie inside the array, with
      the sum taken exactly. */
  function ValidateFirstIndexAndLength(len: nat, first: int, length: int): (r: Outcome<()>)
    requires len <= INT_MAX && IsInt(first) && IsInt(length)
    ensures length < 0 <==> r == Threw(IllegalArgument)
    ensures r.Returned? <==> 0 <= first && 0 <= length && first + length <= len
    ensures r.Threw? && length >= 0 ==> r.error == IndexOutOfBounds
  {
    if length < 0 then Threw(IllegalArgument)
    else if first < 0 || first > len then Threw(IndexOutOfBounds)
    else if first > len - length then Threw(IndexOutOfBounds)
    else Returned(())
  }

  /** The as-written check accepts a range that runs past the end of the array: first index
      1 and length `Integer.MAX_VALUE` on a three-element array. */
  lemma ValidateOverflowAccepted()
    ensures ValidateAsWritten(3, 1, INT_MAX) == Returned(())
    ensures ValidateFirstIndexAndLength(3, 1, INT_MAX) == Threw(IndexOutOfBounds)
  {
  }

  /** Apart from the overflow, the two checks agree. */
  lemma ValidateAgreesWithoutOverflow(len: nat, first: int, length: int)
    requires len <= INT_MAX && IsInt(first) && IsInt(length)
    requires IsInt(first + length)
    ensures ValidateAsWritten(len, first, length) == ValidateFirstIndexAndLength(len, first, length)
  {
  }

  // ---------------------------------------------------------------------------------------
  // Populating a collection

  /** An array element: `null`, an opaque object, or a nested `Object[]`. */
  datatype Elem = Null | Obj(id: nat) | Nested(elems: seq<Elem>)

  /** A `List` (every `add` appends) or a `Set` (`add` of a present element does nothing),
      by its elements in insertion order. */
  datatype Coll = Coll(isSet: bool, items: seq<Elem>)

  /** `Collection.add`. */
  function Add(c: Coll, x: Elem): (r: Coll)
    ensures r.isSet == c.isSet
    ensures x in r.items
    ensures c.isSet && x in c.items ==> r == c
    ensures !(c.isSet && x in c.items) ==> r.items == c.items + [x]
  {
    if c.isSet && x in c.items then c else Coll(c.isSet, c.items + [x])
  }

  function AddAll(c: Coll, xs: seq<Elem>): (r: Coll)
    ensures r.isSet == c.isSet
    ensures !c.isSet ==> r.items == c.items + xs
    decreases |xs|
  {
    if xs == [] then c else AddAll(Add(c, xs[0]), xs[1..])
  }

  function Process(processor: Option<Elem -> Elem>, x: Elem): Elem {
    if processor.None? then x else processor.value(x)
  }

  /** Reference definition: the elements that copying `es` adds, in order. With `recurse`,
      a nested array contributes its own flattened elements instead of itself, and the
      processor applies only to what is added. */
  function Flatten(es: seq<Elem>, recurse: bool, processor: Option<Elem -> Elem>): seq<Elem>
    decreases es, 1
  {
    if es == [] then []
    else ElemsOf(es[0], recurse, processor) + Flatten(es[1..], recurse, processor)
  }

  /** What one array element contributes to the flattened sequence. */
  function ElemsOf(x: Elem, recurse: bool, processor: Option<Elem -> Elem>): seq<Elem>
    decreases x, 0
  {
    if x.Nested? && recurse then Flatten(x.elems, recurse, processor) else [Process(processor, x)]
  }

  /** The flattened window `components[offset .. offset + length)`, element by element. */
  function FlattenRange(components: seq<Elem>, offset: nat, length: nat, recurse: bool,
                        processor: Option<Elem -> Elem>): seq<Elem>
    requires offset + length <= |components|
    decreases length
  {
    if length == 0 then []
    else ElemsOf(components[offset], recurse, processor) + FlattenRange(components, offset + 1, length - 1, recurse, processor)
  }

  lemma {:induction false} FlattenRangeIsFlatten(components: seq<Elem>, offset: nat, length: nat, recurse: bool,
                                                 processor: Option<Elem -> Elem>)
    requires offset + length <= |components|
    ensures FlattenRange(components, offset, length, recurse, processor)
            == Flatten(components[offset..offset + length], recurse, processor)
    decreases length
  {
    var range := components[offset..offset + length];
    if length > 0 {
      assert range[0] == components[offset];
      assert range[1..] == components[offset + 1..offset + length];
      FlattenRangeIsFlatten(components, offset + 1, length - 1, recurse, processor);
    } else {
      assert range == [];
    }
  }

  /** `copyArrayElementsIntoCollection`, loop by loop: it reads `components[offset]` while
      the remaining length is positive; the boolean is true when a read fell outside the
      array and raised `ArrayIndexOutOfBoundsException`, with the collection as it stood. */
  function CopyElements(components: seq<Elem>, offset: int, length: int, recurse: bool,
                        processor: Option<Elem -> Elem>, c: Coll): (r: (Coll, bool))
    ensures r.0.isSet == c.isSet
    decreases components, if length < 0 then 0 else length
  {
    if length <= 0 then (c, false)
    else if offset < 0 || offset >= |components| then (c, true)
    else
      var x := components[offset];
      if x.Nested? && recurse then
        var inner := CopyElements(x.elems, 0, |x.elems|, recurse, processor, c);
        if inner.1 then inner
        else CopyElements(components, offset + 1, length - 1, recurse, processor, inner.0)
      else CopyElements(components, offset + 1, length - 1, recurse, processor, Add(c, Process(processor, x)))
  }

  /** Inside the array, the copy never fails and adds exactly the flattened range. */
  lemma CopyElementsInRange(components: seq<Elem>, offset: int, length: int, recurse: bool,
                            processor: Option<Elem -> Elem>, c: Coll)
    requires 0 <= offset && 0 <= length && offset + length <= |components|
    ensures CopyElements(components, offset, length, recurse, processor, c)
            == (AddAll(c, Flatten(components[offset..offset + length], recurse, processor)), false)
  {
    CopyRange(components, offset, length, recurse, processor, c);
    FlattenRangeIsFlatten(components, offset, length, recurse, processor);
  }

  lemma {:induction false} CopyRange(components: seq<Elem>, offset: nat, length: nat, recurse: bool,
                                     processor: Option<Elem -> Elem>, c: Coll)
    requires offset + length <= |components|
    ensures CopyElements(components, offset, length, recurse, processor, c)
            == (AddAll(c, FlattenRange(components, offset, length, recurse, processor)), false)
    decreases components, length, 1
  {
    if length > 0 {
      var head := ElemsOf(components[offset], recurse, processor);
      var rest := FlattenRange(components, offset + 1, length - 1, recurse, processor);
      CopyHead(components, offset, length, recurse, processor, c);
      CopyRange(components, offset + 1, length - 1, recurse, processor, AddAll(c, head));
      AddAllAppend(c, head, rest);
    }
  }

  /** Copying the first element of an in-range window adds what it contributes, without
      failing, and hands the grown collection on to the rest of the window. */
  lemma {:induction false} CopyHead(components: seq<Elem>, offset: nat, length: nat, recurse: bool,
                                    processor: Option<Elem -> Elem>, c: Coll)
    requires 0 < length && offset + length <= |components|
    ensures CopyElements(components, offset, length, recurse, processor, c)
            == CopyElements(components, offset + 1, length - 1, recurse, processor,
                            AddAll(c, ElemsOf(components[offset], recurse, processor)))
    decreases components, length, 0
  {
    var x := components[offset];
    if x.Nested? && recurse {
      CopyRange(x.elems, 0, |x.elems|, recurse, processor, c);
      FlattenRangeIsFlatten(x.elems, 0, |x.elems|, recurse, processor);
      assert x.elems[0..|x.elems|] == x.elems;
    } else {
      assert AddAll(c, [Process(processor, x)]) == Add(c, Process(processor, x));
    }
  }

  lemma {:induction false} AddAllAppend(c: Coll, xs: seq<Elem>, ys: seq<Elem>)
    ensures AddAll(c, xs + ys) == AddAll(AddAll(c, xs), ys)
    decreases |xs|
  {
    if xs == [] {
      assert xs + ys == ys;
    } else {
      assert (xs + ys)[0] == xs[0];
      assert (xs + ys)[1..] == xs[1..] + ys;
      AddAllAppend(Add(c, xs[0]), xs[1..], ys);
    }
  }

  /** `populateCollection` as written: a `null` or empty array adds nothing; the range is
      checked with an `int` sum; the copy then runs, and the result says whether the size
      changed. The collection is returned beside the outcome, as it stands even when an
      exception escapes. */
  function PopulateAsWritten(c: Coll, arr: Option<seq<Elem>>, first: int, length: int, recurse: bool,
                             processor: Option<Elem -> Elem>): (r: (Outcome<bool>, Coll))
    requires arr.Some? ==> IsArray(arr.value)
    requires IsInt(first) && IsInt(length)
    ensures arr.None? || arr.value == [] ==> r == (Returned(false), c)
    ensures r.0.Returned? ==> (r.0.value <==> |r.1.items| != |c.items|)
  {
    if arr.None? || |arr.value| == 0 then (Returned(false), c)
    else if first >= |arr.value| then (Threw(IndexOutOfBounds), c)
    else if AddInt(first, length) > |arr.value| then (Threw(IndexOutOfBounds), c)
    else
      var copied := CopyElements(arr.value, first, length, recurse, processor, c);
      if copied.1 then (Threw(ArrayIndexOutOfBounds), copied.0)
      else (Returned(|copied.0.items| != |c.items|), copied.0)
  }

  /** `populateCollection` with the range test taken exactly, as the documentation intends.
      A negative length is accepted and adds nothing, as in the code. */
  function PopulateCollection(c: Coll, arr: Option<seq<Elem>>, first: int, length: int, recurse: bool,
                              processor: Option<Elem -> Elem>): (r: (Outcome<bool>, Coll))
    requires arr.Some? ==> IsArray(arr.value)
    requires IsInt(first) && IsInt(length)
    ensures arr.None? || arr.value == [] ==> r == (Returned(false), c)
    ensures r.0.Returned? ==> (r.0.value <==> |r.1.items| != |c.items|)
  {
    if arr.None? || |arr.value| == 0 then (Returned(false), c)
    else if first >= |arr.value| then (Threw(IndexOutOfBounds), c)
    else if first > |arr.value| - length then (Threw(IndexOutOfBounds), c)
    else
      var copied := CopyElements(arr.value, first, length, recurse, processor, c);
      if copied.1 then (Threw(ArrayIndexOutOfBounds), copied.0)
      else (Returned(|copied.0.items| != |c.items|), copied.0)
  }

  /** The corrected `populateCollection` either throws and leaves the collection untouched,
      or adds exactly the flattened range; it throws exactly for a non-empty array and a
      range that starts past the end, runs past the end, or starts before the beginning
      with a positive length. For a list, it reports a change exactly when something was
      added. */
  lemma {:induction false} PopulateCollectionCorrect(c: Coll, arr: seq<Elem>, first: int, length: int, recurse: bool,
                                                     processor: Option<Elem -> Elem>)
    requires IsArray(arr) && IsInt(first) && IsInt(length)
    ensures var r := PopulateCollection(c, Some(arr), first, length, recurse, processor);
            && (r.0.Threw? ==> r.1 == c)
            && (r.0.Threw? <==> arr != [] && (first >= |arr| || first + length > |arr| || (first < 0 && length > 0)))
            && (r.0.Returned? && arr != [] && 0 < length ==>
                  0 <= first && first + length <= |arr| && r.1 == AddAll(c, Flatten(arr[first..first + length], recurse, processor)))
            && (r.0.Returned? && length <= 0 ==> r.1 == c)
            && (r.0.Returned? && arr != [] && !c.isSet && 0 < length ==>
                  0 <= first && first + length <= |arr| && (r.0.value <==> Flatten(arr[first..first + length], recurse, processor) != []))
  {
    if arr != [] && first < |arr| && first + length <= |arr| && length > 0 {
      if first >= 0 {
        CopyElementsInRange(arr, first, length, recurse, processor, c);
      } else {
        assert CopyElements(arr, first, length, recurse, processor, c) == (c, true);
      }
    }
  }

  /** Whenever `first + length` fits in an `int`, `populateCollection` as written and the
      corrected form agree, so the former adds exactly what `PopulateCollectionCorrect` says. */
  lemma PopulateAgreesWithoutOverflow(c: Coll, arr: Option<seq<Elem>>, first: int, length: int, recurse: bool,
                                      processor: Option<Elem -> Elem>)
    requires arr.Some? ==> IsArray(arr.value)
    requires IsInt(first) && IsInt(length) && IsInt(first + length)
    ensures PopulateAsWritten(c, arr, first, length, recurse, processor)
            == PopulateCollection(c, arr, first, length, recurse, processor)
  {
  }

  /** The as-written guard lets `first = 1, length = Integer.MAX_VALUE` through on a
      three-element array: the copy adds the last two elements and then reads past the end,
      so the exception escapes from a collection already changed. */
  lemma PopulateOverflowPartlyMutates()
    ensures PopulateAsWritten(Coll(false, []), Some([Obj(0), Obj(1), Obj(2)]), 1, INT_MAX, false, None)
            == (Threw(ArrayIndexOutOfBounds), Coll(false, [Obj(1), Obj(2)]))
    ensures PopulateCollection(Coll(false, []), Some([Obj(0), Obj(1), Obj(2)]), 1, INT_MAX, false, None)
            == (Threw(IndexOutOfBounds), Coll(false, []))
  {
    var arr := [Obj(0), Obj(1), Obj(2)];
    assert AddInt(1, INT_MAX) == INT_MIN;
    var c1 := Coll(false, [Obj(1)]);
    var c2 := Coll(false, [Obj(1), Obj(2)]);
    assert Add(Coll(false, []), Process(None, arr[1])) == c1;
    assert Add(c1, Process(None, arr[2])) == c2;
    assert CopyElements(arr, 3, INT_MAX - 2, false, None, c2) == (c2, true);
    assert CopyElements(arr, 2, INT_MAX - 1, false, None, c1) == (c2, true);
    assert CopyElements(arr, 1, INT_MAX, false, None, Coll(false, [])) == (c2, true);
  }

  /** `populateCollection(collection, array, processor)` and `populateCollection(collection,
      array)`: the whole array, without recursion; `null` adds nothing. */
  function PopulateWhole(c: Coll, arr: Option<seq<Elem>>, processor: Option<Elem -> Elem>): (r: (Outcome<bool>, Coll))
    requires arr.Some? ==> IsArray(arr.value)
  {
    if arr.None? then (Returned(false), c)
    else PopulateCollection(c, arr, 0, |arr.value|, false, processor)
  }

  /** Over the whole array nothing can throw, and the processed elements are added in order. */
  lemma PopulateWholeAddsEveryElement(c: Coll, arr: Option<seq<Elem>>, processor: Option<Elem -> Elem>)
    requires arr.Some? ==> IsArray(arr.value)
    ensures PopulateWhole(c, arr, processor).0.Returned?
    ensures arr.Some? ==>
              PopulateWhole(c, arr, processor).1 == AddAll(c, Flatten(arr.value, false, processor))
    ensures arr.None? ==> PopulateWhole(c, arr, processor).1 == c
  {
    if arr.Some? && arr.value != [] {
      PopulateCollectionCorrect(c, arr.value, 0, |arr.value|, false, processor);
      assert arr.value[0..|arr.value|] == arr.value;
    }
  }

  /** Without recursion, flattening is just the processed elements, one for one. */
  lemma {:induction false} FlattenShallow(es: seq<Elem>, processor: Option<Elem -> Elem>)
    ensures |Flatten(es, false, processor)| == |es|
    ensures forall i | 0 <= i < |es| :: Flatten(es, false, processor)[i] == Process(processor, es[i])
    decreases es
  {
    if es != [] {
      FlattenShallow(es[1..], processor);
    }
  }

  /** `toUnmodifiableCollection`: a list of the array's elements, empty for `null`. */
  function ToUnmodifiableCollection(arr: Option<seq<Elem>>): (r: seq<Elem>)
    requires arr.Some? ==> IsArray(arr.value)
    ensures arr.None? ==> r == []
    ensures arr.Some? ==> r == arr.value
  {
    PopulateWholeAddsEveryElement(Coll(false, []), arr, None);
    if arr.Some? then
      FlattenShallow(arr.value, None);
      assert Flatten(arr.value, false, None) == arr.value;
      PopulateWhole(Coll(false, []), arr, None).1.items
    else PopulateWhole(Coll(false, []), arr, None).1.items
  }

  // ---------------------------------------------------------------------------------------
  // Iteration

  /** The state of the local `ArrayIterator`: the array, the bound, the next index. */
  datatype ArrayIterator<T> = ArrayIterator(source: seq<T>, lastIndex: int, current: int)

  predicate HasNext<T>(it: ArrayIterator<T>) {
    it.current < it.lastIndex
  }

  /** An iterator whose every read is inside the array. */
  predicate IteratorValid<T>(it: ArrayIterator<T>) {
    0 <= it.current && it.lastIndex <= |it.source|
  }

  /** `iterator(array, first, length)` as written: the bound `first + length` is an `int`
      sum, clipped to the array length. */
  function IteratorAsWritten<T>(arr: Option<seq<T>>, first: int, length: int): (r: Outcome<ArrayIterator<T>>)
    requires arr.Some? ==> IsArray(arr.value)
    requires IsInt(first) && IsInt(length)
    ensures arr.None? <==> r == Threw(NullPointer)
    ensures arr.Some? && (first < 0 || length < 0) <==> r == Threw(IllegalArgument)
    ensures r.Returned? ==> IteratorValid(r.value) && r.value.current == first
  {
    if arr.None? then Threw(NullPointer)
    else if first < 0 || length < 0 then Threw(IllegalArgument)
    else
      var last := AddInt(first, length);
      Returned(ArrayIterator(arr.value, if last > |arr.value| then |arr.value| else last, first))
  }

  /** `iterator` with the bound taken exactly, as the documentation intends: a range that
      runs past the end stops at the end. */
  function Iterator<T>(arr: Option<seq<T>>, first: int, length: int): (r: Outcome<ArrayIterator<T>>)
    requires arr.Some? ==> IsArray(arr.value)
    requires IsInt(first) && IsInt(length)
    ensures arr.None? <==> r == Threw(NullPointer)
    ensures arr.Some? && (first < 0 || length < 0) <==> r == Threw(IllegalArgument)
    ensures r.Returned? ==> IteratorValid(r.value) && r.value.current == first
  {
    if arr.None? then Threw(NullPointer)
    else if first < 0 || length < 0 then Threw(IllegalArgument)
    else
      var last := if first > |arr.value| - length then |arr.value| else first + length;
      Returned(ArrayIterator(arr.value, last, first))
  }

  /** `iterator(array)`: the whole array. */
  function IteratorOver<T>(arr: Option<seq<T>>): (r: Outcome<ArrayIterator<T>>)
    requires arr.Some? ==> IsArray(arr.value)
    ensures arr.None? <==> r == Threw(NullPointer)
    ensures r.Returned? ==> r.value == ArrayIterator(arr.value, |arr.value|, 0)
  {
    if arr.None? then Threw(NullPointer) else Iterator(arr, 0, |arr.value|)
  }

  /** `next()`: the element at the current index, or `NoSuchElementException` at the end. */
  function Next<T>(it: ArrayIterator<T>): (r: Outcome<(T, ArrayIterator<T>)>)
    requires IteratorValid(it)
    ensures r.Threw? <==> !HasNext(it)
    ensures r.Threw? ==> r.error == NoSuchElement
    ensures r.Returned? ==>
              && r.value.0 == it.source[it.current]
              && r.value.1 == it.(current := it.current + 1)
              && IteratorValid(r.value.1)
  {
    if !HasNext(it) then Threw(NoSuchElement)
    else Returned((it.source[it.current], it.(current := it.current + 1)))
  }

  /** `remove()` is not supported on a fixed-size array. */
  function Remove<T>(it: ArrayIterator<T>): (r: Outcome<ArrayIterator<T>>)
    ensures r == Threw(UnsupportedOperation)
  {
    Threw(UnsupportedOperation)
  }

  /** What an iterator still has to yield. */
  function Remaining<T>(it: ArrayIterator<T>): (r: seq<T>)
    requires IteratorValid(it)
    ensures |r| == if it.current < it.lastIndex then it.lastIndex - it.current else 0
  {
    if it.current < it.lastIndex then it.source[it.current..it.lastIndex] else []
  }

  /** Drain an iterator: call `next()` while `hasNext()` holds, collecting what it yields. */
  method Drain<T>(it: ArrayIterator<T>) returns (out: seq<T>, rest: ArrayIterator<T>)
    requires IteratorValid(it)
    ensures out == Remaining(it)
    ensures !HasNext(rest) && IteratorValid(rest)
  {
    out := [];
    rest := it;
    while HasNext(rest)
      invariant IteratorValid(rest) && rest.source == it.source && rest.lastIndex == it.lastIndex
      invariant it.current <= rest.current || !HasNext(it)
      invariant HasNext(it) ==> rest.current <= it.lastIndex
      invariant HasNext(it) ==> out == it.source[it.current..rest.current]
      invariant !HasNext(it) ==> out == [] && rest == it
      decreases rest.lastIndex - rest.current
    {
      var step := Next(rest);
      out := out + [step.value.0];
      rest := step.value.1;
    }
  }

  /** The corrected iterator yields `array[first .. min(first + length, |array|))`, and
      nothing when `first` is past the end. */
  lemma IteratorYieldsWindow<T>(arr: seq<T>, first: int, length: int)
    requires IsArray(arr) && IsInt(first) && IsInt(length) && 0 <= first && 0 <= length
    ensures Iterator(Some(arr), first, length).Returned?
    ensures var it := Iterator(Some(arr), first, length).value;
            Remaining(it) == if first >= |arr| then [] else arr[first..if first + length > |arr| then |arr| else first + length]
  {
  }

  /** Whenever `first + length` fits in an `int`, the iterator as written and the corrected
      one are the same, so the former yields the window `IteratorYieldsWindow` describes. */
  lemma IteratorAgreesWithoutOverflow<T>(arr: Option<seq<T>>, first: int, length: int)
    requires arr.Some? ==> IsArray(arr.value)
    requires IsInt(first) && IsInt(length) && IsInt(first + length)
    ensures IteratorAsWritten(arr, first, length) == Iterator(arr, first, length)
  {
  }

  /** As written, `first = 1, length = Integer.MAX_VALUE` wraps the bound negative, so the
      iterator over a three-element array yields nothing instead of its last two elements. */
  lemma IteratorOverflowYieldsNothing<T>(a: T, b: T, c: T)
    ensures IteratorAsWritten(Some([a, b, c]), 1, INT_MAX).Returned?
    ensures !HasNext(IteratorAsWritten(Some([a, b, c]), 1, INT_MAX).value)
    ensures Remaining(Iterator(Some([a, b, c]), 1, INT_MAX).value) == [b, c]
  {
    assert [a, b, c][1..3] == [b, c];
  }

  // ---------------------------------------------------------------------------------------
  // Joining into a string

  /** `"" + object`: the element's own string, or `"null"`. */
  function SafeString(x: Option<string>): string {
    if x.None? then "null" else x.value
  }

  /** The loop of `toString`: the first element, then each later one after the delimiter. */
  function JoinFrom(elems: seq<Option<string>>, delimiter: string, i: nat, acc: string): string
    requires 1 <= i <= |elems|
    decreases |elems| - i
  {
    if i == |elems| then acc
    else JoinFrom(elems, delimiter, i + 1, acc + delimiter + SafeString(elems[i]))
  }

  function JoinLoop(elems: seq<Option<string>>, delimiter: string): string {
    if |elems| == 0 then "" else JoinFrom(elems, delimiter, 1, SafeString(elems[0]))
  }

  /** Reference definition of joining: separators only between neighbours. */
  function Join(elems: seq<Option<string>>, delimiter: string): string
    decreases |elems|
  {
    if |elems| == 0 then ""
    else if |elems| == 1 then SafeString(elems[0])
    else Join(elems[..|elems| - 1], delimiter) + delimiter + SafeString(elems[|elems| - 1])
  }

  /** The loop joins exactly as the reference definition does. */
  lemma {:induction false} JoinLoopIsJoin(elems: seq<Option<string>>, delimiter: string)
    ensures JoinLoop(elems, delimiter) == Join(elems, delimiter)
  {
    if |elems| > 0 {
      JoinFromIsJoin(elems, delimiter, 1);
    }
  }

  lemma {:induction false} JoinFromIsJoin(elems: seq<Option<string>>, delimiter: string, i: nat)
    requires 1 <= i <= |elems|
    ensures JoinFrom(elems, delimiter, i, Join(elems[..i], delimiter)) == Join(elems, delimiter)
    decreases |elems| - i
  {
    if i == |elems| {
      assert elems[..i] == elems;
    } else {
      assert elems[..i + 1][..i] == elems[..i];
      assert Join(elems[..i + 1], delimiter) == Join(elems[..i], delimiter) + delimiter + SafeString(elems[i]);
      JoinFromIsJoin(elems, delimiter, i + 1);
    }
  }

  /** Joining distributes over concatenation, with one delimiter at the seam. */
  lemma {:induction false} JoinAppend(a: seq<Option<string>>, b: seq<Option<string>>, delimiter: string)
    requires |a| > 0 && |b| > 0
    ensures Join(a + b, delimiter) == Join(a, delimiter) + delimiter + Join(b, delimiter)
    decreases |b|
  {
    var ab := a + b;
    if |b| == 1 {
      assert ab[..|ab| - 1] == a;
    } else {
      var b' := b[..|b| - 1];
      assert ab[..|ab| - 1] == a + b';
      assert ab[|ab| - 1] == b[|b| - 1];
      JoinAppend(a, b', delimiter);
    }
  }

  /** The joined length: every element's string plus one delimiter between neighbours. */
  lemma {:induction false} JoinLength(elems: seq<Option<string>>, delimiter: string)
    ensures |Join(elems, delimiter)| == TotalLength(elems) + (if |elems| == 0 then 0 else (|elems| - 1) * |delimiter|)
    decreases |elems|
  {
    if |elems| > 1 {
      var n := |elems|;
      var init := elems[..n - 1];
      JoinLength(init, delimiter);
      TotalLengthSnoc(elems);
      assert |Join(elems, delimiter)| == |Join(init, delimiter)| + |delimiter| + |SafeString(elems[n - 1])|;
      assert (n - 1) * |delimiter| == (n - 2) * |delimiter| + |delimiter| by {
        assert (n - 1) * |delimiter| == (n - 2 + 1) * |delimiter|;
      }
    } else if |elems| == 1 {
      assert elems == [] + [elems[0]];
      TotalLengthSnoc(elems);
    }
  }

  function TotalLength(elems: seq<Option<string>>): nat {
    if elems == [] then 0 else |SafeString(elems[0])| + TotalLength(elems[1..])
  }

  lemma {:induction false} TotalLengthSnoc(elems: seq<Option<string>>)
    requires |elems| > 0
    ensures TotalLength(elems) == TotalLength(elems[..|elems| - 1]) + |SafeString(elems[|elems| - 1])|
    decreases |elems|
  {
    if |elems| > 1 {
      assert elems[1..][..|elems[1..]| - 1] == elems[..|elems| - 1][1..];
      TotalLengthSnoc(elems[1..]);
    } else {
      assert elems[..0] == [];
    }
  }

  /** `StringBuilder.append(null)` appends `"null"`. */
  function AppendText(s: Option<string>): string {
    if s.None? then "null" else s.value
  }

  /** The text `toString` builds once the range check has passed: the prefix unless `null`,
      the joined elements, the suffix unless `null`. */
  function Framed(objects: seq<Option<string>>, prefix: Option<string>, delimiter: Option<string>,
                  suffix: Option<string>): (r: string)
    ensures r == (if prefix.None? then "" else prefix.value)
                 + Join(objects, AppendText(delimiter))
                 + (if suffix.None? then "" else suffix.value)
  {
    JoinLoopIsJoin(objects, AppendText(delimiter));
    (if prefix.None? then "" else prefix.value)
    + JoinLoop(objects, AppendText(delimiter))
    + (if suffix.None? then "" else suffix.value)
  }

  /** `toString(objects, first, length, prefix, delimiter, suffix)` as written: `"null"` for a
      `null` array; the range is only validated, by the wrapping check; a `null` prefix or
      suffix is left out, a `null` delimiter is written as `"null"`. */
  function ToStringAsWritten(objects: Option<seq<Option<string>>>, first: int, length: int,
                             prefix: Option<string>, delimiter: Option<string>, suffix: Option<string>): (r: Outcome<string>)
    requires objects.Some? ==> IsArray(objects.value)
    requires IsInt(first) && IsInt(length)
    ensures objects.None? ==> r == Returned("null")
    ensures objects.Some? ==> (r.Threw? <==> ValidateAsWritten(|objects.value|, first, length).Threw?)
    ensures r.Returned? && objects.Some? ==>
              r.value == (if prefix.None? then "" else prefix.value)
                         + Join(objects.value, AppendText(delimiter))
                         + (if suffix.None? then "" else suffix.value)
  {
    if objects.None? then Returned("null")
    else
      var checked := ValidateAsWritten(|objects.value|, first, length);
      if checked.Threw? then Threw(checked.error)
      else Returned(Framed(objects.value, prefix, delimiter, suffix))
  }

  /** `toString` with the evidently intended range check: it throws exactly for a range that
      does not lie inside the array, and otherwise gives the framed text of the whole array. */
  function ToString(objects: Option<seq<Option<string>>>, first: int, length: int,
                    prefix: Option<string>, delimiter: Option<string>, suffix: Option<string>): (r: Outcome<string>)
    requires objects.Some? ==> IsArray(objects.value)
    requires IsInt(first) && IsInt(length)
    ensures objects.None? ==> r == Returned("null")
    ensures objects.Some? ==>
              (r.Threw? <==> ValidateFirstIndexAndLength(|objects.value|, first, length).Threw?)
    ensures r.Returned? && objects.Some? ==>
              r.value == (if prefix.None? then "" else prefix.value)
                         + Join(objects.value, AppendText(delimiter))
                         + (if suffix.None? then "" else suffix.value)
  {
    if objects.None? then Returned("null")
    else
      var checked := ValidateFirstIndexAndLength(|objects.value|, first, length);
      if checked.Threw? then Threw(checked.error)
      else Returned(Framed(objects.value, prefix, delimiter, suffix))
  }

  /** As written, `toString` renders `["a", "b", "c"]` from first index 1 with length
      `Integer.MAX_VALUE`, a range far past the end; the intended check rejects it. */
  lemma ToStringOverflowAccepted()
    ensures ToStringAsWritten(Some([Some("a"), Some("b"), Some("c")]), 1, INT_MAX, None, Some(","), None)
            == Returned("a,b,c")
    ensures ToString(Some([Some("a"), Some("b"), Some("c")]), 1, INT_MAX, None, Some(","), None)
            == Threw(IndexOutOfBounds)
    ensures ToStringRange(Some([Some("a"), Some("b"), Some("c")]), 1, INT_MAX, Some(",")) == Returned("a,b,c")
    ensures ToStringRangeChar(Some([Some("a"), Some("b"), Some("c")]), 1, INT_MAX, ',') == Returned("a,b,c")
  {
    ValidateOverflowAccepted();
    var e := [Some("a"), Some("b"), Some("c")];
    assert e[..2][..1] == [Some("a")] && e[..2] == [Some("a"), Some("b")];
    assert Join(e[..2], ",") == "a,b";
    assert e[..|e| - 1] == e[..2];
    assert Join(e, ",") == "a,b,c";
    assert AppendText(Some(",")) == ",";
    assert Framed(e, None, Some(","), None) == "a,b,c";
  }

  /** Whenever `first + length` fits in an `int`, the two versions of `toString` agree. */
  lemma ToStringAgreesWithoutOverflow(objects: Option<seq<Option<string>>>, first: int, length: int,
                                      prefix: Option<string>, delimiter: Option<string>, suffix: Option<string>)
    requires objects.Some? ==> IsArray(objects.value)
    requires IsInt(first) && IsInt(length) && IsInt(first + length)
    ensures ToStringAsWritten(objects, first, length, prefix, delimiter, suffix)
            == ToString(objects, first, length, prefix, delimiter, suffix)
  {
    if objects.Some? {
      ValidateAgreesWithoutOverflow(|objects.value|, first, length);
    }
  }

  /** `toString(objects, prefix, delimiter, suffix)`: the whole array. */
  function ToStringAffixed(objects: Option<seq<Option<string>>>, prefix: Option<string>,
                           delimiter: Option<string>, suffix: Option<string>): (r: string)
    requires objects.Some? ==> IsArray(objects.value)
    ensures objects.None? ==> r == "null"
    ensures objects.Some? ==> r == (if prefix.None? then "" else prefix.value)
                                   + Join(objects.value, AppendText(delimiter))
                                   + (if suffix.None? then "" else suffix.value)
  {
    if objects.None? then "null"
    else ToString(objects, 0, |objects.value|, prefix, delimiter, suffix).value
  }

  /** `toString(objects, first, length, delimiter)`: no prefix or suffix. */
  function ToStringRange(objects: Option<seq<Option<string>>>, first: int, length: int,
                         delimiter: Option<string>): (r: Outcome<string>)
    requires objects.Some? ==> IsArray(objects.value)
    requires IsInt(first) && IsInt(length)
    ensures objects.None? ==> r == Returned("null")
    ensures objects.Some? ==> (r.Threw? <==> ValidateAsWritten(|objects.value|, first, length).Threw?)
    ensures objects.Some? && r.Returned? ==> r.value == Join(objects.value, AppendText(delimiter))
  {
    ToStringAsWritten(objects, first, length, None, delimiter, None)
  }

  /** `toString(objects, delimiter)`: the whole array, no prefix or suffix. */
  function ToStringDelimited(objects: Option<seq<Option<string>>>, delimiter: Option<string>): (r: string)
    requires objects.Some? ==> IsArray(objects.value)
    ensures objects.None? ==> r == "null"
    ensures objects.Some? ==> r == Join(objects.value, AppendText(delimiter))
  {
    if objects.None? then "null"
    else ToStringRange(objects, 0, |objects.value|, delimiter).value
  }

  /** `toString(objects, first, length, char)`: the delimiter as a one-character string. */
  function ToStringRangeChar(objects: Option<seq<Option<string>>>, first: int, length: int,
                             delimiter: char): (r: Outcome<string>)
    requires objects.Some? ==> IsArray(objects.value)
    requires IsInt(first) && IsInt(length)
    ensures objects.None? ==> r == Returned("null")
    ensures objects.Some? ==> (r.Threw? <==> ValidateAsWritten(|objects.value|, first, length).Threw?)
    ensures objects.Some? && r.Returned? ==> r.value == Join(objects.value, [delimiter])
  {
    ToStringRange(objects, first, length, Some([delimiter]))
  }

  /** `toString(objects, char)`. */
  function ToStringChar(objects: Option<seq<Option<string>>>, delimiter: char): (r: string)
    requires objects.Some? ==> IsArray(objects.value)
    ensures objects.None? ==> r == "null"
    ensures objects.Some? ==> r == Join(objects.value, [delimiter])
  {
    if objects.None? then "null"
    else ToStringRangeChar(objects, 0, |objects.value|, delimiter).value
  }

  /** The range arguments of `toString` decide only whether it throws: any valid range
      gives the text of the whole array. */
  lemma ToStringIgnoresRange(objects: seq<Option<string>>, first: int, length: int,
                             prefix: Option<string>, delimiter: Option<string>, suffix: Option<string>)
    requires IsArray(objects) && IsInt(first) && IsInt(length)
    requires 0 <= first && 0 <= length && first + length <= |objects|
    ensures ToString(Some(objects), first, length, prefix, delimiter, suffix)
            == Returned(ToStringAffixed(Some(objects), prefix, delimiter, suffix))
  {
  }

  /** Every whole-array overload is the joined elements, framed by the affixes given, with
      `"null"` for a `null` array or delimiter. */
  lemma WholeArrayOverloads(objects: Option<seq<Option<string>>>, prefix: Option<string>,
                            delimiter: Option<string>, d: char)
    requires objects.Some? ==> IsArray(objects.value)
    ensures objects.None? ==>
              && ToStringAffixed(objects, prefix, delimiter, prefix) == "null"
              && ToStringDelimited(objects, delimiter) == "null"
              && ToStringChar(objects, d) == "null"
    ensures objects.Some? ==>
              && ToStringDelimited(objects, delimiter) == Join(objects.value, AppendText(delimiter))
              && ToStringChar(objects, d) == Join(objects.value, [d])
              && ToStringAffixed(objects, Some("["), None, Some("]")) == "[" + Join(objects.value, "null") + "]"
  {
  }

  /** With a single-character delimiter, `[a, null, b]` reads `a,null,b`. */
  lemma ToStringExample()
    ensures ToStringChar(Some([Some("a"), None, Some("b")]), ',') == "a,null,b"
  {
    var e := [Some("a"), None, Some("b")];
    assert e[..2][..1] == [Some("a")];
    assert Join(e[..2], [',']) == "a,null";
  }
}

=== FILE: compatibility.dfy ===
/** The type-compatibility judge of `ReflectionUtils`: `Class.isAssignableFrom` over the
    registry, and `valuesAreCompatibleWithTypes`, which decides position by position whether
    argument classes may occupy a signature's parameters. */
module Compatibility {
  import opened JavaLang
  import opened Types
  import opened Hierarchy

  /** `param.isAssignableFrom(arg)`: identity; a reference type and one of its proper
      supertypes in the registry; `Object` and any non-primitive type, interfaces and arrays
      included (an interface's `getSuperclass()` is `null`, so the registry cannot lead
      there); and array covariance, `T[]` from `S[]` when both components are reference
      types and `T` is assignable from `S`. A primitive class is assignable only from itself. */
  predicate IsAssignableFrom(reg: Registry, param: JType, arg: JType)
    decreases param
  {
    || param == arg
    || (!IsPrimitiveClass(param) && !IsPrimitiveClass(arg) && IsAncestor(reg, arg, param))
    || (param == ObjectClass && !IsPrimitiveClass(arg))
    || (&& param.ArrayOf? && arg.ArrayOf?
        && !IsPrimitiveClass(param.component) && !IsPrimitiveClass(arg.component)
        && IsAssignableFrom(reg, param.component, arg.component))
  }

  /** The rules of `isAssignableFrom` the registry alone cannot give: every class is
      assignable from itself; a primitive class only from itself and to nothing else;
      `Object` from exactly the non-primitive classes; and arrays of reference types are
      covariant, in both directions when neither array class has a registry supertype
      other than `Object`. */
  lemma AssignabilityRules(reg: Registry, param: JType, arg: JType)
    ensures IsAssignableFrom(reg, arg, arg)
    ensures IsPrimitiveClass(param) ==> (IsAssignableFrom(reg, param, arg) <==> param == arg)
    ensures IsPrimitiveClass(arg) ==> (IsAssignableFrom(reg, param, arg) <==> param == arg)
    ensures IsAssignableFrom(reg, ObjectClass, arg) <==> !IsPrimitiveClass(arg)
    ensures param.ArrayOf? && arg.ArrayOf? && param != arg
            && !IsPrimitiveClass(param.component) && !IsPrimitiveClass(arg.component)
            && !IsAncestor(reg, arg, param)
            ==> (IsAssignableFrom(reg, param, arg) <==> IsAssignableFrom(reg, param.component, arg.component))
  {
  }

  /** One iteration of the loop in `valuesAreCompatibleWithTypes`: a `Void.TYPE` argument (a
      `null` value) fits any non-primitive parameter; any other argument fits when the
      parameter is assignable from it or when their primitive equivalents are assignable. */
  predicate ArgumentFits(reg: Registry, arg: JType, param: JType) {
    if arg == VoidType then !IsPrimitiveClass(param)
    else
      || IsAssignableFrom(reg, param, arg)
      || PrimitiveIsAssignableFrom(PrimitiveEquivalentOf(param), PrimitiveEquivalentOf(arg))
  }

  /** `valuesAreCompatibleWithTypes(actual, params)`: different lengths are incompatible;
      otherwise the positions are checked in order and the first misfit answers false. */
  function ValuesAreCompatibleWithTypes(reg: Registry, actual: seq<JType>, params: seq<JType>): bool {
    |params| == |actual| && PositionsFitFrom(reg, actual, params, 0)
  }

  /** The loop of `valuesAreCompatibleWithTypes` from position `i` on. */
  function PositionsFitFrom(reg: Registry, actual: seq<JType>, params: seq<JType>, i: nat): bool
    requires |params| == |actual| && i <= |params|
    decreases |params| - i
  {
    if i == |params| then true
    else if !ArgumentFits(reg, actual[i], params[i]) then false
    else PositionsFitFrom(reg, actual, params, i + 1)
  }

  /** The kind of a primitive or wrapper class, which is what the wrapper-to-primitive map
      and the widening table act on. */
  function PrimitiveKindOf(t: JType): Option<Prim> {
    match t
    case Primitive(k) => Some(k)
    case Boxed(k) => Some(k)
    case _ => None
  }

  /** The loop accepts exactly when the lengths agree and every position fits. */
  lemma {:induction false} ValuesAreCompatibleWithTypesIff(reg: Registry, actual: seq<JType>, params: seq<JType>)
    ensures ValuesAreCompatibleWithTypes(reg, actual, params)
            <==> |actual| == |params| && forall i | 0 <= i < |params| :: ArgumentFits(reg, actual[i], params[i])
  {
    if |actual| == |params| {
      PositionsFitFromIff(reg, actual, params, 0);
    }
  }

  lemma {:induction false} PositionsFitFromIff(reg: Registry, actual: seq<JType>, params: seq<JType>, i: nat)
    requires |params| == |actual| && i <= |params|
    ensures PositionsFitFrom(reg, actual, params, i)
            <==> forall j | i <= j < |params| :: ArgumentFits(reg, actual[j], params[j])
    decreases |params| - i
  {
    if i < |params| {
      PositionsFitFromIff(reg, actual, params, i + 1);
    }
  }

  /** What a single position accepts, stated without the lookup tables: a `null` argument
      fits exactly the non-primitive parameters; any other argument fits exactly when the
      parameter is a supertype of it, or both are primitive or wrapper classes whose kinds
      are equal or widen (so `Integer` fits `int` and `Byte` fits `long`). */
  lemma ArgumentFitsCharacterized(reg: Registry, arg: JType, param: JType)
    ensures arg == VoidType ==>
              (ArgumentFits(reg, arg, param) <==> !param.Primitive? && !param.VoidType?)
    ensures arg != VoidType ==>
              (ArgumentFits(reg, arg, param) <==>
                 || IsAssignableFrom(reg, param, arg)
                 || (&& PrimitiveKindOf(arg).Some? && PrimitiveKindOf(param).Some?
                     && (|| PrimitiveKindOf(arg) == PrimitiveKindOf(param)
                         || Widens(PrimitiveKindOf(arg).value, PrimitiveKindOf(param).value))))
  {
    if arg != VoidType && PrimitiveKindOf(arg).Some? && PrimitiveKindOf(param).Some? {
      PrimitiveIsAssignableFromIsWidening(PrimitiveKindOf(param).value, PrimitiveKindOf(arg).value);
    }
  }

  /** An argument of a class that is neither primitive, nor a wrapper, nor `Void.TYPE` fits
      exactly the parameters assignable from it: `Object` always, arrays by covariance, and
      otherwise its supertypes. */
  lemma PlainReferenceFitsOnlySupertypes(reg: Registry, arg: JType, param: JType)
    requires arg.Reference? || arg.ObjectClass? || arg.ArrayOf?
    ensures ArgumentFits(reg, arg, param) <==> IsAssignableFrom(reg, param, arg)
    ensures ArgumentFits(reg, arg, ObjectClass)
    ensures param.Primitive? ==> !ArgumentFits(reg, arg, param)
    ensures param.Boxed? ==> (ArgumentFits(reg, arg, param) <==> IsAncestor(reg, arg, param))
  {
  }
}

=== FILE: hierarchy.dfy ===
/** An explicit, ranked registry standing in for what `java.lang.Class` reports about a
    type: its superclass, its directly implemented interfaces, whether it is public, and
    its public member methods. On top of it: the supertype relation, the accessible
    ancestor search `getAccessibleMethodFrom`, and `implementsInterface(s)`. */
module Hierarchy {
  import opened JavaLang
  import opened Types

  /** A public member method as `Class.getMethods()` lists it: name, parameter types and
      an opaque handle standing for the `Method` object. */
  datatype MethodDecl = MethodDecl(name: string, params: seq<JType>, handle: nat)

  /** What the registry knows of one type. `rank` orders the hierarchy: every superclass
      and interface edge must lead to a strictly lower rank. */
  datatype ClassInfo = ClassInfo(
    rank: nat,
    superclass: Option<JType>,
    interfaces: seq<JType>,
    isPublic: bool,
    methods: seq<MethodDecl>)

  type Registry = map<JType, ClassInfo>

  /** A type missing from the registry is public, has no supertypes and no methods
      (as a primitive class does). */
  function Info(reg: Registry, t: JType): ClassInfo {
    if t in reg then reg[t] else ClassInfo(0, None, [], true, [])
  }

  function Rank(reg: Registry, t: JType): nat {
    Info(reg, t).rank
  }

  /** Every edge of the registry descends in rank, so the hierarchy is acyclic. */
  ghost predicate WellFormed(reg: Registry) {
    forall t | t in reg ::
      && (reg[t].superclass.Some? ==> Rank(reg, reg[t].superclass.value) < reg[t].rank)
      && (forall i | 0 <= i < |reg[t].interfaces| :: Rank(reg, reg[t].interfaces[i]) < reg[t].rank)
  }

  /** The elements of `xs` whose rank is below `bound`, in order. */
  function Below(reg: Registry, xs: seq<JType>, bound: nat): (r: seq<JType>)
    ensures forall i | 0 <= i < |r| :: Rank(reg, r[i]) < bound
    ensures forall x | x in r :: x in xs
    ensures (forall i | 0 <= i < |xs| :: Rank(reg, xs[i]) < bound) ==> r == xs
  {
    if xs == [] then []
    else if Rank(reg, xs[0]) < bound then [xs[0]] + Below(reg, xs[1..], bound)
    else Below(reg, xs[1..], bound)
  }

  /** `getSuperclass()`, restricted to descending edges. */
  function SuperclassOf(reg: Registry, t: JType): (r: Option<JType>)
    ensures r.Some? ==> Rank(reg, r.value) < Rank(reg, t)
    ensures WellFormed(reg) ==> r == Info(reg, t).superclass
  {
    var s := Info(reg, t).superclass;
    if s.Some? && Rank(reg, s.value) < Rank(reg, t) then s else None
  }

  /** `getInterfaces()`, restricted to descending edges. */
  function InterfacesOf(reg: Registry, t: JType): (r: seq<JType>)
    ensures forall i | 0 <= i < |r| :: Rank(reg, r[i]) < Rank(reg, t)
    ensures WellFormed(reg) ==> r == Info(reg, t).interfaces
  {
    Below(reg, Info(reg, t).interfaces, Rank(reg, t))
  }

  /** `a` is a proper supertype of `t`: reachable through superclass and interface edges. */
  predicate IsAncestor(reg: Registry, t: JType, a: JType)
    decreases Rank(reg, t)
  {
    || (SuperclassOf(reg, t).Some? &&
        (SuperclassOf(reg, t).value == a || IsAncestor(reg, SuperclassOf(reg, t).value, a)))
    || (exists i | 0 <= i < |InterfacesOf(reg, t)| ::
          InterfacesOf(reg, t)[i] == a || IsAncestor(reg, InterfacesOf(reg, t)[i], a))
  }

  /** A proper ancestor always has a strictly lower rank, so no type is its own ancestor. */
  lemma {:induction false} AncestorRankDecreases(reg: Registry, t: JType, a: JType)
    requires IsAncestor(reg, t, a)
    ensures Rank(reg, a) < Rank(reg, t)
    decreases Rank(reg, t)
  {
    if SuperclassOf(reg, t).Some? &&
       (SuperclassOf(reg, t).value == a || IsAncestor(reg, SuperclassOf(reg, t).value, a)) {
      var s := SuperclassOf(reg, t).value;
      if s != a {
        AncestorRankDecreases(reg, s, a);
      }
    } else {
      var ifs := InterfacesOf(reg, t);
      var i :| 0 <= i < |ifs| && (ifs[i] == a || IsAncestor(reg, ifs[i], a));
      if ifs[i] != a {
        AncestorRankDecreases(reg, ifs[i], a);
      }
    }
  }

  /** `Class.getMethod(name, params)`: the first public member method with exactly that
      name and parameter list, or `None` where `getMethod` throws `NoSuchMethodException`. */
  function LookupMethod(reg: Registry, t: JType, name: string, params: seq<JType>): (r: Option<MethodDecl>)
    ensures r.Some? ==> r.value in Info(reg, t).methods && r.value.name == name && r.value.params == params
    ensures r.None? <==> forall m | m in Info(reg, t).methods :: !(m.name == name && m.params == params)
  {
    FirstWithSignature(Info(reg, t).methods, name, params)
  }

  function FirstWithSignature(ms: seq<MethodDecl>, name: string, params: seq<JType>): (r: Option<MethodDecl>)
    ensures r.Some? ==> r.value in ms && r.value.name == name && r.value.params == params
    ensures r.None? <==> forall m | m in ms :: !(m.name == name && m.params == params)
  {
    if ms == [] then None
    else if ms[0].name == name && ms[0].params == params then Some(ms[0])
    else FirstWithSignature(ms[1..], name, params)
  }

  /** `getMethod` on `a` succeeds and `a` is public: `a` exposes the method accessibly. */
  predicate ExposesAccessibly(reg: Registry, a: JType, name: string, params: seq<JType>) {
    Info(reg, a).isPublic && LookupMethod(reg, a, name, params).Some?
  }

  /** `MethodMatcher.getAccessibleMethodFrom`: search the superclass, then each public
      interface, then recursively the superclass's ancestors, then each interface's
      ancestors, returning the first public declaration with the same signature. */
  function GetAccessibleMethodFrom(reg: Registry, t: JType, name: string, params: seq<JType>): (r: Option<MethodDecl>)
    ensures r.Some? ==> r.value.name == name && r.value.params == params
    decreases Rank(reg, t), 1
  {
    var sup := SuperclassOf(reg, t);
    var ifs := InterfacesOf(reg, t);
    if sup.Some? && ExposesAccessibly(reg, sup.value, name, params) then
      LookupMethod(reg, sup.value, name, params)
    else
      match FirstAccessibleDirect(reg, ifs, name, params)
      case Some(m) => Some(m)
      case None =>
        var fromSuper := if sup.Some? then GetAccessibleMethodFrom(reg, sup.value, name, params) else None;
        if fromSuper.Some? then fromSuper
        else FirstAccessibleAmongAncestors(reg, t, ifs, name, params)
  }

  /** The interface loop of step two: the first public interface whose `getMethod` succeeds. */
  function FirstAccessibleDirect(reg: Registry, ifs: seq<JType>, name: string, params: seq<JType>): (r: Option<MethodDecl>)
    ensures r.Some? ==> exists i | 0 <= i < |ifs| ::
              && ExposesAccessibly(reg, ifs[i], name, params) && r == LookupMethod(reg, ifs[i], name, params)
              && forall j | 0 <= j < i :: !ExposesAccessibly(reg, ifs[j], name, params)
    ensures r.None? <==> forall i | 0 <= i < |ifs| :: !ExposesAccessibly(reg, ifs[i], name, params)
  {
    if ifs == [] then None
    else if ExposesAccessibly(reg, ifs[0], name, params) then LookupMethod(reg, ifs[0], name, params)
    else
      var r := FirstAccessibleDirect(reg, ifs[1..], name, params);
      assert forall i | 1 <= i < |ifs| :: ifs[i] == ifs[1..][i - 1];
      assert r.Some? ==> exists i | 0 <= i < |ifs| ::
               && ExposesAccessibly(reg, ifs[i], name, params) && r == LookupMethod(reg, ifs[i], name, params)
               && forall j | 0 <= j < i :: !ExposesAccessibly(reg, ifs[j], name, params) by {
        if r.Some? {
          var k :| 0 <= k < |ifs[1..]| && ExposesAccessibly(reg, ifs[1..][k], name, params)
                   && r == LookupMethod(reg, ifs[1..][k], name, params)
                   && forall j | 0 <= j < k :: !ExposesAccessibly(reg, ifs[1..][j], name, params);
          assert forall j | 0 <= j < k + 1 :: !ExposesAccessibly(reg, ifs[j], name, params) by {
            forall j | 0 <= j < k + 1 ensures !ExposesAccessibly(reg, ifs[j], name, params) {
              if j > 0 {
                assert ifs[j] == ifs[1..][j - 1];
              }
            }
          }
        }
      }
      r
  }

  /** The interface loop of step four: recurse into each interface in turn. */
  function FirstAccessibleAmongAncestors(reg: Registry, t: JType, ifs: seq<JType>, name: string, params: seq<JType>): (r: Option<MethodDecl>)
    requires forall i | 0 <= i < |ifs| :: Rank(reg, ifs[i]) < Rank(reg, t)
    ensures r.Some? ==> r.value.name == name && r.value.params == params
    decreases Rank(reg, t), 0, |ifs|
  {
    if ifs == [] then None
    else
      var r := GetAccessibleMethodFrom(reg, ifs[0], name, params);
      if r.Some? then r else FirstAccessibleAmongAncestors(reg, t, ifs[1..], name, params)
  }

  /** Some proper ancestor of `t` is public and has the method. */
  ghost predicate HasAccessibleAncestor(reg: Registry, t: JType, name: string, params: seq<JType>) {
    exists a :: IsAncestor(reg, t, a) && ExposesAccessibly(reg, a, name, params)
  }

  /** The ancestor search is sound and complete: it finds a method exactly when some proper
      ancestor exposes one accessibly, and what it finds has the requested signature and is
      the `getMethod` result of such an ancestor. */
  lemma {:induction false} GetAccessibleMethodFromCorrect(reg: Registry, t: JType, name: string, params: seq<JType>)
    ensures var r := GetAccessibleMethodFrom(reg, t, name, params);
            && (r.Some? <==> HasAccessibleAncestor(reg, t, name, params))
            && (r.Some? ==> exists a :: IsAncestor(reg, t, a) && ExposesAccessibly(reg, a, name, params)
                                        && r == LookupMethod(reg, a, name, params))
    decreases Rank(reg, t), 1
  {
    var r := GetAccessibleMethodFrom(reg, t, name, params);
    var sup := SuperclassOf(reg, t);
    var ifs := InterfacesOf(reg, t);
    if sup.Some? && ExposesAccessibly(reg, sup.value, name, params) {
      FoundDirectly(reg, t, sup.value, name, params);
    } else if FirstAccessibleDirect(reg, ifs, name, params).Some? {
      var i :| 0 <= i < |ifs| && ExposesAccessibly(reg, ifs[i], name, params)
               && r == LookupMethod(reg, ifs[i], name, params);
      FoundDirectly(reg, t, ifs[i], name, params);
    } else {
      var fromSuper := if sup.Some? then GetAccessibleMethodFrom(reg, sup.value, name, params) else None;
      if sup.Some? {
        GetAccessibleMethodFromCorrect(reg, sup.value, name, params);
        if fromSuper.Some? {
          var a :| IsAncestor(reg, sup.value, a) && ExposesAccessibly(reg, a, name, params)
                   && fromSuper == LookupMethod(reg, a, name, params);
          assert IsAncestor(reg, t, a);
          return;
        }
      }
      AmongAncestorsCorrect(reg, t, ifs, name, params);
      if r.None? {
        NoAccessibleAncestor(reg, t, name, params);
      } else {
        var a :| IsAncestor(reg, t, a) && ExposesAccessibly(reg, a, name, params)
                 && r == LookupMethod(reg, a, name, params);
      }
    }
  }

  /** A direct supertype that exposes the method is an accessible ancestor. */
  lemma FoundDirectly(reg: Registry, t: JType, a: JType, name: string, params: seq<JType>)
    requires SuperclassOf(reg, t) == Some(a) || a in InterfacesOf(reg, t)
    requires ExposesAccessibly(reg, a, name, params)
    ensures IsAncestor(reg, t, a) && HasAccessibleAncestor(reg, t, name, params)
  {
    if SuperclassOf(reg, t) != Some(a) {
      var i :| 0 <= i < |InterfacesOf(reg, t)| && InterfacesOf(reg, t)[i] == a;
    }
  }

  /** When neither the superclass nor any direct interface exposes the method, and none of
      them has an ancestor that does, no ancestor of `t` does. */
  lemma NoAccessibleAncestor(reg: Registry, t: JType, name: string, params: seq<JType>)
    requires SuperclassOf(reg, t).Some? ==>
               !ExposesAccessibly(reg, SuperclassOf(reg, t).value, name, params)
               && !HasAccessibleAncestor(reg, SuperclassOf(reg, t).value, name, params)
    requires forall i | 0 <= i < |InterfacesOf(reg, t)| ::
               !ExposesAccessibly(reg, InterfacesOf(reg, t)[i], name, params)
               && !HasAccessibleAncestor(reg, InterfacesOf(reg, t)[i], name, params)
    ensures !HasAccessibleAncestor(reg, t, name, params)
  {
    var sup := SuperclassOf(reg, t);
    var ifs := InterfacesOf(reg, t);
    forall a | IsAncestor(reg, t, a)
      ensures !ExposesAccessibly(reg, a, name, params)
    {
      if sup.Some? && (sup.value == a || IsAncestor(reg, sup.value, a)) {
      } else {
        var i :| 0 <= i < |ifs| && (ifs[i] == a || IsAncestor(reg, ifs[i], a));
      }
    }
  }

  lemma {:induction false} AmongAncestorsCorrect(reg: Registry, t: JType, ifs: seq<JType>, name: string, params: seq<JType>)
    requires forall i | 0 <= i < |ifs| :: Rank(reg, ifs[i]) < Rank(reg, t)
    ensures var r := FirstAccessibleAmongAncestors(reg, t, ifs, name, params);
            && (r.None? <==> forall i | 0 <= i < |ifs| :: !HasAccessibleAncestor(reg, ifs[i], name, params))
            && (r.Some? ==> exists i, a | 0 <= i < |ifs| :: IsAncestor(reg, ifs[i], a)
                              && ExposesAccessibly(reg, a, name, params) && r == LookupMethod(reg, a, name, params))
    decreases Rank(reg, t), 0, |ifs|
  {
    if ifs != [] {
      GetAccessibleMethodFromCorrect(reg, ifs[0], name, params);
      AmongAncestorsCorrect(reg, t, ifs[1..], name, params);
      assert forall i | 1 <= i < |ifs| :: ifs[i] == ifs[1..][i - 1];
      var r0 := GetAccessibleMethodFrom(reg, ifs[0], name, params);
      if r0.Some? {
        var a :| IsAncestor(reg, ifs[0], a) && ExposesAccessibly(reg, a, name, params)
                 && r0 == LookupMethod(reg, a, name, params);
        assert IsAncestor(reg, ifs[0], a);
      }
    }
  }

  /** `implementsInterface(Class, Class)`: walk the superclass chain and look for the interface
      among each class's directly declared interfaces (superinterfaces are not followed). */
  predicate ImplementsInterface(reg: Registry, t: JType, iface: JType)
    decreases Rank(reg, t)
  {
    || iface in Info(reg, t).interfaces
    || (SuperclassOf(reg, t).Some? && ImplementsInterface(reg, SuperclassOf(reg, t).value, iface))
  }

  /** `a` is `t` itself or is reached from it by `getSuperclass()` alone. */
  predicate OnSuperclassChain(reg: Registry, t: JType, a: JType)
    decreases Rank(reg, t)
  {
    || t == a
    || (SuperclassOf(reg, t).Some? && OnSuperclassChain(reg, SuperclassOf(reg, t).value, a))
  }

  /** The chain walk finds the interface exactly when some class on the superclass chain
      declares it directly. */
  lemma {:induction false} ImplementsInterfaceChain(reg: Registry, t: JType, iface: JType)
    ensures ImplementsInterface(reg, t, iface)
            <==> exists a | OnSuperclassChain(reg, t, a) :: iface in Info(reg, a).interfaces
    decreases Rank(reg, t)
  {
    if iface in Info(reg, t).interfaces {
      assert OnSuperclassChain(reg, t, t);
    }
    if SuperclassOf(reg, t).Some? {
      var s := SuperclassOf(reg, t).value;
      ImplementsInterfaceChain(reg, s, iface);
      if ImplementsInterface(reg, s, iface) {
        var a :| OnSuperclassChain(reg, s, a) && iface in Info(reg, a).interfaces;
        assert OnSuperclassChain(reg, t, a);
      }
    }
    if exists a | OnSuperclassChain(reg, t, a) :: iface in Info(reg, a).interfaces {
      var a :| OnSuperclassChain(reg, t, a) && iface in Info(reg, a).interfaces;
      if a != t {
        assert OnSuperclassChain(reg, SuperclassOf(reg, t).value, a);
      }
    }
  }

  /** `implementsInterface(cls, iface)` with either argument possibly `null`: the loop over a
      `null` class is never entered, and no declared interface equals `null`. */
  function ImplementsInterfaceCall(reg: Registry, cls: Option<JType>, iface: Option<JType>): (r: bool)
    ensures cls.None? || iface.None? ==> !r
    ensures cls.Some? && iface.Some? ==>
              (r <==> exists a | OnSuperclassChain(reg, cls.value, a) :: iface.value in Info(reg, a).interfaces)
  {
    if cls.Some? && iface.Some? then
      ImplementsInterfaceChain(reg, cls.value, iface.value);
      ImplementsInterface(reg, cls.value, iface.value)
    else false
  }

  /** The private `implementsInterfaces(Class, Collection)` applied along the superclass
      chain: remove what each class declares directly, succeeding once nothing is left. */
  function RemoveAlongChain(reg: Registry, t: JType, needed: set<Option<JType>>): bool
    decreases Rank(reg, t)
  {
    var rest := needed - set i | 0 <= i < |Info(reg, t).interfaces| :: Some(Info(reg, t).interfaces[i]);
    if rest == {} then true
    else
      match SuperclassOf(reg, t)
      case None => false
      case Some(s) => RemoveAlongChain(reg, s, rest)
  }

  /** `implementsInterfaces(Class, Class[])`: the wanted interfaces are gathered into a set
      (`None` stands for a `null` element) and the chain is walked while any remain; an
      empty request never enters the loop and answers false. */
  function ImplementsInterfaces(reg: Registry, t: JType, desired: seq<Option<JType>>): bool {
    var needed := set i | 0 <= i < |desired| :: desired[i];
    needed != {} && RemoveAlongChain(reg, t, needed)
  }

  /** `implementsInterfaces(cls, desired)` with either argument possibly `null`: a `null`
      array fails with `NullPointerException` when the set is sized by its length, and a
      `null` class ends the walk at once with false. */
  function ImplementsInterfacesCall(reg: Registry, cls: Option<JType>, desired: Option<seq<Option<JType>>>): (r: Outcome<bool>)
    ensures desired.None? <==> r == Threw(NullPointer)
    ensures desired.Some? && cls.None? ==> r == Returned(false)
    ensures desired.Some? && cls.Some? ==>
              (r == Returned(true) <==> |desired.value| > 0 && forall i | 0 <= i < |desired.value| ::
                                          desired.value[i].Some? && ImplementsInterface(reg, cls.value, desired.value[i].value))
  {
    if desired.None? then Threw(NullPointer)
    else if cls.None? then Returned(false)
    else
      ImplementsInterfacesCorrect(reg, cls.value, desired.value);
      Returned(ImplementsInterfaces(reg, cls.value, desired.value))
  }

  lemma {:induction false} RemoveAlongChainCorrect(reg: Registry, t: JType, needed: set<Option<JType>>)
    ensures RemoveAlongChain(reg, t, needed)
            <==> forall x | x in needed :: x.Some? && ImplementsInterface(reg, t, x.value)
    decreases Rank(reg, t)
  {
    var direct := set i | 0 <= i < |Info(reg, t).interfaces| :: Some(Info(reg, t).interfaces[i]);
    assert forall x :: x in direct <==> x.Some? && x.value in Info(reg, t).interfaces;
    var rest := needed - direct;
    if rest == {} {
      forall x | x in needed
        ensures x.Some? && ImplementsInterface(reg, t, x.value)
      {
        assert x !in rest;
      }
    } else {
      var x :| x in rest;
      match SuperclassOf(reg, t)
      case None =>
        assert !(x.Some? && ImplementsInterface(reg, t, x.value));
      case Some(s) =>
        RemoveAlongChainCorrect(reg, s, rest);
        assert forall y | y in rest :: y.Some? ==> (ImplementsInterface(reg, t, y.value) <==> ImplementsInterface(reg, s, y.value));
        assert forall y | y in needed && y !in rest :: y in direct;
    }
  }

  /** `implementsInterfaces` holds exactly when at least one interface is requested, none of
      the requested entries is `null`, and every one is implemented in the sense of
      `implementsInterface`. */
  lemma ImplementsInterfacesCorrect(reg: Registry, t: JType, desired: seq<Option<JType>>)
    ensures ImplementsInterfaces(reg, t, desired)
            <==> |desired| > 0 && forall i | 0 <= i < |desired| ::
                   desired[i].Some? && ImplementsInterface(reg, t, desired[i].value)
  {
    var needed := set i | 0 <= i < |desired| :: desired[i];
    RemoveAlongChainCorrect(reg, t, needed);
    if |desired| > 0 {
      assert desired[0] in needed;
    }
    assert forall i | 0 <= i < |desired| :: desired[i] in needed;
  }
}

=== FILE: java_lang.dfy ===
/** Shared vocabulary for the model: Java's nullable references, its 32-bit `int`,
    and the exceptions the modelled code can raise. */
module JavaLang {

  /** A nullable Java reference: `None` is `null`. */
  datatype Option<+T> = None | Some(value: T)

  /** The exceptions thrown by the modelled code, by class name. */
  datatype Exception =
    | NullPointer
    | IllegalArgument
    | IndexOutOfBounds
    | ArrayIndexOutOfBounds
    | NegativeArraySize
    | ClassCast
    | NoSuchMethod
    | NoSuchElement
    | UnsupportedOperation
    | ClassNotFound
    | InvocationTarget

  /** Either a normal return or a thrown exception. */
  datatype Outcome<+T> = Returned(value: T) | Threw(error: Exception) {
    predicate IsFailure() { Threw? }
  }

  const INT_MIN: int := -0x8000_0000
  const INT_MAX: int := 0x7FFF_FFFF
  const TWO_32: int := 0x1_0000_0000

  /** True iff `x` fits in a Java `int`. */
  predicate IsInt(x: int) { INT_MIN <= x <= INT_MAX }

  /** Java's two's-complement wrap-around of an exact integer result into an `int`. */
  function Wrap32(x: int): (r: int)
    ensures IsInt(r)
    ensures (r - x) % TWO_32 == 0
    ensures IsInt(x) ==> r == x
  {
    var m := (x - INT_MIN) % TWO_32;
    m + INT_MIN
  }

  /** The sum `a + b` as computed by Java on two `int` operands. */
  function AddInt(a: int, b: int): (r: int)
    requires IsInt(a) && IsInt(b)
    ensures IsInt(r)
    ensures IsInt(a + b) ==> r == a + b
    ensures a + b > INT_MAX ==> r == a + b - TWO_32
    ensures a + b < INT_MIN ==> r == a + b + TWO_32
  {
    Wrap32(a + b)
  }
}

=== FILE: lru_cache.dfy ===
/** `LRUCache`: a capacity-bounded map kept in access order (a `LinkedHashMap` with its
    access-order flag set) whose eldest entry is dropped when a new key takes it over
    capacity. The state is the entry sequence, least recently used first. */
module LruCache {
  import opened JavaLang

  /** `capacity` is `myCacheSize`, a Java `int` that may be negative. */
  datatype Cache<K, V> = Cache(capacity: int, entries: seq<(K, V)>)

  /** How many entries a cache of the given capacity can hold: none when it is negative. */
  function Room(capacity: int): nat {
    if capacity < 0 then 0 else capacity
  }

  /** Some entry has key `k`. */
  predicate HasKey<K(==,!new), V(!new)>(entries: seq<(K, V)>, k: K) {
    exists i | 0 <= i < |entries| :: entries[i].0 == k
  }

  predicate DistinctKeys<K(==,!new), V(!new)>(entries: seq<(K, V)>) {
    forall i, j | 0 <= i < j < |entries| :: entries[i].0 != entries[j].0
  }

  /** The representation invariant: no key twice, never more entries than the capacity
      (and none at all when the capacity is negative). */
  predicate Valid<K(==,!new), V(!new)>(c: Cache<K, V>) {
    DistinctKeys(c.entries) && |c.entries| <= Room(c.capacity)
  }

  /** The key/value view of the entries, as `toMap()` would give it without its order. */
  function AsMap<K(==,!new), V(!new)>(entries: seq<(K, V)>): (m: map<K, V>)
    ensures forall k :: k in m <==> HasKey(entries, k)
  {
    if entries == [] then map[]
    else
      var rest := AsMap(entries[1..]);
      assert forall k :: HasKey(entries, k) <==> entries[0].0 == k || HasKey(entries[1..], k) by {
        forall k ensures HasKey(entries, k) <==> entries[0].0 == k || HasKey(entries[1..], k) {
          if HasKey(entries[1..], k) {
            var i :| 0 <= i < |entries[1..]| && entries[1..][i].0 == k;
            assert entries[i + 1].0 == k;
          }
          if HasKey(entries, k) && entries[0].0 != k {
            var i :| 0 <= i < |entries| && entries[i].0 == k;
            assert entries[1..][i - 1].0 == k;
          }
        }
      }
      rest[entries[0].0 := entries[0].1]
  }

  /** The value stored under `k`, or `None` (Java's `null`). */
  function Lookup<K(==,!new), V(!new)>(entries: seq<(K, V)>, k: K): (r: Option<V>)
    ensures r.Some? <==> HasKey(entries, k)
    ensures r.Some? ==> (k, r.value) in entries
  {
    if entries == [] then None
    else if entries[0].0 == k then Some(entries[0].1)
    else
      var r := Lookup(entries[1..], k);
      assert HasKey(entries[1..], k) ==> HasKey(entries, k) by {
        if HasKey(entries[1..], k) {
          var i :| 0 <= i < |entries[1..]| && entries[1..][i].0 == k;
          assert entries[i + 1].0 == k;
        }
      }
      assert HasKey(entries, k) ==> HasKey(entries[1..], k) by {
        if HasKey(entries, k) {
          var i :| 0 <= i < |entries| && entries[i].0 == k;
          assert entries[1..][i - 1].0 == k;
        }
      }
      r
  }

  /** `entries` without the entry for `k`, the others in their order. */
  function Without<K(==,!new), V(!new)>(entries: seq<(K, V)>, k: K): (r: seq<(K, V)>)
    ensures forall p :: p in r <==> p in entries && p.0 != k
    ensures |r| <= |entries|
  {
    if entries == [] then []
    else
      var rest := Without(entries[1..], k);
      assert forall p :: p in entries <==> p == entries[0] || p in entries[1..];
      if entries[0].0 == k then rest else [entries[0]] + rest
  }

  /** On a duplicate-free sequence, removing a key keeps it duplicate-free, removes one
      entry when the key is present and none otherwise. */
  lemma {:induction false} WithoutDistinct<K(!new), V(!new)>(entries: seq<(K, V)>, k: K)
    requires DistinctKeys(entries)
    ensures DistinctKeys(Without(entries, k))
    ensures !HasKey(Without(entries, k), k)
    ensures HasKey(entries, k) ==> |Without(entries, k)| == |entries| - 1
    ensures !HasKey(entries, k) ==> Without(entries, k) == entries
  {
    if entries != [] {
      var tail := entries[1..];
      DistinctTail(entries);
      WithoutDistinct(tail, k);
      HasKeySplit(entries, k);
      var rest := Without(tail, k);
      if entries[0].0 != k {
        assert Without(entries, k) == [entries[0]] + rest;
        OnlyKeysOf(rest, tail, entries[0].0);
        DistinctCons(entries[0], rest);
        HasKeySplit([entries[0]] + rest, k);
      }
    }
  }

  lemma HasKeySplit<K(!new), V(!new)>(entries: seq<(K, V)>, k: K)
    requires entries != []
    ensures HasKey(entries, k) <==> entries[0].0 == k || HasKey(entries[1..], k)
  {
    if HasKey(entries[1..], k) {
      var i :| 0 <= i < |entries[1..]| && entries[1..][i].0 == k;
      assert entries[i + 1].0 == k;
    }
    if HasKey(entries, k) && entries[0].0 != k {
      var i :| 0 <= i < |entries| && entries[i].0 == k;
      assert entries[1..][i - 1].0 == k;
    }
  }

  lemma DistinctTail<K(!new), V(!new)>(entries: seq<(K, V)>)
    requires DistinctKeys(entries) && entries != []
    ensures DistinctKeys(entries[1..]) && !HasKey(entries[1..], entries[0].0)
  {
    var tail := entries[1..];
    forall i, j | 0 <= i < j < |tail| ensures tail[i].0 != tail[j].0 {
      assert tail[i] == entries[i + 1] && tail[j] == entries[j + 1];
    }
    forall i | 0 <= i < |tail| ensures tail[i].0 != entries[0].0 {
      assert tail[i] == entries[i + 1];
    }
  }

  lemma DistinctCons<K(!new), V(!new)>(x: (K, V), entries: seq<(K, V)>)
    requires DistinctKeys(entries) && !HasKey(entries, x.0)
    ensures DistinctKeys([x] + entries)
  {
    var e := [x] + entries;
    forall i, j | 0 <= i < j < |e| ensures e[i].0 != e[j].0 {
      assert e[j] == entries[j - 1];
      if i > 0 {
        assert e[i] == entries[i - 1];
      }
    }
  }

  /** A sequence whose pairs all come from `from` has no key `from` lacks. */
  lemma OnlyKeysOf<K(!new), V(!new)>(sub: seq<(K, V)>, from: seq<(K, V)>, k: K)
    requires forall p | p in sub :: p in from
    requires !HasKey(from, k)
    ensures !HasKey(sub, k)
  {
    forall i | 0 <= i < |sub| ensures sub[i].0 != k {
      assert sub[i] in from;
      var j :| 0 <= j < |from| && from[j] == sub[i];
    }
  }

  /** `(int) Math.ceil(capacity / 0.75f) + 1`, the initial size the constructor asks of the
      `LinkedHashMap`, with the quotient taken exactly: the cast saturates at the `int` range
      and the `+ 1` wraps. */
  function HashTableCapacity(capacity: int): (r: int)
    requires IsInt(capacity)
    ensures IsInt(r)
  {
    var ceiling := -((-4 * capacity) / 3);
    var cast := if ceiling > INT_MAX then INT_MAX else if ceiling < INT_MIN then INT_MIN else ceiling;
    AddInt(cast, 1)
  }

  /** `new LRUCache(capacity)`: `LinkedHashMap` rejects a negative initial size with
      `IllegalArgumentException`. That happens for a capacity of -2 or less, and for one so
      large that the size wraps; a capacity of -1 or 0 makes a cache that keeps nothing. */
  function New<K(==,!new), V(!new)>(capacity: int): (r: Outcome<Cache<K, V>>)
    requires IsInt(capacity)
    ensures r.Returned? <==> -1 <= capacity < 1_610_612_735
    ensures r.Threw? ==> r.error == IllegalArgument
    ensures r.Returned? ==> Valid(r.value) && r.value.capacity == capacity && |r.value.entries| == 0
  {
    if HashTableCapacity(capacity) < 0 then Threw(IllegalArgument) else Returned(Cache(capacity, []))
  }

  /** `get(k)`: a hit returns the value and makes the entry the most recent; a miss returns
      `null` and leaves the order as it was. */
  function Get<K(==,!new), V(!new)>(c: Cache<K, V>, k: K): (res: (Option<V>, Cache<K, V>))
    ensures res.0.Some? <==> ContainsKey(c, k)
    ensures res.1.capacity == c.capacity
    ensures res.0.Some? ==> ContainsKey(res.1, k) && res.1.entries[|res.1.entries| - 1] == (k, res.0.value)
  {
    match Lookup(c.entries, k)
    case None => (None, c)
    case Some(v) =>
      var e := Without(c.entries, k) + [(k, v)];
      assert e[|e| - 1].0 == k;
      (Some(v), Cache(c.capacity, e))
  }

  /** `put(k, v)`: an existing key takes the new value and becomes the most recent without
      any eviction; a new key is appended, and `removeEldestEntry` then drops the first
      entry if the size exceeds the capacity. */
  function Put<K(==,!new), V(!new)>(c: Cache<K, V>, k: K, v: V): (r: Cache<K, V>)
    requires Valid(c)
    ensures Valid(r)
    ensures r.capacity == c.capacity
  {
    if HasKey(c.entries, k) then
      var kept := Without(c.entries, k);
      WithoutDistinct(c.entries, k);
      AppendFreshKey(kept, k, v);
      Cache(c.capacity, kept + [(k, v)])
    else
      var grown := c.entries + [(k, v)];
      AppendFreshKey(c.entries, k, v);
      if |grown| > c.capacity then
        assert DistinctKeys(grown[1..]) by {
          forall i, j | 0 <= i < j < |grown[1..]| ensures grown[1..][i].0 != grown[1..][j].0 {
            assert grown[1..][i] == grown[i + 1] && grown[1..][j] == grown[j + 1];
          }
        }
        Cache(c.capacity, grown[1..])
      else Cache(c.capacity, grown)
  }

  /** Appending an entry whose key is absent keeps the keys distinct. */
  lemma AppendFreshKey<K(!new), V(!new)>(entries: seq<(K, V)>, k: K, v: V)
    requires DistinctKeys(entries) && !HasKey(entries, k)
    ensures DistinctKeys(entries + [(k, v)])
  {
    var e := entries + [(k, v)];
    forall i, j | 0 <= i < j < |e| ensures e[i].0 != e[j].0 {
      if j == |entries| {
        assert e[i] == entries[i];
      } else {
        assert e[i] == entries[i] && e[j] == entries[j];
      }
    }
  }

  /** `containsKey(k)`: does not count as an access. */
  predicate ContainsKey<K(==,!new), V(!new)>(c: Cache<K, V>, k: K)
    ensures ContainsKey(c, k) <==> k in AsMap(c.entries)
  {
    HasKey(c.entries, k)
  }

  /** `remove(k)`: the previous value (or `null`), and the cache without `k`. */
  function Remove<K(==,!new), V(!new)>(c: Cache<K, V>, k: K): (res: (Option<V>, Cache<K, V>))
    ensures res.0.Some? <==> ContainsKey(c, k)
    ensures !ContainsKey(res.1, k) && res.1.capacity == c.capacity
    ensures forall j :: j != k ==> (ContainsKey(res.1, j) <==> ContainsKey(c, j))
  {
    (Lookup(c.entries, k), Cache(c.capacity, Without(c.entries, k)))
  }

  /** `clear()`. */
  function Clear<K(==,!new), V(!new)>(c: Cache<K, V>): (r: Cache<K, V>)
    ensures Valid(r) && r.capacity == c.capacity
    ensures forall k :: !ContainsKey(r, k)
  {
    Cache(c.capacity, [])
  }

  /** `isEmpty()`: no key is contained. */
  predicate IsEmpty<K(==,!new), V(!new)>(c: Cache<K, V>)
    ensures IsEmpty(c) <==> forall k :: !ContainsKey(c, k)
  {
    assert |c.entries| > 0 ==> ContainsKey(c, c.entries[0].0);
    |c.entries| == 0
  }

  function Capacity<K(==,!new), V(!new)>(c: Cache<K, V>): int {
    c.capacity
  }

  /** `usedEntries()`: the number of keys held. */
  function UsedEntries<K(==,!new), V(!new)>(c: Cache<K, V>): (n: nat)
    ensures n == 0 <==> IsEmpty(c)
    ensures Valid(c) ==> n <= Room(c.capacity)
  {
    |c.entries|
  }

  /** `unusedEntries()`: the capacity less the used entries. */
  function UnusedEntries<K(==,!new), V(!new)>(c: Cache<K, V>): (n: int)
    ensures Valid(c) ==> (n >= 0 <==> c.capacity >= 0)
    ensures Valid(c) && c.capacity < 0 ==> n == c.capacity
  {
    Capacity(c) - UsedEntries(c)
  }

  // ---------------------------------------------------------------------------------------
  // Properties

  /** A `put` of a new key into a full cache evicts exactly one entry, the least recently
      used one; below capacity nothing is evicted. Either way the new entry is the most recent. */
  lemma PutEvictsLeastRecent<K(!new), V(!new)>(c: Cache<K, V>, k: K, v: V)
    requires Valid(c)
    requires !ContainsKey(c, k)
    ensures |c.entries| < c.capacity ==> Put(c, k, v).entries == c.entries + [(k, v)]
    ensures |c.entries| == c.capacity && c.capacity > 0 ==>
              && Put(c, k, v).entries == c.entries[1..] + [(k, v)]
              && !ContainsKey(Put(c, k, v), c.entries[0].0)
              && forall i | 1 <= i < |c.entries| :: ContainsKey(Put(c, k, v), c.entries[i].0)
    ensures c.capacity <= 0 ==> Put(c, k, v).entries == []
  {
    if |c.entries| == c.capacity && c.capacity > 0 {
      var r := Put(c, k, v).entries;
      assert r == c.entries[1..] + [(k, v)];
      assert c.entries[0].0 != k;
      forall i | 0 <= i < |r| ensures r[i].0 != c.entries[0].0 {
        if i < |r| - 1 {
          assert r[i] == c.entries[i + 1];
        }
      }
      forall i | 1 <= i < |c.entries|
        ensures HasKey(r, c.entries[i].0)
      {
        assert r[i - 1] == c.entries[i];
      }
    }
  }

  /** Re-putting a present key replaces its value, makes it the most recent, and keeps the
      other entries in order: nothing is evicted. */
  lemma PutExistingKeepsOthers<K(!new), V(!new)>(c: Cache<K, V>, k: K, v: V)
    requires Valid(c)
    requires ContainsKey(c, k)
    ensures Put(c, k, v).entries == Without(c.entries, k) + [(k, v)]
    ensures |Put(c, k, v).entries| == |c.entries|
  {
    WithoutDistinct(c.entries, k);
  }

  /** With room for at least one entry, a `put` is visible: the key is contained and a
      following `get` returns the value just stored. */
  lemma PutThenGet<K(!new), V(!new)>(c: Cache<K, V>, k: K, v: V)
    requires Valid(c) && c.capacity >= 1
    ensures ContainsKey(Put(c, k, v), k)
    ensures Get(Put(c, k, v), k).0 == Some(v)
  {
    var r := Put(c, k, v);
    var e := r.entries;
    assert |e| > 0 && e[|e| - 1] == (k, v) by {
      if !HasKey(c.entries, k) && |c.entries + [(k, v)]| > c.capacity {
        assert e == (c.entries + [(k, v)])[1..];
      }
    }
    assert e[|e| - 1].0 == k;
    LookupLast(e, k, v);
  }

  lemma {:induction false} LookupLast<K(!new), V(!new)>(e: seq<(K, V)>, k: K, v: V)
    requires DistinctKeys(e) && |e| > 0 && e[|e| - 1] == (k, v)
    ensures Lookup(e, k) == Some(v)
  {
    if |e| > 1 {
      assert e[0].0 != k;
      assert DistinctKeys(e[1..]) by {
        forall i, j | 0 <= i < j < |e[1..]| ensures e[1..][i].0 != e[1..][j].0 {
          assert e[1..][i] == e[i + 1] && e[1..][j] == e[j + 1];
        }
      }
      LookupLast(e[1..], k, v);
    }
  }

  /** A `get` hit returns the stored value and moves that entry to the most recent place,
      keeping the others in order and the stored pairs unchanged; a miss returns `null`
      and changes nothing. */
  lemma GetPromotes<K(!new), V(!new)>(c: Cache<K, V>, k: K)
    requires Valid(c)
    ensures ContainsKey(c, k) ==>
              && Get(c, k).0 == Some(Lookup(c.entries, k).value)
              && Get(c, k).1.entries == Without(c.entries, k) + [(k, Lookup(c.entries, k).value)]
              && Valid(Get(c, k).1)
              && AsMap(Get(c, k).1.entries) == AsMap(c.entries)
    ensures !ContainsKey(c, k) ==> Get(c, k) == (None, c)
  {
    if ContainsKey(c, k) {
      var v := Lookup(c.entries, k).value;
      var kept := Without(c.entries, k);
      var e := kept + [(k, v)];
      WithoutDistinct(c.entries, k);
      AppendFreshKey(kept, k, v);
      forall p ensures p in c.entries <==> p in e {
        if p in c.entries && p.0 == k {
          var i :| 0 <= i < |c.entries| && c.entries[i] == p;
          var j :| 0 <= j < |c.entries| && c.entries[j] == (k, v);
          assert i == j;
        }
      }
      SameEntriesSameMap(c.entries, e);
    }
  }

  /** Two duplicate-free entry sequences holding the same pairs have the same map view. */
  lemma SameEntriesSameMap<K(!new), V(!new)>(a: seq<(K, V)>, b: seq<(K, V)>)
    requires DistinctKeys(a) && DistinctKeys(b)
    requires forall p :: p in a <==> p in b
    ensures AsMap(a) == AsMap(b)
  {
    MapOfDistinct(a);
    MapOfDistinct(b);
    forall x ensures x in AsMap(a) <==> x in AsMap(b) {
      if HasKey(a, x) {
        var i :| 0 <= i < |a| && a[i].0 == x;
        assert a[i] in b;
      }
      if HasKey(b, x) {
        var i :| 0 <= i < |b| && b[i].0 == x;
        assert b[i] in a;
      }
    }
    forall x | x in AsMap(a) ensures AsMap(a)[x] == AsMap(b)[x] {
      var i :| 0 <= i < |a| && a[i].0 == x;
      assert a[i] in b;
    }
  }

  /** In a duplicate-free sequence, the map view holds exactly its pairs. */
  lemma {:induction false} MapOfDistinct<K(!new), V(!new)>(e: seq<(K, V)>)
    requires DistinctKeys(e)
    ensures forall p | p in e :: AsMap(e)[p.0] == p.1
  {
    if e != [] {
      var tail := e[1..];
      assert DistinctKeys(tail) by {
        forall i, j | 0 <= i < j < |tail| ensures tail[i].0 != tail[j].0 {
          assert tail[i] == e[i + 1] && tail[j] == e[j + 1];
        }
      }
      MapOfDistinct(tail);
      forall p | p in e ensures AsMap(e)[p.0] == p.1 {
        if p != e[0] {
          var i :| 0 <= i < |e| && e[i] == p;
          assert i > 0 && tail[i - 1] == p;
        }
      }
    }
  }

  /** `remove(k)` returns the previous value and deletes only `k`: every other entry stays,
      in the same order, and the map view loses just that key. */
  lemma RemoveOnlyThatKey<K(!new), V(!new)>(c: Cache<K, V>, k: K)
    requires Valid(c)
    ensures Remove(c, k).0 == Lookup(c.entries, k)
    ensures !ContainsKey(Remove(c, k).1, k)
    ensures Valid(Remove(c, k).1)
    ensures forall p | p in c.entries && p.0 != k :: p in Remove(c, k).1.entries
    ensures AsMap(Remove(c, k).1.entries) == AsMap(c.entries) - {k}
    ensures forall i | 0 <= i < |c.entries| && c.entries[i].0 == k ::
              Remove(c, k).1.entries == c.entries[..i] + c.entries[i + 1..]
    ensures !ContainsKey(c, k) ==> Remove(c, k).1 == c
  {
    WithoutDistinct(c.entries, k);
    MapWithout(c.entries, k);
    forall i | 0 <= i < |c.entries| && c.entries[i].0 == k
      ensures Remove(c, k).1.entries == c.entries[..i] + c.entries[i + 1..]
    {
      WithoutAt(c.entries, k, i);
    }
  }

  /** In a duplicate-free sequence holding `k` at index `i`, removing `k` cuts out exactly
      that entry and keeps the others in order. */
  lemma {:induction false} WithoutAt<K(!new), V(!new)>(e: seq<(K, V)>, k: K, i: nat)
    requires DistinctKeys(e) && i < |e| && e[i].0 == k
    ensures Without(e, k) == e[..i] + e[i + 1..]
  {
    var tail := e[1..];
    DistinctTail(e);
    if i == 0 {
      assert !HasKey(tail, k) by {
        forall j | 0 <= j < |tail| ensures tail[j].0 != k {
          assert tail[j] == e[j + 1];
        }
      }
      WithoutDistinct(tail, k);
      assert e[i + 1..] == tail;
    } else {
      assert tail[i - 1] == e[i];
      WithoutAt(tail, k, i - 1);
      assert e[..i] == [e[0]] + tail[..i - 1];
      assert e[i + 1..] == tail[i..];
    }
  }

  /** The map view of `Without` is the map view minus the key. */
  lemma {:induction false} MapWithout<K(!new), V(!new)>(e: seq<(K, V)>, k: K)
    ensures AsMap(Without(e, k)) == AsMap(e) - {k}
  {
    if e != [] {
      var rest := Without(e[1..], k);
      MapWithout(e[1..], k);
      AsMapCons(e);
      RemoveAfterUpdate(AsMap(e[1..]), e[0].0, e[0].1, k);
      if e[0].0 != k {
        AsMapCons([e[0]] + rest);
        assert ([e[0]] + rest)[1..] == rest;
      }
    }
  }

  lemma AsMapCons<K(!new), V(!new)>(e: seq<(K, V)>)
    requires e != []
    ensures AsMap(e) == AsMap(e[1..])[e[0].0 := e[0].1]
  {
  }

  /** Removing a key after an update forgets the update when it was to that key. */
  lemma RemoveAfterUpdate<K(!new), V(!new)>(m: map<K, V>, a: K, v: V, k: K)
    ensures a == k ==> m[a := v] - {k} == m - {k}
    ensures a != k ==> m[a := v] - {k} == (m - {k})[a := v]
  {
  }

  /** After `clear()` the cache is empty, keeps its capacity, and all of it is unused. */
  lemma ClearEmpties<K(!new), V(!new)>(c: Cache<K, V>)
    ensures IsEmpty(Clear(c)) && UsedEntries(Clear(c)) == 0
    ensures Capacity(Clear(c)) == Capacity(c)
    ensures UnusedEntries(Clear(c)) == Capacity(c)
  {
  }

  /** The capacity never changes, and after any `put` the used entries stay within it. */
  lemma CapacityIsFixed<K(!new), V(!new)>(c: Cache<K, V>, k: K, v: V)
    requires Valid(c)
    ensures Capacity(Put(c, k, v)) == Capacity(c) && UsedEntries(Put(c, k, v)) <= Room(Capacity(c))
    ensures Capacity(c) >= 0 ==> UsedEntries(Put(c, k, v)) <= Capacity(c)
    ensures Capacity(c) < 0 ==> UsedEntries(Put(c, k, v)) == 0 && UnusedEntries(Put(c, k, v)) == Capacity(c)
    ensures Capacity(Get(c, k).1) == Capacity(c) && Capacity(Remove(c, k).1) == Capacity(c)
    ensures UnusedEntries(Put(c, k, v)) == Capacity(c) - UsedEntries(Put(c, k, v))
  {
  }

  /** A `put` invents no entry: everything it keeps was there before or is the new pair,
      and the new pair is kept whenever there is room for one entry. */
  lemma PutEntriesFrom<K(!new), V(!new)>(c: Cache<K, V>, k: K, v: V)
    requires Valid(c)
    ensures forall p | p in Put(c, k, v).entries :: p in c.entries || p == (k, v)
    ensures c.capacity >= 1 ==> (k, v) in Put(c, k, v).entries
  {
    var grown := c.entries + [(k, v)];
    if !HasKey(c.entries, k) && |grown| > c.capacity {
      forall p | p in grown[1..] ensures p in grown {
        var i :| 0 <= i < |grown[1..]| && grown[1..][i] == p;
        assert grown[i + 1] == p;
      }
      if c.capacity >= 1 {
        assert grown[1..][|grown| - 2] == (k, v);
      }
    }
  }

  /** A `get` only reorders: every entry afterwards was there before. */
  lemma GetEntriesFrom<K(!new), V(!new)>(c: Cache<K, V>, k: K)
    requires Valid(c)
    ensures forall p | p in Get(c, k).1.entries :: p in c.entries
  {
    if Lookup(c.entries, k).Some? {
      var v := Lookup(c.entries, k).value;
      assert (k, v) in c.entries;
    }
  }

  /** `new LRUCache(-1)` is legal while `new LRUCache(-2)` is not; the cache made keeps
      nothing, since every `put` is evicted at once, and reports -1 unused entries. */
  lemma NegativeCapacityKeepsNothing<K(!new), V(!new)>(k: K, v: V)
    ensures New<K, V>(-2) == Threw(IllegalArgument)
    ensures New<K, V>(-1).Returned?
    ensures var c := Put(New<K, V>(-1).value, k, v);
            && c.entries == [] && !ContainsKey(c, k) && Get(c, k).0 == None
            && UnusedEntries(c) == -1
  {
  }

  /** Capacity two: after `put(a)`, `put(b)`, `get(a)`, a `put(c)` evicts `b`, the least
      recently used key, and keeps `a` and `c`. */
  lemma AccessOrderEviction()
    ensures New<string, int>(2).Returned?
    ensures var c0 := Put(Put(New<string, int>(2).value, "a", 1), "b", 2);
            var c1 := Get(c0, "a").1;
            var c2 := Put(c1, "c", 3);
            && Get(c0, "a").0 == Some(1)
            && !ContainsKey(c2, "b")
            && ContainsKey(c2, "a") && ContainsKey(c2, "c")
            && c2.entries == [("a", 1), ("c", 3)]
  {
    var c0 := Put(Put(New<string, int>(2).value, "a", 1), "b", 2);
    assert c0.entries == [("a", 1), ("b", 2)];
    var c1 := Get(c0, "a").1;
    assert c1.entries == [("b", 2), ("a", 1)];
    var c2 := Put(c1, "c", 3);
    assert c2.entries == [("a", 1), ("c", 3)];
    assert c2.entries[0].0 == "a" && c2.entries[1].0 == "c";
  }
}

=== FILE: matcher.dfy ===
/** `ReflectionUtils.MethodMatcher`: the per-class catalog of invocable methods grouped by
    name, and the overload resolution that picks one of them for a list of argument classes. */
module Matcher {
  import opened JavaLang
  import opened Types
  import opened Hierarchy
  import opened Compatibility

  /** A candidate: the parameter types recorded for it and the handle that will be invoked. */
  datatype Member = Member(params: seq<JType>, handle: nat)

  /** Method name to candidates, in the order `getMethods()` listed them. */
  type Catalog = map<string, seq<Member>>

  datatype MatchError = MethodNotFound | Ambiguous

  datatype MatchResult = Found(member: Member) | Failed(error: MatchError)

  // ---------------------------------------------------------------------------------------
  // Argument types

  /** `getParameterTypesFrom(values)`: a `null` array gives no types, a `null` value gives
      `Void.TYPE`, any other value gives its runtime class. A value is represented by its
      runtime class, `None` standing for `null`. */
  function ParameterTypesFrom(values: Option<seq<Option<JType>>>): (r: seq<JType>)
    ensures values.None? ==> r == []
    ensures values.Some? ==> |r| == |values.value|
    ensures values.Some? ==> forall i | 0 <= i < |r| ::
              r[i] == (if values.value[i].None? then VoidType else values.value[i].value)
  {
    match values
    case None => []
    case Some(vs) => seq(|vs|, i requires 0 <= i < |vs| => if vs[i].None? then VoidType else vs[i].value)
  }

  // ---------------------------------------------------------------------------------------
  // Catalog construction

  /** `obtainAvailableMethods()`: every listed method's name gets an entry. A method of a
      public class is recorded as is; for a non-public class the method is replaced by the
      accessible ancestor declaration `getAccessibleMethodFrom` finds, and dropped if there is
      none. The parameter types recorded are those of the listed method. */
  function ObtainAvailableMethods(reg: Registry, cls: JType): Catalog {
    AddMethods(reg, cls, Info(reg, cls).methods, map[])
  }

  function Record(reg: Registry, cls: JType, m: MethodDecl): Option<Member> {
    if Info(reg, cls).isPublic then Some(Member(m.params, m.handle))
    else
      match GetAccessibleMethodFrom(reg, cls, m.name, m.params)
      case None => None
      case Some(found) => Some(Member(m.params, found.handle))
  }

  /** The list a catalog holds for `name`, empty when it has no entry. */
  function Entry(acc: Catalog, name: string): seq<Member> {
    if name in acc then acc[name] else []
  }

  /** What one listed method contributes to the list for `name`. */
  function RecordedHead(reg: Registry, cls: JType, m: MethodDecl, name: string): seq<Member> {
    if m.name == name && Record(reg, cls, m).Some? then [Record(reg, cls, m).value] else []
  }

  /** One step of the loop: the method's name gets an entry, extended by its record. */
  function AddOne(reg: Registry, cls: JType, acc: Catalog, m: MethodDecl): Catalog {
    acc[m.name := Entry(acc, m.name) + RecordedHead(reg, cls, m, m.name)]
  }

  function AddMethods(reg: Registry, cls: JType, ms: seq<MethodDecl>, acc: Catalog): (r: Catalog)
    ensures forall n :: n in r <==> n in acc || exists m | m in ms :: m.name == n
  {
    if ms == [] then acc
    else
      var r := AddMethods(reg, cls, ms[1..], AddOne(reg, cls, acc, ms[0]));
      assert forall x | x in ms[1..] :: x in ms;
      r
  }

  lemma AddOneEntry(reg: Registry, cls: JType, acc: Catalog, m: MethodDecl, name: string)
    ensures Entry(AddOne(reg, cls, acc, m), name) == Entry(acc, name) + RecordedHead(reg, cls, m, name)
  {
  }

  lemma {:induction false} AddMethodsContents(reg: Registry, cls: JType, ms: seq<MethodDecl>, acc: Catalog, name: string)
    ensures Entry(AddMethods(reg, cls, ms, acc), name) == Entry(acc, name) + RecordedNamed(reg, cls, ms, name)
    decreases |ms|
  {
    if ms != [] {
      var acc' := AddOne(reg, cls, acc, ms[0]);
      var head := RecordedHead(reg, cls, ms[0], name);
      var rest := RecordedNamed(reg, cls, ms[1..], name);
      assert AddMethods(reg, cls, ms, acc) == AddMethods(reg, cls, ms[1..], acc');
      assert RecordedNamed(reg, cls, ms, name) == head + rest;
      AddMethodsContents(reg, cls, ms[1..], acc', name);
      AddOneEntry(reg, cls, acc, ms[0], name);
      assert (Entry(acc, name) + head) + rest == Entry(acc, name) + (head + rest);
    }
  }

  /** The members recorded for the methods named `name` in `ms`, in listing order. */
  function RecordedNamed(reg: Registry, cls: JType, ms: seq<MethodDecl>, name: string): seq<Member> {
    if ms == [] then []
    else RecordedHead(reg, cls, ms[0], name) + RecordedNamed(reg, cls, ms[1..], name)
  }

  /** The catalog has an entry for exactly the names `getMethods()` lists, and the entry
      for a name holds the recorded methods of that name in listing order; for a public class
      these are all of them, with their own handles. */
  lemma CatalogContents(reg: Registry, cls: JType, name: string)
    ensures name in ObtainAvailableMethods(reg, cls) <==> exists m | m in Info(reg, cls).methods :: m.name == name
    ensures name in ObtainAvailableMethods(reg, cls) ==>
              ObtainAvailableMethods(reg, cls)[name] == RecordedNamed(reg, cls, Info(reg, cls).methods, name)
    ensures Info(reg, cls).isPublic ==>
              RecordedNamed(reg, cls, Info(reg, cls).methods, name) == PublicNamed(Info(reg, cls).methods, name)
  {
    if name in ObtainAvailableMethods(reg, cls) {
      AddMethodsContents(reg, cls, Info(reg, cls).methods, map[], name);
    }
    if Info(reg, cls).isPublic {
      PublicRecordsAll(reg, cls, Info(reg, cls).methods, name);
    }
  }

  /** Reference list for a public class: every listed method of that name, unchanged. */
  function PublicNamed(ms: seq<MethodDecl>, name: string): seq<Member> {
    if ms == [] then []
    else if ms[0].name == name then [Member(ms[0].params, ms[0].handle)] + PublicNamed(ms[1..], name)
    else PublicNamed(ms[1..], name)
  }

  lemma {:induction false} PublicRecordsAll(reg: Registry, cls: JType, ms: seq<MethodDecl>, name: string)
    requires Info(reg, cls).isPublic
    ensures RecordedNamed(reg, cls, ms, name) == PublicNamed(ms, name)
  {
    if ms != [] {
      PublicRecordsAll(reg, cls, ms[1..], name);
    }
  }

  // ---------------------------------------------------------------------------------------
  // Matching

  /** `memberIsMoreSpecific(first, second)`: the first's parameter types, taken as argument
      classes, are compatible with the second's parameters. */
  predicate MoreSpecific(reg: Registry, first: Member, second: Member) {
    ValuesAreCompatibleWithTypes(reg, first.params, second.params)
  }

  /** The outcome of the scanning loop of `findMemberInList`. */
  datatype Scan = ExactMatch(member: Member) | Compatible(members: seq<Member>)

  /** The loop of `findMemberInList`: return the first candidate whose parameter types
      equal the argument types; otherwise collect the compatible candidates in order. */
  function ScanCandidates(reg: Registry, list: seq<Member>, args: seq<JType>): (r: Scan)
    ensures r.ExactMatch? ==> r.member in list && r.member.params == args
    ensures r.Compatible? ==> forall m | m in list :: m.params != args
    ensures r.Compatible? ==> forall m | m in r.members :: m in list && ValuesAreCompatibleWithTypes(reg, args, m.params)
  {
    if list == [] then Compatible([])
    else if list[0].params == args then ExactMatch(list[0])
    else
      match ScanCandidates(reg, list[1..], args)
      case ExactMatch(m) => ExactMatch(m)
      case Compatible(ms) =>
        assert forall m | m in list[1..] :: m in list;
        Compatible(if ValuesAreCompatibleWithTypes(reg, args, list[0].params) then [list[0]] + ms else ms)
  }

  /** The compatible candidates of `list`, in order (reference definition). */
  function CompatibleIn(reg: Registry, list: seq<Member>, args: seq<JType>): seq<Member> {
    if list == [] then []
    else if ValuesAreCompatibleWithTypes(reg, args, list[0].params) then [list[0]] + CompatibleIn(reg, list[1..], args)
    else CompatibleIn(reg, list[1..], args)
  }

  /** The index of the first candidate whose parameter types equal the arguments. */
  function FirstExactIndex(list: seq<Member>, args: seq<JType>): (i: nat)
    ensures i <= |list|
    ensures forall j | 0 <= j < i :: list[j].params != args
    ensures i < |list| ==> list[i].params == args
  {
    if list == [] then 0
    else if list[0].params == args then 0
    else 1 + FirstExactIndex(list[1..], args)
  }

  /** The scan returns the first exact match when there is one, wherever it stands and
      whatever compatible candidates come before it; otherwise it returns all compatible
      candidates in their original order. */
  lemma {:induction false} ScanCandidatesCorrect(reg: Registry, list: seq<Member>, args: seq<JType>)
    ensures var i := FirstExactIndex(list, args);
            i < |list| ==> ScanCandidates(reg, list, args) == ExactMatch(list[i])
    ensures FirstExactIndex(list, args) == |list| ==>
              ScanCandidates(reg, list, args) == Compatible(CompatibleIn(reg, list, args))
  {
    if list != [] && list[0].params != args {
      ScanCandidatesCorrect(reg, list[1..], args);
    }
  }

  /** `findMostSpecificMemberIn`: build a most-specific set incrementally and fail as
      ambiguous when more than one member is left. */
  function FindMostSpecificMemberIn(reg: Registry, members: seq<Member>): (r: MatchResult)
    requires |members| > 0
    ensures r.Found? ==> r.member in members
    ensures r.Failed? ==> r.error == Ambiguous
  {
    var final := MostSpecificSet(reg, [], members);
    ReduceWithin(reg, [], members);
    if |final| > 1 then Failed(Ambiguous) else Found(final[0])
  }

  /** The set after folding `Step` over `members`, starting from `current`. */
  function MostSpecificSet(reg: Registry, current: seq<Member>, members: seq<Member>): seq<Member>
    decreases |members|
  {
    if members == [] then current
    else MostSpecificSet(reg, Step(reg, current, members[0]), members[1..])
  }

  /** One iteration of the outer loop. The inner loop stops at the first set member that
      `member` is not more specific than and tests `lessSpecific` against that one only. */
  function Step(reg: Registry, current: seq<Member>, member: Member): seq<Member> {
    if current == [] then [member]
    else
      match FirstNotDominated(reg, member, current)
      case None => [member]
      case Some(blocker) => if MoreSpecific(reg, blocker, member) then current else current + [member]
  }

  /** The first member of `current` that `member` is not more specific than. */
  function FirstNotDominated(reg: Registry, member: Member, current: seq<Member>): (r: Option<Member>)
    ensures r.None? <==> forall s | s in current :: MoreSpecific(reg, member, s)
    ensures r.Some? ==> r.value in current && !MoreSpecific(reg, member, r.value)
    ensures r.Some? && current != [] && !MoreSpecific(reg, member, current[0]) ==> r.value == current[0]
    ensures r.Some? ==> exists i | 0 <= i < |current| ::
              && r.value == current[i]
              && forall j | 0 <= j < i :: MoreSpecific(reg, member, current[j])
  {
    if current == [] then None
    else if !MoreSpecific(reg, member, current[0]) then Some(current[0])
    else
      var r := FirstNotDominated(reg, member, current[1..]);
      assert forall s | s in current[1..] :: s in current;
      assert forall s | s in current :: s == current[0] || s in current[1..];
      assert r.Some? ==> exists i | 0 <= i < |current| ::
               && r.value == current[i]
               && forall j | 0 <= j < i :: MoreSpecific(reg, member, current[j]) by {
        if r.Some? {
          var tail := current[1..];
          var k :| 0 <= k < |tail| && r.value == tail[k] && forall j | 0 <= j < k :: MoreSpecific(reg, member, tail[j]);
          assert current[k + 1] == tail[k];
          forall j | 0 <= j < k + 1 ensures MoreSpecific(reg, member, current[j]) {
            if j > 0 {
              assert current[j] == tail[j - 1];
            }
          }
        }
      }
      r
  }

  /** The set stays within what it started with plus the members folded in, and is
      non-empty as soon as anything has been folded in. */
  lemma {:induction false} ReduceWithin(reg: Registry, current: seq<Member>, members: seq<Member>)
    ensures forall s | s in MostSpecificSet(reg, current, members) :: s in current || s in members
    ensures |current| > 0 || |members| > 0 ==> |MostSpecificSet(reg, current, members)| > 0
    decreases |members|
  {
    if members != [] {
      var next := Step(reg, current, members[0]);
      assert forall s | s in next :: s in current || s == members[0];
      ReduceWithin(reg, next, members[1..]);
      assert forall s | s in members[1..] :: s in members;
    }
  }

  /** `findMemberInList`: an exact match is returned at once; otherwise no compatible
      candidate is an error, one is returned as is, and several go to the specificity
      reduction. */
  function FindMemberInList(reg: Registry, list: seq<Member>, args: seq<JType>): (r: MatchResult)
    ensures r.Found? ==> r.member in list
  {
    match ScanCandidates(reg, list, args)
    case ExactMatch(m) => Found(m)
    case Compatible(ms) =>
      if |ms| == 0 then Failed(MethodNotFound)
      else if |ms| == 1 then Found(ms[0])
      else FindMostSpecificMemberIn(reg, ms)
  }

  /** `findBestMethodMatch`: a name without an entry is `NoSuchMethodException`. */
  function FindBestMethodMatch(reg: Registry, catalog: Catalog, name: string, args: seq<JType>): (r: MatchResult)
    ensures name !in catalog ==> r == Failed(MethodNotFound)
    ensures r.Found? ==> name in catalog && r.member in catalog[name]
  {
    if name !in catalog then Failed(MethodNotFound)
    else FindMemberInList(reg, catalog[name], args)
  }

  // ---------------------------------------------------------------------------------------
  // Properties of the matcher

  /** The outcome of resolution in terms of the candidate list: an exact match wins;
      otherwise a result is a compatible candidate, "not found" means none is compatible,
      and a single compatible candidate is the result. */
  lemma FindMemberInListOutcome(reg: Registry, list: seq<Member>, args: seq<JType>)
    ensures var r := FindMemberInList(reg, list, args);
            var i := FirstExactIndex(list, args);
            && (i < |list| ==> r == Found(list[i]))
            && (i == |list| && r.Found? ==> ValuesAreCompatibleWithTypes(reg, args, r.member.params))
            && (i == |list| ==> (r == Failed(MethodNotFound) <==> CompatibleIn(reg, list, args) == []))
            && (i == |list| && |CompatibleIn(reg, list, args)| == 1 ==> r == Found(CompatibleIn(reg, list, args)[0]))
  {
    ScanCandidatesCorrect(reg, list, args);
  }

  /** A member that is more specific than every other candidate, none of which is more
      specific than it, is the result whatever the order of the candidates. */
  lemma {:induction false} DominantMemberWins(reg: Registry, members: seq<Member>, k: nat)
    requires k < |members|
    requires forall j | 0 <= j < |members| && j != k ::
               MoreSpecific(reg, members[k], members[j]) && !MoreSpecific(reg, members[j], members[k])
    ensures FindMostSpecificMemberIn(reg, members) == Found(members[k])
  {
    ReduceBeforeDominant(reg, [], members, k);
  }

  lemma {:induction false} ReduceBeforeDominant(reg: Registry, current: seq<Member>, members: seq<Member>, k: nat)
    requires k < |members|
    requires forall j | 0 <= j < |members| && j != k ::
               MoreSpecific(reg, members[k], members[j]) && !MoreSpecific(reg, members[j], members[k])
    requires forall s | s in current :: MoreSpecific(reg, members[k], s)
    ensures MostSpecificSet(reg, current, members) == [members[k]]
    decreases |members|
  {
    var x := members[k];
    var next := Step(reg, current, members[0]);
    if k == 0 {
      assert next == [x];
      ReduceAfterDominant(reg, x, members[1..]);
    } else {
      var y := members[0];
      assert MoreSpecific(reg, x, y);
      assert forall s | s in next :: s in current || s == y;
      assert forall j | 0 <= j < |members[1..]| :: members[1..][j] == members[j + 1];
      ReduceBeforeDominant(reg, next, members[1..], k - 1);
    }
  }

  lemma {:induction false} ReduceAfterDominant(reg: Registry, x: Member, rest: seq<Member>)
    requires forall j | 0 <= j < |rest| :: MoreSpecific(reg, x, rest[j]) && !MoreSpecific(reg, rest[j], x)
    ensures MostSpecificSet(reg, [x], rest) == [x]
    decreases |rest|
  {
    if rest != [] {
      assert FirstNotDominated(reg, rest[0], [x]) == Some(x);
      assert Step(reg, [x], rest[0]) == [x];
      assert forall j | 0 <= j < |rest[1..]| :: rest[1..][j] == rest[j + 1];
      ReduceAfterDominant(reg, x, rest[1..]);
    }
  }

  /** Candidates none of which is more specific than another all stay in the set, so two
      or more of them are reported as ambiguous. */
  lemma {:induction false} IncomparableMembersAreAmbiguous(reg: Registry, members: seq<Member>)
    requires |members| >= 2
    requires forall i, j | 0 <= i < |members| && 0 <= j < |members| && i != j :: !MoreSpecific(reg, members[i], members[j])
    ensures FindMostSpecificMemberIn(reg, members) == Failed(Ambiguous)
  {
    IncomparableGrow(reg, members, 0);
    assert members[..0] == [] && members[0..] == members;
  }

  lemma {:induction false} IncomparableGrow(reg: Registry, members: seq<Member>, k: nat)
    requires k <= |members|
    requires forall i, j | 0 <= i < |members| && 0 <= j < |members| && i != j :: !MoreSpecific(reg, members[i], members[j])
    ensures MostSpecificSet(reg, members[..k], members[k..]) == members
    decreases |members| - k
  {
    if k == |members| {
      assert members[..k] == members;
    } else {
      var prefix := members[..k];
      var y := members[k];
      if k > 0 {
        assert prefix[0] == members[0];
        assert !MoreSpecific(reg, y, prefix[0]) && !MoreSpecific(reg, prefix[0], y);
      }
      StepAppendsIncomparable(reg, prefix, y);
      assert prefix + [y] == members[..k + 1];
      assert members[k..][1..] == members[k + 1..];
      IncomparableGrow(reg, members, k + 1);
    }
  }

  /** A member incomparable with the head of the set is appended to it. */
  lemma StepAppendsIncomparable(reg: Registry, current: seq<Member>, y: Member)
    requires current != [] ==> !MoreSpecific(reg, y, current[0]) && !MoreSpecific(reg, current[0], y)
    ensures Step(reg, current, y) == current + [y]
  {
    if current != [] {
      assert FirstNotDominated(reg, y, current) == Some(current[0]);
    }
  }
}

=== FILE: reflection_object.dfy ===
/** `ReflectionObject`: a proxy holding an object of a class named at run time and the
    class itself. It is built by wrapping an existing object or by constructing one
    reflectively, compares and hashes by the pair, and forwards typed method calls through
    the non-throwing invocation of `ReflectionUtils`. */
module ReflectionObject {
  import opened JavaLang
  import opened Types
  import opened Hierarchy
  import opened Compatibility
  import opened Matcher
  import ArrayUtils
  import Resolver

  /** A wrapped object: its identity and its runtime class. */
  datatype Obj = Obj(id: nat, cls: JType)

  /** The two fields of a proxy: `mObject` and `mClass`, either possibly `null`. */
  datatype Proxy = Proxy(obj: Option<Obj>, cls: Option<JType>)

  /** A proxy instance: `ref` is its identity, so `this == o` compares `ref`s. */
  datatype ProxyRef = ProxyRef(ref: nat, proxy: Proxy)

  /** What `equals` may be handed: a proxy, `null`, or any other object. */
  datatype Other = OtherProxy(p: ProxyRef) | OtherNull | OtherObject(o: Obj)

  /** `getClassType()`: `Class.forName(className())`. A `null` name makes `forName` throw
      `NullPointerException`, which is not caught; an unknown name is caught and gives `null`.
      `forName` stands for the class loader. */
  function GetClassType(className: Option<string>, forName: string -> Option<JType>): (r: Outcome<Option<JType>>)
    ensures className.None? <==> r == Threw(NullPointer)
    ensures className.Some? ==> r == Returned(forName(className.value))
  {
    if className.None? then Threw(NullPointer) else Returned(forName(className.value))
  }

  /** `Class.isInstance(object)`: a non-`null` object whose class the class is assignable
      from; never true of a primitive class. */
  predicate IsInstance(reg: Registry, cls: JType, obj: Option<Obj>)
    ensures IsInstance(reg, cls, obj) ==> obj.Some? && !IsPrimitiveClass(cls)
    ensures obj.Some? && !IsPrimitiveClass(cls) && obj.value.cls == cls ==> IsInstance(reg, cls, obj)
    ensures cls == ObjectClass ==> (IsInstance(reg, cls, obj) <==> obj.Some? && !IsPrimitiveClass(obj.value.cls))
  {
    obj.Some? && !IsPrimitiveClass(cls) && IsAssignableFrom(reg, cls, obj.value.cls)
  }

  /** `ReflectionObject(Object object)`: the declared class must be found and the object
      must be an instance of it, subclasses included. */
  function WrapExisting(reg: Registry, classType: Outcome<Option<JType>>, obj: Option<Obj>): (r: Outcome<Proxy>)
    ensures classType.Threw? ==> r == Threw(classType.error)
    ensures classType == Returned(None) ==> r == Threw(NullPointer)
    ensures classType.Returned? && classType.value.Some? ==>
              (r.Returned? <==> IsInstance(reg, classType.value.value, obj))
    ensures classType.Returned? && classType.value.Some? && r.Threw? ==> r.error == IllegalArgument
    ensures r.Returned? ==> r.value == Proxy(obj, classType.value) && r.value.obj.Some? && r.value.cls.Some?
  {
    match classType
    case Threw(e) => Threw(e)
    case Returned(None) => Threw(NullPointer)
    case Returned(Some(c)) => if IsInstance(reg, c, obj) then Returned(Proxy(obj, Some(c))) else Threw(IllegalArgument)
  }

  /** Wrapping accepts an object of the declared class or of any subclass of it, and refuses
      `null` and objects of unrelated classes. */
  lemma WrapAcceptsSubclasses(reg: Registry, c: JType, obj: Obj)
    requires obj.cls.Reference? && c.Reference?
    ensures WrapExisting(reg, Returned(Some(c)), Some(obj)).Returned?
            <==> obj.cls == c || IsAncestor(reg, obj.cls, c)
    ensures WrapExisting(reg, Returned(Some(c)), None) == Threw(IllegalArgument)
  {
  }

  /** Wrapping with the declared class `Object` accepts every object, and an array class
      accepts an array whose component is a subclass of its own: a `String[]` may be wrapped
      as an `Object[]`. */
  lemma WrapAcceptsObjectAndCovariantArrays(reg: Registry, obj: Obj, c: JType, e: JType)
    requires obj.cls.Reference? || obj.cls.ArrayOf? || obj.cls.Boxed?
    requires c.Reference? && e.Reference?
    ensures WrapExisting(reg, Returned(Some(ObjectClass)), Some(obj)) == Returned(Proxy(Some(obj), Some(ObjectClass)))
    ensures obj.cls == ArrayOf(e) && (e == c || IsAncestor(reg, e, c)) ==>
              WrapExisting(reg, Returned(Some(ArrayOf(c))), Some(obj)).Returned?
    ensures obj.cls == ArrayOf(e) ==> WrapExisting(reg, Returned(Some(ArrayOf(ObjectClass))), Some(obj)).Returned?
  {
    if obj.cls == ArrayOf(e) && (e == c || IsAncestor(reg, e, c)) {
      assert IsAssignableFrom(reg, c, e);
    }
  }

  /** `newInstance(cls, types, args)`: any exception from `instantiateClass`, including the
      one a `null` class raises, is swallowed and gives `null`. */
  function NewInstanceWithTypes(cls: Option<JType>, constructorsOf: JType -> seq<Member>, types: seq<JType>,
                                construct: Member -> Outcome<Obj>): (r: Option<Obj>)
    ensures cls.None? ==> r.None?
    ensures cls.Some? ==>
              var made := Resolver.InstantiateClassWithTypes(constructorsOf(cls.value), types, construct);
              (r.Some? <==> made.Returned?) && (r.Some? ==> r.value == made.value)
  {
    if cls.None? then None
    else
      match Resolver.InstantiateClassWithTypes(constructorsOf(cls.value), types, construct)
      case Threw(_) => None
      case Returned(o) => Some(o)
  }

  /** `newInstance(cls, args)`: the argument classes give the types. */
  function NewInstance(cls: Option<JType>, constructorsOf: JType -> seq<Member>, args: Option<seq<Option<JType>>>,
                       construct: Member -> Outcome<Obj>): (r: Option<Obj>)
    requires args.Some? ==> ArrayUtils.IsArray(args.value)
    ensures cls.None? ==> r.None?
    ensures args.None? || |args.value| == 0 ==> r == NewInstanceWithTypes(cls, constructorsOf, [], construct)
  {
    NewInstanceWithTypes(cls, constructorsOf, ParameterTypesFrom(args), construct)
  }

  /** `newInstance` never throws: it gives `null` exactly when no constructor matches the
      argument classes exactly or the one that matches fails; a `null` argument, which has no
      constructor taking `void` to match, always gives `null`. */
  lemma NewInstanceNullOnFailure(cls: JType, constructorsOf: JType -> seq<Member>, args: seq<Option<JType>>,
                                 construct: Member -> Outcome<Obj>)
    requires ArrayUtils.IsArray(args)
    requires forall i | 0 <= i < |constructorsOf(cls)| :: VoidType !in constructorsOf(cls)[i].params
    ensures (forall i | 0 <= i < |constructorsOf(cls)| :: constructorsOf(cls)[i].params != ParameterTypesFrom(Some(args)))
            ==> NewInstance(Some(cls), constructorsOf, Some(args), construct).None?
    ensures None in args ==> NewInstance(Some(cls), constructorsOf, Some(args), construct).None?
  {
    Resolver.InstantiateClassIsExact(constructorsOf(cls), args, construct);
  }

  /** The constructing forms `ReflectionObject()`, `ReflectionObject(args)` and
      `ReflectionObject(types, args)`: the class is looked up, then an instance is made,
      `null` on any failure; only a `null` class name throws. */
  function Construct(classType: Outcome<Option<JType>>, constructorsOf: JType -> seq<Member>, types: seq<JType>,
                     construct: Member -> Outcome<Obj>): (r: Outcome<Proxy>)
    ensures classType.Threw? <==> r.Threw?
    ensures r.Returned? ==> r.value.cls == classType.value
    ensures r.Returned? && r.value.obj.Some? ==> classType.value.Some?
    ensures r.Returned? ==> r.value.obj == NewInstanceWithTypes(classType.value, constructorsOf, types, construct)
  {
    match classType
    case Threw(e) => Threw(e)
    case Returned(c) => Returned(Proxy(NewInstanceWithTypes(c, constructorsOf, types, construct), c))
  }

  // ---------------------------------------------------------------------------------------
  // Equality and hashing

  /** `equals(o)`: the same instance is equal; anything that is not a proxy is not; two
      proxies are equal when their objects are (both `null`, or `mObject.equals`) and their
      classes are the same class (or both `null`). `objEquals` stands for the wrapped
      objects' own `equals`. */
  function Equals(self: ProxyRef, o: Other, objEquals: (Obj, Option<Obj>) -> bool): (r: bool)
    ensures o == OtherProxy(self) ==> r
    ensures !o.OtherProxy? ==> !r
    ensures o.OtherProxy? && o.p.ref != self.ref ==>
              (r <==> ObjectsEqual(self.proxy.obj, o.p.proxy.obj, objEquals) && self.proxy.cls == o.p.proxy.cls)
  {
    match o
    case OtherNull => false
    case OtherObject(_) => false
    case OtherProxy(that) =>
      if that.ref == self.ref then true
      else ObjectsEqual(self.proxy.obj, that.proxy.obj, objEquals) && self.proxy.cls == that.proxy.cls
  }

  /** `mObject != null ? mObject.equals(that.mObject) : that.mObject == null`. */
  predicate ObjectsEqual(a: Option<Obj>, b: Option<Obj>, objEquals: (Obj, Option<Obj>) -> bool) {
    if a.None? then b.None? else objEquals(a.value, b)
  }

  /** Proxies of different declared classes are never equal, whatever they wrap. */
  lemma DifferentClassesNeverEqual(self: ProxyRef, that: ProxyRef, objEquals: (Obj, Option<Obj>) -> bool)
    requires self.ref != that.ref && self.proxy.cls != that.proxy.cls
    ensures !Equals(self, OtherProxy(that), objEquals)
  {
  }

  /** When the wrapped objects' `equals` is symmetric (and false against `null`), so is the
      proxies'. */
  lemma EqualsSymmetric(a: ProxyRef, b: ProxyRef, objEquals: (Obj, Option<Obj>) -> bool)
    requires forall x: Obj, y: Obj :: objEquals(x, Some(y)) == objEquals(y, Some(x))
    requires forall x: Obj :: !objEquals(x, None)
    ensures Equals(a, OtherProxy(b), objEquals) == Equals(b, OtherProxy(a), objEquals)
  {
  }

  /** `hashCode()`: `31 * hash(mObject) + hash(mClass)` in `int` arithmetic, `null` hashing
      to 0. `objHash` and `classHash` stand for the fields' own `hashCode`. */
  function HashCode(p: Proxy, objHash: Obj -> int, classHash: JType -> int): (h: int)
    requires forall o :: IsInt(objHash(o))
    requires forall c :: IsInt(classHash(c))
    ensures IsInt(h)
    ensures (h - (31 * NullableHash(p.obj, objHash) + NullableHash(p.cls, classHash))) % TWO_32 == 0
  {
    var objectHash := if p.obj.None? then 0 else objHash(p.obj.value);
    var classPart := if p.cls.None? then 0 else classHash(p.cls.value);
    var h := AddInt(Wrap32(31 * objectHash), classPart);
    WrapSumCongruent(31 * objectHash, classPart);
    h
  }

  function NullableHash<T>(x: Option<T>, hash: T -> int): int {
    if x.None? then 0 else hash(x.value)
  }

  /** Wrapping a summand first does not change the wrapped sum. */
  lemma WrapSumCongruent(a: int, b: int)
    requires IsInt(b)
    ensures (AddInt(Wrap32(a), b) - (a + b)) % TWO_32 == 0
  {
    var w := Wrap32(a);
    var q := (w - a) / TWO_32;
    assert w - a == q * TWO_32;
    var s := AddInt(w, b);
    var q2 := (s - (w + b)) / TWO_32;
    assert s - (w + b) == q2 * TWO_32;
    assert s - (a + b) == (q + q2) * TWO_32;
  }

  /** Equal proxies have equal hash codes, provided the wrapped objects' hashing agrees with
      their `equals`. */
  lemma EqualProxiesHashEqual(a: ProxyRef, b: ProxyRef, objEquals: (Obj, Option<Obj>) -> bool,
                              objHash: Obj -> int, classHash: JType -> int)
    requires forall o :: IsInt(objHash(o))
    requires forall c :: IsInt(classHash(c))
    requires forall x: Obj, y: Obj :: objEquals(x, Some(y)) ==> objHash(x) == objHash(y)
    requires forall x: Obj :: !objEquals(x, None)
    requires a.ref == b.ref ==> a.proxy == b.proxy
    requires Equals(a, OtherProxy(b), objEquals)
    ensures HashCode(a.proxy, objHash, classHash) == HashCode(b.proxy, objHash, classHash)
  {
  }

  // ---------------------------------------------------------------------------------------
  // Typed invocation

  /** A value a reflective call can return, as the typed accessors cast it. */
  datatype JValue = JNull | JString(s: string) | JBoolean(b: bool) | JInteger(i: int) | JLong(l: int)
                  | JInetAddress(address: nat) | JObject(o: Obj)

  type State = Option<Resolver.MethodCache>

  /** `invokeObjectMethod(name, args)`: `invokeMethodWithoutThrowing` on the wrapped object,
      so any failure (a `null` object included) reads as `null`. */
  function InvokeObjectMethod(reg: Registry, render: JType -> string, state: State, p: Proxy,
                              name: string, args: Option<seq<Option<JType>>>,
                              invoke: Member -> Outcome<JValue>): (r: (JValue, State))
    requires Resolver.CacheStateValid(state)
    requires args.Some? ==> ArrayUtils.IsArray(args.value)
    ensures Resolver.CacheStateValid(r.1)
    ensures p.obj.None? ==> r == (JNull, state)
    ensures p.obj.Some? ==>
              var called := Resolver.InvokeMethod(reg, render, state, Some(p.obj.value.cls), name, args, invoke);
              && r.1 == called.1
              && r.0 == (if called.0.Threw? then JNull else called.0.value)
  {
    var receiver := if p.obj.None? then None else Some(p.obj.value.cls);
    var called := Resolver.WithoutThrowing(Resolver.InvokeMethod(reg, render, state, receiver, name, args, invoke));
    (if called.0.None? then JNull else called.0.value, called.1)
  }

  /** `(String)` of the call's result: `null` stays `null`; any other non-string fails the cast. */
  function CastString(v: JValue): (r: Outcome<Option<string>>)
    ensures r.Threw? <==> !(v.JNull? || v.JString?)
    ensures r.Threw? ==> r.error == ClassCast
    ensures v.JNull? ==> r == Returned(None)
    ensures v.JString? ==> r == Returned(Some(v.s))
  {
    match v
    case JNull => Returned(None)
    case JString(s) => Returned(Some(s))
    case _ => Threw(ClassCast)
  }

  /** `(InetAddress)` of the call's result. */
  function CastInetAddress(v: JValue): (r: Outcome<Option<nat>>)
    ensures r.Threw? <==> !(v.JNull? || v.JInetAddress?)
    ensures r.Threw? ==> r.error == ClassCast
    ensures v.JNull? ==> r == Returned(None)
    ensures v.JInetAddress? ==> r == Returned(Some(v.address))
  {
    match v
    case JNull => Returned(None)
    case JInetAddress(a) => Returned(Some(a))
    case _ => Threw(ClassCast)
  }

  /** `(Boolean)` then unboxing: `null` cannot be unboxed. */
  function UnboxBoolean(v: JValue): (r: Outcome<bool>)
    ensures v.JNull? <==> r == Threw(NullPointer)
    ensures r.Threw? <==> !v.JBoolean?
    ensures r.Returned? ==> r.value == v.b
  {
    match v
    case JNull => Threw(NullPointer)
    case JBoolean(b) => Returned(b)
    case _ => Threw(ClassCast)
  }

  /** `(Integer)` then unboxing. */
  function UnboxInteger(v: JValue): (r: Outcome<int>)
    ensures v.JNull? <==> r == Threw(NullPointer)
    ensures r.Threw? <==> !v.JInteger?
    ensures r.Returned? ==> r.value == v.i
  {
    match v
    case JNull => Threw(NullPointer)
    case JInteger(i) => Returned(i)
    case _ => Threw(ClassCast)
  }

  /** `(Long)` then unboxing. */
  function UnboxLong(v: JValue): (r: Outcome<int>)
    ensures v.JNull? <==> r == Threw(NullPointer)
    ensures r.Threw? <==> !v.JLong?
    ensures r.Returned? ==> r.value == v.l
  {
    match v
    case JNull => Threw(NullPointer)
    case JLong(l) => Returned(l)
    case _ => Threw(ClassCast)
  }

  /** `invokeStringMethod`, `invokeInetAddressMethod`, `invokeBooleanMethod`,
      `invokeIntMethod`, `invokeLongMethod` and `invokeVoidMethod`: the non-throwing call,
      then the cast (and unboxing) each applies to its result. */
  datatype Accessor = StringMethod | InetAddressMethod | BooleanMethod | IntMethod | LongMethod | VoidMethod

  /** What each accessor makes of the value the call produced. */
  function Convert(kind: Accessor, v: JValue): (r: Outcome<JValue>)
    ensures kind == VoidMethod ==> r.Returned?
    ensures kind in {StringMethod, InetAddressMethod} && v.JNull? ==> r == Returned(JNull)
    ensures kind in {BooleanMethod, IntMethod, LongMethod} && v.JNull? ==> r == Threw(NullPointer)
  {
    match kind
    case StringMethod => (match CastString(v) case Threw(e) => Threw(e) case Returned(_) => Returned(v))
    case InetAddressMethod => (match CastInetAddress(v) case Threw(e) => Threw(e) case Returned(_) => Returned(v))
    case BooleanMethod => (match UnboxBoolean(v) case Threw(e) => Threw(e) case Returned(b) => Returned(JBoolean(b)))
    case IntMethod => (match UnboxInteger(v) case Threw(e) => Threw(e) case Returned(i) => Returned(JInteger(i)))
    case LongMethod => (match UnboxLong(v) case Threw(e) => Threw(e) case Returned(l) => Returned(JLong(l)))
    case VoidMethod => Returned(JNull)
  }

  function InvokeTyped(kind: Accessor, reg: Registry, render: JType -> string, state: State, p: Proxy,
                       name: string, args: Option<seq<Option<JType>>>,
                       invoke: Member -> Outcome<JValue>): (r: (Outcome<JValue>, State))
    requires Resolver.CacheStateValid(state)
    requires args.Some? ==> ArrayUtils.IsArray(args.value)
    ensures Resolver.CacheStateValid(r.1)
    ensures p.obj.None? ==> r.1 == state && r.0 == Convert(kind, JNull)
    ensures p.obj.Some? ==>
              var found := Resolver.GeMethodThatBestMatches(reg, render, state, Some(p.obj.value.cls), name,
                                                             ParameterTypesFrom(args));
              && r.1 == Some(found.cache)
              && (found.result.Threw? ==> r.0 == Convert(kind, JNull))
              && (found.result.Returned? ==>
                    r.0 == Convert(kind, match invoke(found.result.value) case Threw(_) => JNull case Returned(v) => v))
  {
    var called := InvokeObjectMethod(reg, render, state, p, name, args, invoke);
    (Convert(kind, called.0), called.1)
  }

  /** The call fails when the proxy wraps `null`, when the lookup throws, or when the found
      method throws. Then the string, address and void accessors give `null`, while the `int`,
      `boolean` and `long` accessors throw `NullPointerException` from unboxing. */
  predicate CallFails(reg: Registry, render: JType -> string, state: State, p: Proxy, name: string,
                      args: Option<seq<Option<JType>>>, invoke: Member -> Outcome<JValue>)
    requires Resolver.CacheStateValid(state)
    requires args.Some? ==> ArrayUtils.IsArray(args.value)
  {
    || p.obj.None?
    || var found := Resolver.GeMethodThatBestMatches(reg, render, state, Some(p.obj.value.cls), name,
                                                      ParameterTypesFrom(args));
       found.result.Threw? || invoke(found.result.value).Threw?
  }

  lemma FailedCallPerAccessor(kind: Accessor, reg: Registry, render: JType -> string, state: State,
                              p: Proxy, name: string, args: Option<seq<Option<JType>>>,
                              invoke: Member -> Outcome<JValue>)
    requires Resolver.CacheStateValid(state)
    requires args.Some? ==> ArrayUtils.IsArray(args.value)
    requires CallFails(reg, render, state, p, name, args, invoke)
    ensures var r := InvokeTyped(kind, reg, render, state, p, name, args, invoke);
            && (p.obj.None? ==> r.1 == state)
            && (kind in {StringMethod, InetAddressMethod, VoidMethod} ==> r.0 == Returned(JNull))
            && (kind in {BooleanMethod, IntMethod, LongMethod} ==> r.0 == Threw(NullPointer))
  {
  }

  /** A successful call returning a value of the accessor's own type passes it through. */
  lemma MatchingValuePassesThrough(kind: Accessor, v: JValue)
    requires kind == StringMethod ==> v.JString?
    requires kind == InetAddressMethod ==> v.JInetAddress?
    requires kind == BooleanMethod ==> v.JBoolean?
    requires kind == IntMethod ==> v.JInteger?
    requires kind == LongMethod ==> v.JLong?
    ensures kind != VoidMethod ==> Convert(kind, v) == Returned(v)
    ensures kind == VoidMethod ==> Convert(kind, v) == Returned(JNull)
  {
  }

  /** `toString()`: `invokeStringMethod("toString")`. */
  function ToString(reg: Registry, render: JType -> string, state: State, p: Proxy,
                    invoke: Member -> Outcome<JValue>): (r: (Outcome<JValue>, State))
    requires Resolver.CacheStateValid(state)
    ensures Resolver.CacheStateValid(r.1)
    ensures p.obj.None? ==> r == (Returned(JNull), state)
    ensures p.obj.Some? ==>
              var found := Resolver.GeMethodThatBestMatches(reg, render, state, Some(p.obj.value.cls), "toString", []);
              && r.1 == Some(found.cache)
              && (found.result.Threw? ==> r.0 == Returned(JNull))
              && (found.result.Returned? && invoke(found.result.value).Threw? ==> r.0 == Returned(JNull))
              && (found.result.Returned? && invoke(found.result.value).Returned? ==>
                    var v := invoke(found.result.value).value;
                    && (v.JNull? || v.JString? ==> r.0 == Returned(v))
                    && (!(v.JNull? || v.JString?) ==> r.0 == Threw(ClassCast)))
  {
    assert ParameterTypesFrom(Some([])) == [];
    InvokeTyped(StringMethod, reg, render, state, p, "toString", Some([]), invoke)
  }
}

=== FILE: resolver.dfy ===
/** The entry points of `ReflectionUtils` around the matcher: `geMethodThatBestMatches`
    with its process-wide cache of resolved methods, the `invoke*Method` family that feeds
    it argument classes, and `instantiateClass`, which looks constructors up exactly. */
module Resolver {
  import opened JavaLang
  import opened Types
  import opened Hierarchy
  import opened Matcher
  import LruCache
  import ArrayUtils

  /** The resolved-method cache holds this many entries. */
  const METHOD_CACHE_CAPACITY: nat := 100

  type MethodCache = LruCache.Cache<string, Member>

  /** The cache state: `None` until the first lookup creates it. */
  predicate CacheStateValid(state: Option<MethodCache>) {
    state.Some? ==> LruCache.Valid(state.value) && state.value.capacity == METHOD_CACHE_CAPACITY
  }

  /** `"" + cls`: the class's `toString()` under the rendering given, `"null"` for `null`. */
  function ClassText(render: JType -> string, cls: Option<JType>): string {
    if cls.None? then "null" else render(cls.value)
  }

  /** `ArrayUtils.toString(types, ",")`: the argument classes, comma separated. */
  function TypeListText(render: JType -> string, types: seq<JType>): string
    requires ArrayUtils.IsArray(types)
  {
    ArrayUtils.ToStringDelimited(Some(seq(|types|, i requires 0 <= i < |types| => Some(render(types[i])))), Some(","))
  }

  /** The cache key `cls + ">" + name + ":" + ArrayUtils.toString(types, ",")`. */
  function CacheKey(render: JType -> string, cls: Option<JType>, name: string, types: seq<JType>): string
    requires ArrayUtils.IsArray(types)
  {
    ClassText(render, cls) + ">" + name + ":" + TypeListText(render, types)
  }

  /** The outcome of one lookup: the method or the exception, the cache afterwards, and
      whether a `MethodMatcher` was constructed for it. */
  datatype Lookup = Lookup(result: Outcome<Member>, cache: MethodCache, built: bool)

  /** `geMethodThatBestMatches(cls, name, types)`: create the cache on first use, look the
      key up; on a hit return the cached method; on a miss build a matcher for the class
      (a `null` class fails there), resolve, and store a found method under the key. Both
      ways of failing to resolve are `NoSuchMethodException`. */
  function GeMethodThatBestMatches(reg: Registry, render: JType -> string, state: Option<MethodCache>,
                                   cls: Option<JType>, name: string, types: seq<JType>): (r: Lookup)
    requires CacheStateValid(state)
    requires ArrayUtils.IsArray(types)
    ensures CacheStateValid(Some(r.cache))
    ensures r.built <==> !LruCache.ContainsKey(CacheOf(state), CacheKey(render, cls, name, types))
    ensures !r.built ==> r.result == Returned(LruCache.Lookup(CacheOf(state).entries, CacheKey(render, cls, name, types)).value)
    ensures r.built && cls.None? ==> r.result == Threw(NullPointer) && r.cache == CacheOf(state)
    ensures r.built && cls.Some? ==>
              var found := FindBestMethodMatch(reg, ObtainAvailableMethods(reg, cls.value), name, types);
              && (found.Found? ==> r.result == Returned(found.member)
                                   && r.cache == LruCache.Put(CacheOf(state), CacheKey(render, cls, name, types), found.member))
              && (found.Failed? ==> r.result == Threw(NoSuchMethod) && r.cache == CacheOf(state))
  {
    var key := CacheKey(render, cls, name, types);
    var cache := CacheOf(state);
    LruCache.GetPromotes(cache, key);
    var got := LruCache.Get(cache, key);
    if got.0.Some? then Lookup(Returned(got.0.value), got.1, false)
    else if cls.None? then Lookup(Threw(NullPointer), got.1, true)
    else
      match FindBestMethodMatch(reg, ObtainAvailableMethods(reg, cls.value), name, types)
      case Found(m) => Lookup(Returned(m), LruCache.Put(got.1, key, m), true)
      case Failed(_) => Lookup(Threw(NoSuchMethod), got.1, true)
  }

  /** The cache as the lookup sees it: created empty when there is none yet. */
  function CacheOf(state: Option<MethodCache>): (c: MethodCache)
    requires CacheStateValid(state)
    ensures LruCache.Valid(c) && c.capacity == METHOD_CACHE_CAPACITY
    ensures state.None? ==> c.entries == []
  {
    if state.None? then LruCache.New(METHOD_CACHE_CAPACITY).value else state.value
  }

  // ---------------------------------------------------------------------------------------
  // Cache coherence

  /** Distinct lookups give distinct keys (as long as the class rendering and method names
      cannot forge the separators). */
  ghost predicate KeysDistinguish(render: JType -> string) {
    forall c1, n1, t1, c2, n2, t2 |
      ArrayUtils.IsArray(t1) && ArrayUtils.IsArray(t2) && CacheKey(render, c1, n1, t1) == CacheKey(render, c2, n2, t2)
      :: c1 == c2 && n1 == n2 && t1 == t2
  }

  /** The method of a cache entry is what resolution gives for every lookup with its key. */
  ghost predicate EntryCoherent(reg: Registry, render: JType -> string, p: (string, Member)) {
    forall cls, name, types | ArrayUtils.IsArray(types) && CacheKey(render, cls, name, types) == p.0
      :: cls.Some? && FindBestMethodMatch(reg, ObtainAvailableMethods(reg, cls.value), name, types) == Found(p.1)
  }

  /** Every cached entry is coherent. */
  ghost predicate Coherent(reg: Registry, render: JType -> string, cache: MethodCache) {
    forall p | p in cache.entries :: EntryCoherent(reg, render, p)
  }

  /** The cache is transparent: from a coherent cache, a lookup answers exactly what a fresh
      matcher would (a method when resolution finds one, `NoSuchMethodException` when it
      fails, `NullPointerException` for a `null` class), and the cache stays coherent. */
  lemma CacheIsTransparent(reg: Registry, render: JType -> string, state: Option<MethodCache>,
                           cls: Option<JType>, name: string, types: seq<JType>)
    requires CacheStateValid(state) && ArrayUtils.IsArray(types)
    requires KeysDistinguish(render)
    requires Coherent(reg, render, CacheOf(state))
    ensures var r := GeMethodThatBestMatches(reg, render, state, cls, name, types);
            && Coherent(reg, render, r.cache)
            && (cls.None? ==> r.result == Threw(NullPointer))
            && (cls.Some? ==>
                  var found := FindBestMethodMatch(reg, ObtainAvailableMethods(reg, cls.value), name, types);
                  && (found.Found? ==> r.result == Returned(found.member))
                  && (found.Failed? ==> r.result == Threw(NoSuchMethod)))
  {
    var key := CacheKey(render, cls, name, types);
    var cache := CacheOf(state);
    if LruCache.ContainsKey(cache, key) {
      var v := LruCache.Lookup(cache.entries, key).value;
      assert (key, v) in cache.entries;
      CoherentAfterGet(reg, render, cache, key);
    } else if cls.Some? {
      var found := FindBestMethodMatch(reg, ObtainAvailableMethods(reg, cls.value), name, types);
      if found.Found? {
        CoherentAfterPut(reg, render, cache, cls, name, types, found.member);
      }
    }
  }

  /** A `get` only reorders entries, so coherence survives it. */
  lemma CoherentAfterGet(reg: Registry, render: JType -> string, cache: MethodCache, key: string)
    requires LruCache.Valid(cache) && Coherent(reg, render, cache)
    ensures Coherent(reg, render, LruCache.Get(cache, key).1)
  {
    LruCache.GetEntriesFrom(cache, key);
  }

  /** Storing what resolution found for a lookup, under that lookup's key, keeps the cache
      coherent when keys distinguish lookups. */
  lemma CoherentAfterPut(reg: Registry, render: JType -> string, cache: MethodCache,
                         cls: Option<JType>, name: string, types: seq<JType>, m: Member)
    requires LruCache.Valid(cache) && ArrayUtils.IsArray(types)
    requires KeysDistinguish(render) && Coherent(reg, render, cache)
    requires cls.Some? && FindBestMethodMatch(reg, ObtainAvailableMethods(reg, cls.value), name, types) == Found(m)
    ensures Coherent(reg, render, LruCache.Put(cache, CacheKey(render, cls, name, types), m))
  {
    var key := CacheKey(render, cls, name, types);
    LruCache.PutEntriesFrom(cache, key, m);
    NewEntryCoherent(reg, render, cls, name, types, m);
  }

  /** Under distinguishing keys, a found method is coherent under its own lookup's key. */
  lemma NewEntryCoherent(reg: Registry, render: JType -> string, cls: Option<JType>, name: string,
                         types: seq<JType>, m: Member)
    requires ArrayUtils.IsArray(types) && KeysDistinguish(render)
    requires cls.Some? && FindBestMethodMatch(reg, ObtainAvailableMethods(reg, cls.value), name, types) == Found(m)
    ensures EntryCoherent(reg, render, (CacheKey(render, cls, name, types), m))
  {
    var key := CacheKey(render, cls, name, types);
    forall c2, n2, t2 | ArrayUtils.IsArray(t2) && CacheKey(render, c2, n2, t2) == key
      ensures c2.Some? && FindBestMethodMatch(reg, ObtainAvailableMethods(reg, c2.value), n2, t2) == Found(m)
    {
      assert c2 == cls && n2 == name && t2 == types;
    }
  }

  /** Asking twice in a row: after a lookup that returned a method, the same lookup hits the
      cache, builds no matcher and returns the same method. */
  lemma SecondLookupHits(reg: Registry, render: JType -> string, state: Option<MethodCache>,
                         cls: Option<JType>, name: string, types: seq<JType>)
    requires CacheStateValid(state) && ArrayUtils.IsArray(types)
    requires GeMethodThatBestMatches(reg, render, state, cls, name, types).result.Returned?
    ensures var first := GeMethodThatBestMatches(reg, render, state, cls, name, types);
            var second := GeMethodThatBestMatches(reg, render, Some(first.cache), cls, name, types);
            && !second.built
            && second.result == first.result
  {
    var key := CacheKey(render, cls, name, types);
    var cache := CacheOf(state);
    var first := GeMethodThatBestMatches(reg, render, state, cls, name, types);
    if first.built {
      LruCache.PutThenGet(cache, key, first.result.value);
    } else {
      LruCache.GetPromotes(cache, key);
      LruCache.LookupLast(first.cache.entries, key, first.result.value);
    }
  }

  // ---------------------------------------------------------------------------------------
  // Invocation

  /** `invokeClassMethod(cls, receiver, name, args)`: a `null` argument array counts as
      empty; the argument classes select the method through the cache; the selected method
      is then invoked, which `invoke` stands for. */
  function InvokeClassMethod<R>(reg: Registry, render: JType -> string, state: Option<MethodCache>,
                                cls: Option<JType>, name: string, args: Option<seq<Option<JType>>>,
                                invoke: Member -> Outcome<R>): (r: (Outcome<R>, MethodCache))
    requires CacheStateValid(state)
    requires args.Some? ==> ArrayUtils.IsArray(args.value)
    ensures CacheStateValid(Some(r.1))
    ensures var found := GeMethodThatBestMatches(reg, render, state, cls, name, ParameterTypesFrom(args));
            && r.1 == found.cache
            && (found.result.Threw? ==> r.0 == Threw(found.result.error))
            && (found.result.Returned? ==> r.0 == invoke(found.result.value))
  {
    var types := ParameterTypesFrom(args);
    var found := GeMethodThatBestMatches(reg, render, state, cls, name, types);
    match found.result
    case Threw(e) => (Threw(e), found.cache)
    case Returned(m) => (invoke(m), found.cache)
  }

  /** `invokeMethod(object, name, args)`: the receiver's runtime class selects; a `null`
      receiver throws before the cache is touched. */
  function InvokeMethod<R>(reg: Registry, render: JType -> string, state: Option<MethodCache>,
                           receiver: Option<JType>, name: string, args: Option<seq<Option<JType>>>,
                           invoke: Member -> Outcome<R>): (r: (Outcome<R>, Option<MethodCache>))
    requires CacheStateValid(state)
    requires args.Some? ==> ArrayUtils.IsArray(args.value)
    ensures CacheStateValid(r.1)
    ensures receiver.None? ==> r == (Threw(NullPointer), state)
    ensures receiver.Some? ==>
              var found := GeMethodThatBestMatches(reg, render, state, receiver, name, ParameterTypesFrom(args));
              && r.1 == Some(found.cache)
              && (found.result.Threw? ==> r.0 == Threw(found.result.error))
              && (found.result.Returned? ==> r.0 == invoke(found.result.value))
  {
    if receiver.None? then (Threw(NullPointer), state)
    else
      var done := InvokeClassMethod(reg, render, state, receiver, name, args, invoke);
      (done.0, Some(done.1))
  }

  /** `invokeStaticMethod(cls, name, args)`: no receiver; the class may be `null`. */
  function InvokeStaticMethod<R>(reg: Registry, render: JType -> string, state: Option<MethodCache>,
                                 cls: Option<JType>, name: string, args: Option<seq<Option<JType>>>,
                                 invoke: Member -> Outcome<R>): (r: (Outcome<R>, Option<MethodCache>))
    requires CacheStateValid(state)
    requires args.Some? ==> ArrayUtils.IsArray(args.value)
    ensures CacheStateValid(r.1)
    ensures var found := GeMethodThatBestMatches(reg, render, state, cls, name, ParameterTypesFrom(args));
            && r.1 == Some(found.cache)
            && (found.result.Threw? ==> r.0 == Threw(found.result.error))
            && (found.result.Returned? ==> r.0 == invoke(found.result.value))
  {
    var done := InvokeClassMethod(reg, render, state, cls, name, args, invoke);
    (done.0, Some(done.1))
  }

  /** The `...WithoutThrowing` variants: any exception becomes a `null` result. */
  function WithoutThrowing<R>(r: (Outcome<R>, Option<MethodCache>)): (q: (Option<R>, Option<MethodCache>))
    ensures q.1 == r.1
    ensures q.0.None? <==> r.0.Threw?
    ensures q.0.Some? ==> q.0.value == r.0.value
  {
    if r.0.Threw? then (None, r.1) else (Some(r.0.value), r.1)
  }

  /** `invokeMethod` on a `null` receiver never reaches the cache, and the non-throwing
      variant turns it into `null`. A static call on a `null` class does reach the cache (the
      key reads "null>...") but can never store anything. */
  lemma NullTargets<R>(reg: Registry, render: JType -> string, state: Option<MethodCache>,
                       name: string, args: Option<seq<Option<JType>>>, invoke: Member -> Outcome<R>)
    requires CacheStateValid(state)
    requires args.Some? ==> ArrayUtils.IsArray(args.value)
    ensures WithoutThrowing(InvokeMethod(reg, render, state, None, name, args, invoke)) == (None, state)
    ensures var r := InvokeStaticMethod(reg, render, state, None, name, args, invoke);
            && r.1 == Some(LruCache.Get(CacheOf(state), CacheKey(render, None, name, ParameterTypesFrom(args))).1)
            && (r.0.Threw? || !GeMethodThatBestMatches(reg, render, state, None, name, ParameterTypesFrom(args)).built)
  {
  }

  // ---------------------------------------------------------------------------------------
  // Construction

  /** `instantiateClass(cls, args, types)`: the given classes must equal a public
      constructor's parameter types exactly (`getConstructor`); the matcher is not used.
      `constructors` lists the class's public constructors; `construct` stands for
      `Constructor.newInstance`. */
  function InstantiateClassWithTypes<R>(constructors: seq<Member>, types: seq<JType>,
                                        construct: Member -> Outcome<R>): (r: Outcome<R>)
    ensures (forall i | 0 <= i < |constructors| :: constructors[i].params != types) ==> r == Threw(NoSuchMethod)
    ensures (exists i | 0 <= i < |constructors| :: constructors[i].params == types)
            ==> exists i | 0 <= i < |constructors| :: constructors[i].params == types && r == construct(constructors[i])
  {
    var i := FirstExactIndex(constructors, types);
    if i == |constructors| then Threw(NoSuchMethod) else construct(constructors[i])
  }

  /** `instantiateClass(cls, args)`: the classes are the arguments' runtime classes. */
  function InstantiateClass<R>(constructors: seq<Member>, args: Option<seq<Option<JType>>>,
                               construct: Member -> Outcome<R>): (r: Outcome<R>)
    requires args.Some? ==> ArrayUtils.IsArray(args.value)
    ensures args.None? || |args.value| == 0 ==> r == InstantiateClassWithTypes(constructors, [], construct)
  {
    InstantiateClassWithTypes(constructors, ParameterTypesFrom(args), construct)
  }

  /** Constructor lookup is exact: the first constructor whose parameter types equal the
      argument classes is used; widening and boxing are not tried, so a `null` argument
      (`Void.TYPE`) never finds a constructor, no constructor taking `void`. */
  lemma InstantiateClassIsExact<R>(constructors: seq<Member>, args: seq<Option<JType>>,
                                   construct: Member -> Outcome<R>)
    requires ArrayUtils.IsArray(args)
    requires forall i | 0 <= i < |constructors| :: VoidType !in constructors[i].params
    ensures None in args ==> InstantiateClass(constructors, Some(args), construct) == Threw(NoSuchMethod)
    ensures forall i | 0 <= i < |constructors| && constructors[i].params == ParameterTypesFrom(Some(args))
              && (forall j | 0 <= j < i :: constructors[j].params != ParameterTypesFrom(Some(args)))
              :: InstantiateClass(constructors, Some(args), construct) == construct(constructors[i])
  {
    var types := ParameterTypesFrom(Some(args));
    if None in args {
      var k :| 0 <= k < |args| && args[k] == None;
      assert types[k] == VoidType;
      forall i | 0 <= i < |constructors| ensures constructors[i].params != types {
        assert VoidType in types;
      }
    }
  }
}

=== FILE: scenarios.dfy ===
/** Concrete overload resolutions: the behaviour the resolution engine promises on small,
    fully written-out candidate lists. Argument types are the runtime classes of the values
    passed, so a `short` value arrives as its wrapper class `Short`, and `null` as `Void.TYPE`. */
module Scenarios {
  import opened JavaLang
  import opened Types
  import opened Hierarchy
  import opened Compatibility
  import opened Matcher

  const OBJECT: JType := ObjectClass
  const STRING: JType := Reference(1)
  const RUNNABLE: JType := Reference(2)
  const TASK: JType := Reference(3)

  /** `Object` at the root, with `String`, `Integer`, `Short` and a class `Task` implementing
      the interface `Runnable` directly below it; `Runnable`, an interface, has no superclass. */
  const REGISTRY: Registry := map[
    OBJECT := ClassInfo(0, None, [], true, []),
    RUNNABLE := ClassInfo(0, None, [], true, []),
    STRING := ClassInfo(1, Some(OBJECT), [], true, []),
    TASK := ClassInfo(1, Some(OBJECT), [RUNNABLE], true, []),
    Boxed(Int) := ClassInfo(1, Some(OBJECT), [], true, []),
    Boxed(Short) := ClassInfo(1, Some(OBJECT), [], true, [])]

  const INT_LONG: Member := Member([Primitive(Int), Primitive(Long)], 1)
  const LONG_INT: Member := Member([Primitive(Long), Primitive(Int)], 2)
  const OF_INT: Member := Member([Primitive(Int)], 3)
  const OF_LONG: Member := Member([Primitive(Long)], 4)
  const OF_STRING: Member := Member([STRING], 5)
  const OF_INTEGER: Member := Member([Boxed(Int)], 6)
  const OF_OBJECT: Member := Member([OBJECT], 7)
  const OF_RUNNABLE: Member := Member([RUNNABLE], 8)
  const OF_OBJECT_ARRAY: Member := Member([ArrayOf(OBJECT)], 9)

  /** When no candidate is an exact match and all are compatible, the scan keeps them all. */
  lemma {:induction false} ScanKeepsAll(reg: Registry, list: seq<Member>, args: seq<JType>)
    requires forall m | m in list :: m.params != args && ValuesAreCompatibleWithTypes(reg, args, m.params)
    ensures ScanCandidates(reg, list, args) == Compatible(list)
  {
    if list != [] {
      assert list[0] in list;
      assert forall m | m in list[1..] :: m in list;
      ScanKeepsAll(reg, list[1..], args);
      assert [list[0]] + list[1..] == list;
    }
  }

  /** With several compatible candidates and no exact match, resolution is the reduction. */
  lemma ResolvesByReduction(reg: Registry, list: seq<Member>, args: seq<JType>)
    requires |list| > 1
    requires forall m | m in list :: m.params != args && ValuesAreCompatibleWithTypes(reg, args, m.params)
    ensures FindMemberInList(reg, list, args) == FindMostSpecificMemberIn(reg, list)
  {
    ScanKeepsAll(reg, list, args);
  }

  /** The one-position and two-position signatures used here, compared by the loop. */
  lemma FitsOne(reg: Registry, a: JType, p: JType)
    ensures ValuesAreCompatibleWithTypes(reg, [a], [p]) == ArgumentFits(reg, a, p)
  {
    ValuesAreCompatibleWithTypesIff(reg, [a], [p]);
  }

  lemma FitsTwo(reg: Registry, a: JType, b: JType, p: JType, q: JType)
    ensures ValuesAreCompatibleWithTypes(reg, [a, b], [p, q]) == (ArgumentFits(reg, a, p) && ArgumentFits(reg, b, q))
  {
    ValuesAreCompatibleWithTypesIff(reg, [a, b], [p, q]);
    if ArgumentFits(reg, a, p) && ArgumentFits(reg, b, q) {
      forall i | 0 <= i < 2 ensures ArgumentFits(reg, [a, b][i], [p, q][i]) {
        if i == 0 {
          assert [a, b][i] == a && [p, q][i] == p;
        } else {
          assert [a, b][i] == b && [p, q][i] == q;
        }
      }
    } else {
      assert [a, b][0] == a && [p, q][0] == p && [a, b][1] == b && [p, q][1] == q;
    }
  }

  /** Folding the reduction over two and three candidates, one `Step` at a time. */
  lemma FoldTwo(reg: Registry, a: Member, b: Member)
    ensures MostSpecificSet(reg, [], [a, b]) == Step(reg, [a], b)
  {
    assert [a, b][1..] == [b] && [b][1..] == [];
    assert Step(reg, [], a) == [a];
    assert MostSpecificSet(reg, [], [a, b]) == MostSpecificSet(reg, [a], [b]);
    assert MostSpecificSet(reg, [a], [b]) == MostSpecificSet(reg, Step(reg, [a], b), []);
  }

  lemma FoldThree(reg: Registry, a: Member, b: Member, c: Member)
    ensures MostSpecificSet(reg, [], [a, b, c]) == Step(reg, Step(reg, [a], b), c)
  {
    assert [a, b, c][1..] == [b, c] && [b, c][1..] == [c] && [c][1..] == [];
    assert Step(reg, [], a) == [a];
    var ab := Step(reg, [a], b);
    assert MostSpecificSet(reg, [], [a, b, c]) == MostSpecificSet(reg, [a], [b, c]);
    assert MostSpecificSet(reg, [a], [b, c]) == MostSpecificSet(reg, ab, [c]);
    assert MostSpecificSet(reg, ab, [c]) == MostSpecificSet(reg, Step(reg, ab, c), []);
  }

  /** Overloads `(int, long)` and `(long, int)` both accept two `Short` arguments, neither is
      more specific than the other, and resolution fails as ambiguous in either order. */
  lemma CrossedWideningIsAmbiguous()
    ensures FindMemberInList(REGISTRY, [INT_LONG, LONG_INT], [Boxed(Short), Boxed(Short)]) == Failed(Ambiguous)
    ensures FindMemberInList(REGISTRY, [LONG_INT, INT_LONG], [Boxed(Short), Boxed(Short)]) == Failed(Ambiguous)
  {
    var args := [Boxed(Short), Boxed(Short)];
    FitsTwo(REGISTRY, Boxed(Short), Boxed(Short), Primitive(Int), Primitive(Long));
    FitsTwo(REGISTRY, Boxed(Short), Boxed(Short), Primitive(Long), Primitive(Int));
    FitsTwo(REGISTRY, Primitive(Int), Primitive(Long), Primitive(Long), Primitive(Int));
    FitsTwo(REGISTRY, Primitive(Long), Primitive(Int), Primitive(Int), Primitive(Long));
    assert !MoreSpecific(REGISTRY, INT_LONG, LONG_INT) && !MoreSpecific(REGISTRY, LONG_INT, INT_LONG);
    ResolvesByReduction(REGISTRY, [INT_LONG, LONG_INT], args);
    ResolvesByReduction(REGISTRY, [LONG_INT, INT_LONG], args);
    FoldTwo(REGISTRY, INT_LONG, LONG_INT);
    FoldTwo(REGISTRY, LONG_INT, INT_LONG);
  }

  /** A `null` argument fits `(String)` but not `(int)`, so `(String)` is chosen; with only
      `(int)` on offer nothing fits. */
  lemma NullArgumentPicksReferenceParameter()
    ensures FindMemberInList(REGISTRY, [OF_STRING, OF_INT], [VoidType]) == Found(OF_STRING)
    ensures FindMemberInList(REGISTRY, [OF_INT, OF_STRING], [VoidType]) == Found(OF_STRING)
    ensures FindMemberInList(REGISTRY, [OF_INT], [VoidType]) == Failed(MethodNotFound)
  {
    FitsOne(REGISTRY, VoidType, STRING);
    FitsOne(REGISTRY, VoidType, Primitive(Int));
    assert ScanCandidates(REGISTRY, [OF_INT], [VoidType]) == Compatible([]);
    assert ScanCandidates(REGISTRY, [OF_STRING], [VoidType]) == Compatible([OF_STRING]);
    assert [OF_STRING, OF_INT][1..] == [OF_INT] && [OF_INT, OF_STRING][1..] == [OF_STRING];
  }

  /** A `Byte` argument against `(int)` and `(long)` selects the narrower `(int)`, whichever
      comes first. */
  lemma ByteSelectsNarrowestWidening()
    ensures FindMemberInList(REGISTRY, [OF_INT, OF_LONG], [Boxed(Byte)]) == Found(OF_INT)
    ensures FindMemberInList(REGISTRY, [OF_LONG, OF_INT], [Boxed(Byte)]) == Found(OF_INT)
  {
    FitsOne(REGISTRY, Boxed(Byte), Primitive(Int));
    FitsOne(REGISTRY, Boxed(Byte), Primitive(Long));
    FitsOne(REGISTRY, Primitive(Int), Primitive(Long));
    FitsOne(REGISTRY, Primitive(Long), Primitive(Int));
    assert MoreSpecific(REGISTRY, OF_INT, OF_LONG) && !MoreSpecific(REGISTRY, OF_LONG, OF_INT);
    ResolvesByReduction(REGISTRY, [OF_INT, OF_LONG], [Boxed(Byte)]);
    ResolvesByReduction(REGISTRY, [OF_LONG, OF_INT], [Boxed(Byte)]);
    FoldTwo(REGISTRY, OF_INT, OF_LONG);
    FoldTwo(REGISTRY, OF_LONG, OF_INT);
  }

  /** An `Integer` argument picks `(Integer)` by exact match even though `(long)` comes first
      and also accepts it. */
  lemma ExactMatchBeatsWidening()
    ensures FindMemberInList(REGISTRY, [OF_LONG, OF_INTEGER], [Boxed(Int)]) == Found(OF_INTEGER)
  {
    FindMemberInListOutcome(REGISTRY, [OF_LONG, OF_INTEGER], [Boxed(Int)]);
    assert FirstExactIndex([OF_LONG, OF_INTEGER], [Boxed(Int)]) == 1;
  }

  /** Overloads `(Runnable)` and `(Object)` with an argument of a class implementing
      `Runnable`: both accept it, and `(Runnable)` is the more specific because `Object` is
      assignable from the interface, so it is chosen in either order. */
  lemma InterfaceBeatsObject()
    ensures FindMemberInList(REGISTRY, [OF_RUNNABLE, OF_OBJECT], [TASK]) == Found(OF_RUNNABLE)
    ensures FindMemberInList(REGISTRY, [OF_OBJECT, OF_RUNNABLE], [TASK]) == Found(OF_RUNNABLE)
  {
    assert InterfacesOf(REGISTRY, TASK) == [RUNNABLE];
    assert IsAncestor(REGISTRY, TASK, RUNNABLE);
    assert !IsAncestor(REGISTRY, OBJECT, RUNNABLE);
    FitsOne(REGISTRY, TASK, RUNNABLE);
    FitsOne(REGISTRY, TASK, OBJECT);
    FitsOne(REGISTRY, RUNNABLE, OBJECT);
    FitsOne(REGISTRY, OBJECT, RUNNABLE);
    assert MoreSpecific(REGISTRY, OF_RUNNABLE, OF_OBJECT) && !MoreSpecific(REGISTRY, OF_OBJECT, OF_RUNNABLE);
    ResolvesByReduction(REGISTRY, [OF_RUNNABLE, OF_OBJECT], [TASK]);
    ResolvesByReduction(REGISTRY, [OF_OBJECT, OF_RUNNABLE], [TASK]);
    FoldTwo(REGISTRY, OF_RUNNABLE, OF_OBJECT);
    FoldTwo(REGISTRY, OF_OBJECT, OF_RUNNABLE);
  }

  /** A `String[]` argument against `(Object)` and `(Object[])`: arrays are covariant, so
      both accept it, and `(Object[])` is the more specific. */
  lemma CovariantArrayArgument()
    ensures FindMemberInList(REGISTRY, [OF_OBJECT, OF_OBJECT_ARRAY], [ArrayOf(STRING)]) == Found(OF_OBJECT_ARRAY)
    ensures FindMemberInList(REGISTRY, [OF_OBJECT_ARRAY, OF_OBJECT], [ArrayOf(STRING)]) == Found(OF_OBJECT_ARRAY)
  {
    assert IsAncestor(REGISTRY, STRING, OBJECT);
    assert IsAssignableFrom(REGISTRY, OBJECT, STRING);
    assert !IsAncestor(REGISTRY, OBJECT, ArrayOf(OBJECT));
    FitsOne(REGISTRY, ArrayOf(STRING), OBJECT);
    FitsOne(REGISTRY, ArrayOf(STRING), ArrayOf(OBJECT));
    FitsOne(REGISTRY, ArrayOf(OBJECT), OBJECT);
    FitsOne(REGISTRY, OBJECT, ArrayOf(OBJECT));
    assert MoreSpecific(REGISTRY, OF_OBJECT_ARRAY, OF_OBJECT) && !MoreSpecific(REGISTRY, OF_OBJECT, OF_OBJECT_ARRAY);
    ResolvesByReduction(REGISTRY, [OF_OBJECT, OF_OBJECT_ARRAY], [ArrayOf(STRING)]);
    ResolvesByReduction(REGISTRY, [OF_OBJECT_ARRAY, OF_OBJECT], [ArrayOf(STRING)]);
    FoldTwo(REGISTRY, OF_OBJECT, OF_OBJECT_ARRAY);
    FoldTwo(REGISTRY, OF_OBJECT_ARRAY, OF_OBJECT);
  }

  /** The incremental reduction depends on the order of the candidates. For a `Short` argument,
      `(Integer)` and `(int)` are each more specific than the other, `(Integer)` is more
      specific than `(Object)`, and `(int)` and `(Object)` are incomparable: listing `(Integer)`
      first leaves `(int)` and `(Object)` in the set, listing `(int)` first leaves `(Integer)`
      alone. */
  lemma ReductionDependsOnOrder()
    ensures FindMemberInList(REGISTRY, [OF_INTEGER, OF_INT, OF_OBJECT], [Boxed(Short)]) == Failed(Ambiguous)
    ensures FindMemberInList(REGISTRY, [OF_INT, OF_INTEGER, OF_OBJECT], [Boxed(Short)]) == Found(OF_INTEGER)
  {
    ShortOverloads();
    ResolvesByReduction(REGISTRY, [OF_INTEGER, OF_INT, OF_OBJECT], [Boxed(Short)]);
    ResolvesByReduction(REGISTRY, [OF_INT, OF_INTEGER, OF_OBJECT], [Boxed(Short)]);
    IntegerListedFirst();
    IntListedFirst();
  }

  /** How `(Integer)`, `(int)` and `(Object)` relate, and that each accepts a `Short`. */
  lemma ShortOverloads()
    ensures forall m | m in [OF_INTEGER, OF_INT, OF_OBJECT] ::
              m.params != [Boxed(Short)] && ValuesAreCompatibleWithTypes(REGISTRY, [Boxed(Short)], m.params)
    ensures MoreSpecific(REGISTRY, OF_INTEGER, OF_INT) && MoreSpecific(REGISTRY, OF_INT, OF_INTEGER)
    ensures MoreSpecific(REGISTRY, OF_INTEGER, OF_OBJECT) && !MoreSpecific(REGISTRY, OF_OBJECT, OF_INTEGER)
    ensures !MoreSpecific(REGISTRY, OF_INT, OF_OBJECT) && !MoreSpecific(REGISTRY, OF_OBJECT, OF_INT)
  {
    assert SuperclassOf(REGISTRY, Boxed(Short)) == Some(OBJECT);
    assert SuperclassOf(REGISTRY, Boxed(Int)) == Some(OBJECT);
    assert IsAncestor(REGISTRY, Boxed(Short), OBJECT);
    assert IsAncestor(REGISTRY, Boxed(Int), OBJECT);
    FitsOne(REGISTRY, Boxed(Short), Boxed(Int));
    FitsOne(REGISTRY, Boxed(Short), Primitive(Int));
    FitsOne(REGISTRY, Boxed(Short), OBJECT);
    FitsOne(REGISTRY, Boxed(Int), Primitive(Int));
    FitsOne(REGISTRY, Primitive(Int), Boxed(Int));
    FitsOne(REGISTRY, Boxed(Int), OBJECT);
    FitsOne(REGISTRY, Primitive(Int), OBJECT);
    FitsOne(REGISTRY, OBJECT, Primitive(Int));
    FitsOne(REGISTRY, OBJECT, Boxed(Int));
  }

  /** `(Integer)` first: `(int)` replaces it, then `(Object)` joins `(int)`. */
  lemma IntegerListedFirst()
    ensures FindMostSpecificMemberIn(REGISTRY, [OF_INTEGER, OF_INT, OF_OBJECT]) == Failed(Ambiguous)
  {
    ShortOverloads();
    assert Step(REGISTRY, [OF_INTEGER], OF_INT) == [OF_INT];
    assert Step(REGISTRY, [OF_INT], OF_OBJECT) == [OF_INT, OF_OBJECT];
    FoldThree(REGISTRY, OF_INTEGER, OF_INT, OF_OBJECT);
  }

  /** `(int)` first: `(Integer)` replaces it and then absorbs `(Object)`. */
  lemma IntListedFirst()
    ensures FindMostSpecificMemberIn(REGISTRY, [OF_INT, OF_INTEGER, OF_OBJECT]) == Found(OF_INTEGER)
  {
    ShortOverloads();
    assert Step(REGISTRY, [OF_INT], OF_INTEGER) == [OF_INTEGER];
    assert Step(REGISTRY, [OF_INTEGER], OF_OBJECT) == [OF_INTEGER];
    FoldThree(REGISTRY, OF_INT, OF_INTEGER, OF_OBJECT);
  }
}

=== FILE: types.dfy ===
/** The abstract type universe the resolution engine works over, and the fixed primitive
    tables of `ReflectionUtils`: the wrapper-to-primitive map and the widening map. */
module Types {
  import opened JavaLang

  /** The eight Java primitive kinds. */
  datatype Prim = Boolean | Byte | Char | Short | Int | Long | Float | Double

  /** A `Class` as the engine sees it: a primitive class, a primitive wrapper class
      (`Integer` for `Int`, ...), `Object`, an array class by its component type, any other
      class or interface by opaque id, or `Void.TYPE`, the sentinel the engine uses as the
      type of a `null` argument. */
  datatype JType =
    | Primitive(kind: Prim)
    | Boxed(kind: Prim)
    | ObjectClass
    | ArrayOf(component: JType)
    | Reference(id: nat)
    | VoidType

  /** `Class.isPrimitive()`: true of the eight primitive classes and of `Void.TYPE`. */
  predicate IsPrimitiveClass(t: JType) {
    t.Primitive? || t.VoidType?
  }

  /** `getPrimitiveEquivalentOf`: a primitive class is its own equivalent, a wrapper class
      maps to its primitive, and every other class has none (`null`). */
  function PrimitiveEquivalentOf(t: JType): (r: Option<JType>)
    ensures r.Some? ==> IsPrimitiveClass(r.value)
    ensures r.Some? <==> IsPrimitiveClass(t) || t.Boxed?
    ensures t.Boxed? ==> r == Some(Primitive(t.kind))
    ensures IsPrimitiveClass(t) ==> r == Some(t)
  {
    if IsPrimitiveClass(t) then Some(t)
    else if t.Boxed? then Some(Primitive(t.kind))
    else None
  }

  /** `ourPrimitiveWideningsMap.get(value)`: the primitive classes a value class widens to;
      `Boolean`, `Double` and `Void.TYPE` have no entry. */
  function PrimitiveWideningsOf(value: JType): Option<set<JType>> {
    match value
    case Primitive(Byte) =>
      Some({Primitive(Short), Primitive(Int), Primitive(Long), Primitive(Float), Primitive(Double)})
    case Primitive(Char) =>
      Some({Primitive(Int), Primitive(Long), Primitive(Float), Primitive(Double)})
    case Primitive(Short) =>
      Some({Primitive(Int), Primitive(Long), Primitive(Float), Primitive(Double)})
    case Primitive(Int) =>
      Some({Primitive(Long), Primitive(Float), Primitive(Double)})
    case Primitive(Long) =>
      Some({Primitive(Float), Primitive(Double)})
    case Primitive(Float) =>
      Some({Primitive(Double)})
    case _ => None
  }

  /** `primitiveIsAssignableFrom(parameterClass, valueClass)`; `None` stands for `null`. */
  function PrimitiveIsAssignableFrom(param: Option<JType>, value: Option<JType>): bool {
    if param.None? || value.None? then false
    else if !IsPrimitiveClass(param.value) || !IsPrimitiveClass(value.value) then false
    else if param.value == value.value then true
    else
      match PrimitiveWideningsOf(value.value)
      case None => false
      case Some(widenings) => param.value in widenings
  }

  /** The numeric kinds, in the order of the widening conversions of section 5.1.2 of the
      Java Language Specification (`Short` and `Char` share a rank: neither widens to the other). */
  function NumericRank(p: Prim): nat {
    match p
    case Boolean => 0
    case Byte => 1
    case Short => 2
    case Char => 2
    case Int => 3
    case Long => 4
    case Float => 5
    case Double => 6
  }

  /** Reference definition of a widening primitive conversion, independent of the table:
      between two numeric kinds, to a strictly higher rank, never to `byte` or `char`. */
  predicate Widens(from: Prim, to: Prim) {
    && from != Boolean && to != Boolean
    && to != Byte && to != Char
    && NumericRank(from) < NumericRank(to)
  }

  /** The widening table agrees with the reference definition: between primitive classes,
      `PrimitiveIsAssignableFrom` holds exactly for identity and widening. */
  lemma PrimitiveIsAssignableFromIsWidening(param: Prim, value: Prim)
    ensures PrimitiveIsAssignableFrom(Some(Primitive(param)), Some(Primitive(value)))
            <==> param == value || Widens(value, param)
  {
  }

  /** `primitiveIsAssignableFrom` is false when either side is `null` or not primitive, and
      nothing widens from `boolean`, nor to `byte`, `char` or `boolean`. */
  lemma PrimitiveIsAssignableFromRejects(param: Option<JType>, value: Option<JType>)
    ensures param.None? || value.None? ==> !PrimitiveIsAssignableFrom(param, value)
    ensures param.Some? && !IsPrimitiveClass(param.value) ==> !PrimitiveIsAssignableFrom(param, value)
    ensures value.Some? && !IsPrimitiveClass(value.value) ==> !PrimitiveIsAssignableFrom(param, value)
    ensures param.Some? && value.Some? && IsPrimitiveClass(param.value) && param == value
            ==> PrimitiveIsAssignableFrom(param, value)
    ensures value == Some(Primitive(Boolean)) && param != value ==> !PrimitiveIsAssignableFrom(param, value)
    ensures param.Some? && param.value in {Primitive(Byte), Primitive(Char), Primitive(Boolean)} && param != value
            ==> !PrimitiveIsAssignableFrom(param, value)
  {
  }
}

=== FILE: wifi_configuration.dfy ===
/** `WifiConfigurationWrapper`: reads of a Wi-Fi network configuration that turn the raw,
    reflectively read fields into plain answers, falling back to a fixed answer whenever a
    read fails. Each reflective read is an input here: an `Outcome` carrying the value read
    or the exception raised. */
module WifiConfiguration {
  import opened JavaLang

  // ---------------------------------------------------------------------------------------
  // Disable reason

  const NOT_DISABLED: int := -1
  const DISABLED_UNKNOWN_REASON: int := 0
  const DISABLED_DNS_FAILURE: int := 1
  const DISABLED_DHCP_FAILURE: int := 2
  const DISABLED_AUTH_FAILURE: int := 3
  const DISABLED_ASSOCIATION_REJECT: int := 4

  /** `getDisableReason()`: the text for the `disableReason` field; an unlisted code, code 0
      and a failed read all give "Unknown". */
  function DisableReason(read: Outcome<int>): (r: string)
    ensures read.Threw? ==> r == "Unknown"
    ensures r in {"Enabled", "Unknown", "DNS", "DHCP", "Auth", "Association Reject"}
  {
    match read
    case Threw(_) => "Unknown"
    case Returned(code) =>
      if code == NOT_DISABLED then "Enabled"
      else if code == DISABLED_DNS_FAILURE then "DNS"
      else if code == DISABLED_DHCP_FAILURE then "DHCP"
      else if code == DISABLED_AUTH_FAILURE then "Auth"
      else if code == DISABLED_ASSOCIATION_REJECT then "Association Reject"
      else "Unknown"
  }

  /** The codes with a text of their own, read back from the text. */
  function ReasonCode(text: string): (r: Option<int>)
    ensures r.Some? ==> DisableReason(Returned(r.value)) == text
    ensures r.None? ==> text !in {"Enabled", "DNS", "DHCP", "Auth", "Association Reject"}
  {
    if text == "Enabled" then Some(NOT_DISABLED)
    else if text == "DNS" then Some(DISABLED_DNS_FAILURE)
    else if text == "DHCP" then Some(DISABLED_DHCP_FAILURE)
    else if text == "Auth" then Some(DISABLED_AUTH_FAILURE)
    else if text == "Association Reject" then Some(DISABLED_ASSOCIATION_REJECT)
    else None
  }

  /** The table is one-to-one on the listed codes: their texts give the code back, and every
      other code, and every failed read, gives the one shared text "Unknown". */
  lemma DisableReasonTable(code: int)
    ensures code in {-1, 1, 2, 3, 4} ==> ReasonCode(DisableReason(Returned(code))) == Some(code)
    ensures code !in {-1, 1, 2, 3, 4} <==> DisableReason(Returned(code)) == "Unknown"
    ensures ReasonCode("Unknown") == None
  {
  }

  // ---------------------------------------------------------------------------------------
  // Enumerations read by name

  datatype IpAssignment = IpStatic | Dhcp | IpUnassigned

  datatype ProxySettings = ProxyNone | ProxyStatic | ProxyUnassigned | Pac

  function IpAssignmentName(a: IpAssignment): string {
    match a
    case IpStatic => "STATIC"
    case Dhcp => "DHCP"
    case IpUnassigned => "UNASSIGNED"
  }

  function ProxySettingsName(p: ProxySettings): string {
    match p
    case ProxyNone => "NONE"
    case ProxyStatic => "STATIC"
    case ProxyUnassigned => "UNASSIGNED"
    case Pac => "PAC"
  }

  /** `getIpAssignment()`: `IpAssignment.valueOf` of the field's enum name; a failed read or a
      name with no constant (`valueOf` throws) gives `UNASSIGNED`. */
  function GetIpAssignment(name: Outcome<string>): (r: IpAssignment)
    ensures name.Threw? ==> r == IpUnassigned
    ensures name.Returned? && r != IpUnassigned ==> IpAssignmentName(r) == name.value
  {
    match name
    case Threw(_) => IpUnassigned
    case Returned(n) =>
      if n == "STATIC" then IpStatic
      else if n == "DHCP" then Dhcp
      else IpUnassigned
  }

  /** `getProxySettings()`: the same for `ProxySettings`. */
  function GetProxySettings(name: Outcome<string>): (r: ProxySettings)
    ensures name.Threw? ==> r == ProxyUnassigned
    ensures name.Returned? && r != ProxyUnassigned ==> ProxySettingsName(r) == name.value
  {
    match name
    case Threw(_) => ProxyUnassigned
    case Returned(n) =>
      if n == "NONE" then ProxyNone
      else if n == "STATIC" then ProxyStatic
      else if n == "PAC" then Pac
      else ProxyUnassigned
  }

  /** Reading a constant's own name gives the constant back; any name that is no constant's
      gives `UNASSIGNED`. */
  lemma EnumNamesRoundTrip(a: IpAssignment, p: ProxySettings, other: string)
    ensures GetIpAssignment(Returned(IpAssignmentName(a))) == a
    ensures GetProxySettings(Returned(ProxySettingsName(p))) == p
    ensures other !in {"STATIC", "DHCP"} ==> GetIpAssignment(Returned(other)) == IpUnassigned
    ensures other !in {"NONE", "STATIC", "PAC"} ==> GetProxySettings(Returned(other)) == ProxyUnassigned
  {
  }

  // ---------------------------------------------------------------------------------------
  // Gateway

  /** A route as `getGateway()` reads it: the result of its `isDefaultRoute()` (which throws
      when the reflective call fails and the `null` result is unboxed) and of its
      `getGateway()` (an address, `null`, or an exception from the cast). */
  datatype Route = Route(isDefault: Outcome<bool>, gateway: Outcome<Option<nat>>)

  /** `getGateway()`: start from the loopback address `InetAddress.getByName(null)` gives,
      walk the routes in order, and take the gateway of the first default route. Any exception
      leaves the loop with the address as it stood. `getRoutes()` gives the empty list when
      the link properties cannot be read. */
  function GetGateway(fallback: Option<nat>, routes: seq<Route>): (r: Option<nat>)
    ensures routes == [] ==> r == fallback
    ensures r == fallback || exists i | 0 <= i < |routes| :: routes[i].gateway == Returned(r)
    decreases |routes|
  {
    if routes == [] then fallback
    else
      match routes[0].isDefault
      case Threw(_) => fallback
      case Returned(false) =>
        var r := GetGateway(fallback, routes[1..]);
        assert r != fallback ==> exists i | 0 <= i < |routes| :: routes[i].gateway == Returned(r) by {
          if r != fallback {
            var k :| 0 <= k < |routes[1..]| && routes[1..][k].gateway == Returned(r);
            assert routes[k + 1].gateway == Returned(r);
          }
        }
        r
      case Returned(true) =>
        match routes[0].gateway
        case Threw(_) => fallback
        case Returned(g) => g
  }

  /** Every read along the way succeeds. */
  predicate ReadsSucceed(routes: seq<Route>) {
    forall i | 0 <= i < |routes| :: routes[i].isDefault.Returned? && routes[i].gateway.Returned?
  }

  predicate IsDefaultAt(routes: seq<Route>, i: int) {
    0 <= i < |routes| && routes[i].isDefault == Returned(true)
  }

  /** With every read succeeding, the result is the gateway of the first default route, and
      the fallback exactly when no route is a default route. */
  lemma {:induction false} GatewayOfFirstDefault(fallback: Option<nat>, routes: seq<Route>)
    requires ReadsSucceed(routes)
    ensures (forall i | 0 <= i < |routes| :: !IsDefaultAt(routes, i)) ==> GetGateway(fallback, routes) == fallback
    ensures forall k | IsDefaultAt(routes, k) && (forall j | 0 <= j < k :: !IsDefaultAt(routes, j))
              :: GetGateway(fallback, routes) == routes[k].gateway.value
    decreases |routes|
  {
    if routes != [] {
      var tail := routes[1..];
      assert ReadsSucceed(tail) by {
        forall i | 0 <= i < |tail| ensures tail[i].isDefault.Returned? && tail[i].gateway.Returned? {
          assert tail[i] == routes[i + 1];
        }
      }
      GatewayOfFirstDefault(fallback, tail);
      if !IsDefaultAt(routes, 0) {
        assert routes[0].isDefault.Returned? && !routes[0].isDefault.value;
        assert GetGateway(fallback, routes) == GetGateway(fallback, tail);
        forall k | IsDefaultAt(routes, k) && (forall j | 0 <= j < k :: !IsDefaultAt(routes, j))
          ensures GetGateway(fallback, routes) == routes[k].gateway.value
        {
          assert IsDefaultAt(tail, k - 1) && tail[k - 1] == routes[k];
          forall j | 0 <= j < k - 1 ensures !IsDefaultAt(tail, j) {
            assert tail[j] == routes[j + 1];
            assert !IsDefaultAt(routes, j + 1);
          }
        }
        if forall i | 0 <= i < |routes| :: !IsDefaultAt(routes, i) {
          forall i | 0 <= i < |tail| ensures !IsDefaultAt(tail, i) {
            assert tail[i] == routes[i + 1];
            assert !IsDefaultAt(routes, i + 1);
          }
        }
      }
    }
  }

  /** A failing `isDefaultRoute()` ahead of the default route hides it: the loop is left and
      the fallback returned. */
  lemma FailedReadHidesLaterRoutes(fallback: Option<nat>, bad: Route, rest: seq<Route>)
    requires bad.isDefault.Threw?
    ensures GetGateway(fallback, [bad] + rest) == fallback
  {
  }
}

=== FILE: wifi_utils.dfy ===
/** `WifiUtils`: how a user-typed WPA or WEP key is made acceptable to `wpa_supplicant`.
    A key written as hexadecimal digits of the right length is passed through raw; any
    other key is treated as a passphrase and put in double quotes. */
module WifiUtils {
  import opened JavaLang

  /** The length of a raw WPA key: 64 hexadecimal digits. */
  const WPA_HEX_LENGTH: nat := 64

  /** The lengths of raw WEP keys in hexadecimal digits: WEP-40, WEP-104 and 256-bit WEP. */
  const WEP_HEX_LENGTHS: set<nat> := {10, 26, 58}

  predicate IsHexDigit(c: char) {
    ('0' <= c <= '9') || ('A' <= c <= 'F') || ('a' <= c <= 'f')
  }

  /** `s.matches("[0-9A-Fa-f]*")`. */
  predicate AllHex(s: string) {
    forall i | 0 <= i < |s| :: IsHexDigit(s[i])
  }

  /** `'"' + value + '"'`: a `null` value is written as `null` between the quotes. */
  function QuotedString(value: Option<string>): (r: string)
    ensures |r| >= 2 && r[0] == '"' && r[|r| - 1] == '"'
    ensures value.Some? ==> r[1..|r| - 1] == value.value
    ensures value.None? ==> r == "\"null\""
  {
    "\"" + (if value.None? then "null" else value.value) + "\""
  }

  /** `getWPASupplicantCompatibleWirelessWPAKey`: `null`, empty and 64-hex-digit keys are
      returned as they are; anything else is quoted. */
  function WpaKey(key: Option<string>): (r: Option<string>)
    ensures r.None? <==> key.None?
  {
    if key.None? || |key.value| == 0 || (|key.value| == WPA_HEX_LENGTH && AllHex(key.value)) then key
    else Some(QuotedString(key))
  }

  /** `getWPASupplicantCompatibleWirelessWEPKey`: `null` and empty keys are returned as they
      are, and so are all-hex keys of a WEP length; anything else is quoted. */
  function WepKey(key: Option<string>): (r: Option<string>)
    ensures r.None? <==> key.None?
  {
    if key.None? || |key.value| == 0 then key
    else if |key.value| in WEP_HEX_LENGTHS && AllHex(key.value) then key
    else Some(QuotedString(key))
  }

  /** A quoted key is the key with one quote added at each end. */
  predicate IsQuotedForm(r: string, key: string) {
    |r| == |key| + 2 && r[0] == '"' && r[|r| - 1] == '"' && r[1..|r| - 1] == key
  }

  /** The WPA rule, both ways: the key comes back unchanged exactly when it is `null`, empty or
      64 hex digits, and otherwise it comes back quoted. */
  lemma WpaKeyRule(key: Option<string>)
    ensures WpaKey(key) == key <==>
              key.None? || |key.value| == 0 || (|key.value| == 64 && AllHex(key.value))
    ensures WpaKey(key) != key ==> key.Some? && IsQuotedForm(WpaKey(key).value, key.value)
  {
    if key.Some? && WpaKey(key) != key {
      QuotingChangesKey(key.value);
    }
    if key.Some? && !(|key.value| == 0 || (|key.value| == 64 && AllHex(key.value))) {
      QuotingChangesKey(key.value);
    }
  }

  /** The WEP rule, both ways: unchanged exactly for `null`, empty, and all-hex keys of length
      10, 26 or 58; otherwise quoted. */
  lemma WepKeyRule(key: Option<string>)
    ensures WepKey(key) == key <==>
              key.None? || |key.value| == 0 || (|key.value| in {10, 26, 58} && AllHex(key.value))
    ensures WepKey(key) != key ==> key.Some? && IsQuotedForm(WepKey(key).value, key.value)
  {
    if key.Some? && !(|key.value| == 0 || (|key.value| in {10, 26, 58} && AllHex(key.value))) {
      QuotingChangesKey(key.value);
    }
  }

  /** Quoting always changes a string: it grows by two. */
  lemma QuotingChangesKey(key: string)
    ensures IsQuotedForm(QuotedString(Some(key)), key)
    ensures QuotedString(Some(key)) != key
  {
  }

  /** Quoting is injective: the key is recovered by stripping the first and last characters. */
  lemma QuotedStringRoundTrip(a: string, b: string)
    ensures var q := QuotedString(Some(a)); q[1..|q| - 1] == a
    ensures QuotedString(Some(a)) == QuotedString(Some(b)) ==> a == b
  {
    var qa := QuotedString(Some(a));
    var qb := QuotedString(Some(b));
    if qa == qb {
      assert qa[1..|qa| - 1] == qb[1..|qb| - 1];
    }
  }

  lemma AllHexAppend(a: string, b: string)
    requires AllHex(a) && AllHex(b)
    ensures AllHex(a + b)
  {
    forall i | 0 <= i < |a + b| ensures IsHexDigit((a + b)[i]) {
      if i < |a| {
        assert (a + b)[i] == a[i];
      } else {
        assert (a + b)[i] == b[i - |a|];
      }
    }
  }

  /** A 64-hex-digit key is raw for WPA but quoted for WEP, and a 10-hex-digit key the other
      way round; a passphrase is quoted for both. */
  lemma KeyExamples()
    ensures WpaKey(Some("0123456789")) == Some("\"0123456789\"")
    ensures WepKey(Some("0123456789")) == Some("0123456789")
    ensures WpaKey(Some("secret")) == Some("\"secret\"") && WepKey(Some("secret")) == Some("\"secret\"")
    ensures WpaKey(Some("")) == Some("") && WepKey(None) == None
    ensures var d := "0123456789abcdef"; var k := Some(d + d + d + d);
            WpaKey(k) == k && WepKey(k) == Some("\"" + k.value + "\"")
  {
    var d := "0123456789abcdef";
    assert AllHex(d) by {
      forall i | 0 <= i < |d| ensures IsHexDigit(d[i]) {
      }
    }
    AllHexAppend(d, d);
    AllHexAppend(d + d, d);
    AllHexAppend(d + d + d, d);
    assert AllHex("0123456789") by {
      var s := "0123456789";
      forall i | 0 <= i < |s| ensures IsHexDigit(s[i]) {
      }
    }
    assert QuotedString(Some("0123456789")) == "\"0123456789\"";
    assert QuotedString(Some("secret")) == "\"secret\"";
  }
}
